=== FILE: README.md ===
# Prog-lang interpreter core in Dafny

This project models the core of the Prog-lang interpreter, a tree-walking
interpreter written in Java, and proves properties of the model. It has four parts:

- **Scanner** (`scanner.dfy`, `tokens.dfy`). One left-to-right pass over the
  source text.
  - It produces tokens and collects "Unexpected character." and
    "Unterminated string." diagnostics without stopping.
  - The text always ends in one EOF token.
  - It keeps the quirks of Scanner.java: a lower-case `o` is intercepted (`or` becomes
    OR, any other `o` is dropped), and a fractional part needs a digit after the
    `.`.
- **Parser** (`parser.dfy`). The live expression grammar, from `expression` down
  to `primary`.
  - It is recursive descent over a token sequence with a cursor.
  - A parse error is an `Err` value carrying the token position and the message.
  - `synchronize` is the error-recovery skip.
- **Environment** (`environment.dfy`). The scope chain, a sequence of frames
  with the innermost first.
  - Each frame holds a value map and a type-tag map.
  - `get`, `getTokenType`, `assign` and the two `define`s search and write it
    exactly as the recursive Java methods do.
- **Interpreter** (`values.dfy`, `interpreter.dfy`). `evaluate` and `execute`
  over the thirteen statement kinds (`ast.dfy`).
  - Runtime values: null, Integer (32-bit, with wrap-around), Double, Boolean,
    Character and String.
  - Typed declarations check the class of their value and record a type tag.
  - `scan` reads a line and classifies it as Boolean, Integer, Double,
    Character or String.
  - The output is a text and the input a sequence of lines.
  - The first runtime error stops the run.

The `*_facts.dfy` files and `interpreter_fuel.dfy` hold the lemmas. Most of
them relate an operation to a partner: a reference definition, an inverse, or an
invariant. The rest are one-step unfoldings used as proof steps (such as
`ParserFacts.RestStops` or `InterpreterFacts.LoopIterates`) and worked examples
on concrete inputs (such as `ValuesFacts.ParseIntExamples`).

A Java exception becomes a value:
- a `RuntimeError` with its token and message;
- a `HostFault` for the Java exceptions that escape the interpreter's error
  reporting;
- `OutOfFuel` when the bound on `while` iterations is used up.

The four parts are modelled separately. Two facts block an end-to-end theorem:
- `Code.run` (interpreter/Code.java:47-67) passes the parser's result to
  `interpret` as a statement list, but the live `Parser.parse` returns a single
  expression.
- The scanner's token kinds are not the interpreter's operator kinds.

## Model

| member | source | states |
|---|---|---|
| `Scanner.ScanTokens` | interpreter/Scanner.java:20-29 | The token list is never empty. It ends with the EOF token, which has an empty lexeme and carries line 1 plus the number of line breaks in the text. |
| `Scanner.ScanFrom` | interpreter/Scanner.java:20-29 | The scanning loop, from any position and line, ends with EOF. The EOF line is the starting line plus the line breaks of the rest of the text. |
| `Scanner.ScanFromSingleEof` | interpreter/Scanner.java:20-29 | No token before the last one is EOF. |
| `Scanner.ScanFromWellFormed` | interpreter/Scanner.java:103-110 | Every token the loop adds, EOF aside, is well formed. Its kind, text and literal agree: an operator spells its kind, a word gets its keyword kind or IDENTIFIER, a number is digit text, and a string or character literal is its text between the quotes. |
| `Scanner.ScanToken` | interpreter/Scanner.java:35-97 | Scanning one lexeme consumes at least one character. The line counter advances by exactly the line breaks consumed. At most one token is added, whose text is the consumed text and whose line is the current line. At most one diagnostic is added, with one of the two lexical messages. |
| `Scanner.StepWellFormed` | interpreter/Scanner.java:35-97 | Every token a single lexeme adds is well formed. |
| `Scanner.NumberEndMaximal` | interpreter/Scanner.java:167-185 | A number stops before any digit. It also stops before a `.` followed by a digit, unless it already has a fractional part. |
| `Scanner.MaximalMunch` | interpreter/Scanner.java:167-194 | Numbers are maximal. An identifier or keyword is never followed by a letter, digit or underscore. |
| `ScannerFacts.SingleEof` | interpreter/Scanner.java:20-29 | The scanner's output has exactly one EOF token, the last. It carries the final line count. |
| `ScannerFacts.TokensWellFormed` | interpreter/Scanner.java:103-110 | Every non-EOF token of a whole scan is well formed. |
| `ScannerFacts.NoIdentifierStartsWithLowerO` | interpreter/Scanner.java:82-91 | No identifier token starts with a lower-case `o`, because that case is intercepted before the default branch. |
| `ScannerFacts.LookaheadOperators` | interpreter/Scanner.java:50-61 | `!`, `=`, `<` and `>` take the following `=` into NOT_EQUAL, EQUAL_EQUAL, LESS_EQUAL or GREATER_EQUAL when it is there. Otherwise they are one-character tokens. |
| `ScannerFacts.CommentOrSlash` | interpreter/Scanner.java:62-69 | `//` skips up to, not including, the next line break and adds nothing. A lone `/` is SLASH. |
| `ScannerFacts.WhitespaceSkipped` | interpreter/Scanner.java:71-79 | Space, carriage return, tab and line break add nothing. Only the line break advances the line. |
| `ScannerFacts.LowerOIntercepted` | interpreter/Scanner.java:82-86 | A lower-case `o` followed by `r` is the OR token "or". Any other `o` is consumed with no token and no diagnostic. |
| `ScannerFacts.UnexpectedCharacterReported` | interpreter/Scanner.java:87-95 | A character that starts no lexeme is consumed. It is reported as "Unexpected character." on the current line, and no token is added. |
| `ScannerFacts.QuoteDispatch` | interpreter/Scanner.java:48-49 | `"` starts a string literal and `'` starts a character literal. |
| `ScannerFacts.StringLiteral` | interpreter/Scanner.java:125-142 | A string closed at its first `"` is a STRING token. Its literal is the text between the quotes, and its line counts the line breaks inside it. Without a closing quote, "Unterminated string." is reported and no token is added. |
| `ScannerFacts.CharLiteral` | interpreter/Scanner.java:144-161 | A character literal runs to the next `'`. Its value is the character right after the opening quote, which is the closing quote itself for `''`. Without a closing quote it is reported as "Unterminated string.". |
| `ScannerFacts.NumberStopsAtBareDot` | interpreter/Scanner.java:167-180 | A digit run followed by a `.` and no digit is a NUMBER of the digits alone. The `.` is left for the next lexeme. |
| `ScannerFacts.WordStep` | interpreter/Scanner.java:187-194 | A maximal run of letters, digits and underscores is one token. Its kind is the keyword table's kind for the text, or IDENTIFIER. |
| `ScannerFacts.TrailingIdentifier` | interpreter/Scanner.java:187-194 | A text ending in a non-keyword word scans as that IDENTIFIER followed by EOF. |
| `ScannerFacts.OrbIsOrThenB` | interpreter/Scanner.java:82-86 | "orb" scans as OR then the identifier "b". |
| `ScannerFacts.OkLosesItsO` | interpreter/Scanner.java:82-86 | "ok" scans as the identifier "k": the `o` is dropped. |
| `ScannerFacts.FiveDot` | interpreter/Scanner.java:167-185 | "5." scans as NUMBER "5" then DOT. |
| `Parser.Advance` | interpreter/Parser.java:225-228 | The cursor moves one token forward, except at EOF where it stays. |
| `Parser.MatchFrom` | interpreter/Parser.java:207-216 | The loop over the listed kinds consumes exactly the current token when it is not EOF and its kind is among the remaining kinds. Otherwise it consumes nothing. |
| `Parser.MatchLoop` | interpreter/Parser.java:207-216 | Trying the kinds one by one, as the loop does, gives the same cursor as a membership test. |
| `Parser.Consume` | interpreter/Parser.java:318-322 | Succeeds exactly when the current token has the expected kind and is not EOF, and returns that token. Otherwise the error is at the current token with the given message. |
| `Parser.ParseExpression` | interpreter/Parser.java:188-190 | A success consumes at least one token, stops inside the sequence and builds a correctly layered tree. It stops only at a token that is no binary operator, so every operator the rules match is consumed. The tree reads back (`Yield`) as exactly the tokens consumed, with each literal token read as its payload. An error carries "Expect expression." or "Expect ')' after expression." at a token at or after the start. |
| `Parser.ParseBinary` | interpreter/Parser.java:193-283 | Each binary rule produces a layered tree that binds at least as tightly as the rule. Its operands bind more tightly, and operators of equal rank fold to the left. A success stops only before a token that is no operator of this rule or a tighter one. The tree reads back (`Yield`) as exactly the tokens consumed, with each literal token read as its payload. |
| `Parser.ParseBinaryRest` | interpreter/Parser.java:196-200 | The `while (match(...))` loop keeps the tree layered, never moves the cursor back, and errors only with one of the two messages. It exits only at a token that is not one of its rule's operators, and after a turn only where an operand stopped. A success reads back as the tree it started from followed by the tokens it consumed. |
| `Parser.ParseUnary` | interpreter/Parser.java:286-294 | `unary` yields a prefix tree or a primary. It is layered and binds at least as tightly as a prefix operator. The tree reads back (`Yield`) as exactly the tokens consumed, with each literal token read as its payload. |
| `Parser.ParsePrimary` | interpreter/Parser.java:297-312 | `primary` yields an atom and consumes its tokens. FALSE, TRUE and NULL are the Literals false, true and null, and a NUMBER or STRING is the Literal of its payload, each consuming one token. A token that is none of these and not `(` is "Expect expression." at that token. A success reads back as the tokens consumed. |
| `Parser.CloseGroup` | interpreter/Parser.java:306-310 | A parenthesised expression is a Grouping exactly when `)` follows it. Otherwise the error is "Expect ')' after expression." at that token. The Grouping reads back as `(`, the inner expression's tokens and `)`. |
| `Parser.Parse` | interpreter/Parser.java:363-369 | `parse` yields a layered tree, or the position and message of the parse error where Parser.java catches ParseError. A tree reads back as the tokens from the first one up to where parsing stopped, and parsing stops only at a token that is no binary operator. |
| `Parser.SyncLoop` | interpreter/Parser.java:343-360 | The recovery loop stops at the first point after a `;`, before a statement keyword, or at EOF. It passes no earlier such point. |
| `Parser.Synchronize` | interpreter/Parser.java:340-361 | `synchronize` skips the current token and then stops at the first recovery point. At EOF it stays, and at the very first token being EOF it fails as `previous()` would. |
| `ParserFacts.OperatorTable` | interpreter/Parser.java:193-283 | The binding level of a token kind is a rule's rank exactly when that rule matches the kind. The four rules match disjoint operator sets. |
| `ParserFacts.KeywordLiterals` | interpreter/Parser.java:298-304 | FALSE, TRUE and NULL parse as the Literals false, true and null, and NUMBER and STRING as the Literal of the token's payload, each consuming exactly that token. |
| `ParserFacts.LiteralOperand` | interpreter/Parser.java:302-304 | A NUMBER or STRING token is a complete operand, the Literal of its payload, when no operator of a tighter rule follows. |
| `ParserFacts.RestStops` | interpreter/Parser.java:196-200 | A rule's loop returns the tree built so far, consuming nothing, when the next token is not one of its operators. |
| `ParserFacts.RestTurn` | interpreter/Parser.java:196-200 | One turn of a rule's loop consumes the operator, parses the operand with the tighter rule and continues with the Binary node. |
| `ParserFacts.RestTurnError` | interpreter/Parser.java:196-200 | An error in the operand after an operator is the error of the whole rule. |
| `ParserFacts.FoldStep` | interpreter/Parser.java:260-270 | An operator followed by a literal operand extends the tree on the left. |
| `ParserFacts.OperandOnly` | interpreter/Parser.java:193-203 | A rule whose operand is not followed by its operators yields the operand. |
| `ParserFacts.TermIsExpression` | interpreter/Parser.java:188-257 | A term not followed by a comparison or equality operator is the whole expression. |
| `ParserFacts.LeftAssociative` | interpreter/Parser.java:260-270 | For literal operands `a`, `b`, `c`, the tokens `a - b + c` parse as `(a - b) + c`. |
| `ParserFacts.UnaryStep` | interpreter/Parser.java:286-291 | A `!` or `-` prefix wraps what `unary` parses after it. |
| `ParserFacts.UnaryNests` | interpreter/Parser.java:286-294 | A run of prefix operators nests right to left around the `unary` that follows it, and an error inside is the error of the whole. |
| `ParserFacts.PrefixRunThenPrimary` | interpreter/Parser.java:286-294 | A maximal run of prefix operators ends at a primary. |
| `ParserFacts.UnaryAtPrimary` | interpreter/Parser.java:286-294 | With no prefix operator, `unary` is `primary`. |
| `ParserFacts.Grouped` | interpreter/Parser.java:306-310 | `(` expression `)` is a Grouping of the inner expression. A missing `)` is an error at the token found instead. |
| `ParserFacts.NoOperand` | interpreter/Parser.java:297-312 | A token that starts no operand is "Expect expression." at that token, whichever rule is parsing. |
| `ParserFacts.NoExpression` | interpreter/Parser.java:311 | An expression cannot start at an identifier, a keyword such as DISPLAY, or a character literal: the error is "Expect expression." there. |
| `ParserFacts.TrailingTokensIgnored` | interpreter/Parser.java:363-369 | A NUMBER or STRING token followed by a token that is no binary operator parses as that literal alone, whatever tokens follow. |
| `Environment.Get` | interpreter/Environment.java:19-26 | The value in the innermost frame that binds the name. It succeeds exactly when some frame binds the name, and otherwise fails with "Undefined variable '<name>'.". |
| `Environment.GetTokenType` | interpreter/Environment.java:28-36 | The tag in the innermost frame that has one for the name. It is null exactly when no frame has. |
| `Environment.Assign` | interpreter/Environment.java:38-48 | Overwrites the name in the innermost frame that binds it and changes nothing else. It fails with "Undefined variable" exactly when no frame binds the name, so it never creates a binding. |
| `Environment.Define` | interpreter/Environment.java:50-55 | Fails exactly when the current frame already binds the name. Otherwise it binds the name in the current frame only. |
| `Environment.DefineTyped` | interpreter/Environment.java:57-60 | Writes the value and the tag for the name in the current frame, overwriting what was there. It never fails and leaves the enclosing frames alone. |
| `EnvironmentFacts.DefineTypedRoundTrip` | interpreter/Environment.java:57-60 | After a typed definition the name reads back as the value and its tag as the tag, whatever any frame held before. |
| `EnvironmentFacts.AssignThenGet` | interpreter/Environment.java:38-48 | After a successful assignment the name reads back as the assigned value. |
| `EnvironmentFacts.AssignKeepsOthers` | interpreter/Environment.java:38-48 | An assignment changes no other name's value and no tag anywhere in the chain. |
| `EnvironmentFacts.DefineShadows` | interpreter/Environment.java:50-55 | The untyped definition may shadow an outer binding. The name then reads back as the new value, and the tags are untouched. |
| `EnvironmentFacts.ChildFrameTransparent` | interpreter/Environment.java:15-48 | A fresh child frame hides nothing: every lookup sees through it, and an assignment reaches the enclosing chain. |
| `Values.Wrap32` | interpreter/Interpreter.java:332-340 | `int` arithmetic keeps the one `int` congruent to the exact result modulo 2^32. In range, that is the exact result. |
| `Values.JavaDiv` | interpreter/Interpreter.java:337-338 | `int` division of -2147483648 by -1 overflows back to -2147483648. |
| `ValuesFacts.Wrap32Unique` | interpreter/Interpreter.java:332-340 | The wrapped result is the only `int` congruent to the exact one. |
| `ValuesFacts.NoOverflowQuotient` | interpreter/Interpreter.java:337-338 | Outside the one overflow, `/` on `int` is the quotient rounded toward zero. |
| `ValuesFacts.DivisionIdentity` | interpreter/Interpreter.java:337-342 | `(a / b) * b + a % b == a` in `int` arithmetic, for every nonzero divisor. |
| `ValuesFacts.RemainderSign` | interpreter/Interpreter.java:341-342 | `%` on `int` is smaller than the divisor in magnitude and has the sign of the dividend, unless it is zero. |
| `Values.TruncRemBounds` | interpreter/Interpreter.java:337-342 | Truncating division and remainder satisfy the division identity, and the remainder is bounded by both operands. |
| `Values.ParseInt` | interpreter/Interpreter.java:308-309 | `Integer.parseInt` accepts only non-empty text. |
| `Values.DigitsCanonical` | interpreter/Interpreter.java:308-309 | Any non-empty digit text is leading zeros followed by the canonical digits of its value. |
| `ValuesFacts.ParseIntSpells` | interpreter/Interpreter.java:308-309 | `Integer.parseInt` returns an `int` exactly when the text spells it: an optional sign, then leading zeros, then the digits of its magnitude. A `-` appears only before a value at most zero, and a negative value needs it. |
| `ValuesFacts.ParseIntRange` | interpreter/Interpreter.java:308-309 | Unsigned digits are accepted exactly up to 2147483647 and `-` digits exactly down to -2147483648; beyond that the text is rejected. |
| `ValuesFacts.ParseIntUpperEdge` | interpreter/Interpreter.java:308-309 | "2147483647" is read as the largest `int`, and "2147483648" is rejected. |
| `ValuesFacts.ParseIntLowerEdge` | interpreter/Interpreter.java:308-309 | "-2147483648" is read as the smallest `int`, and "-2147483649" is rejected. |
| `ValuesFacts.BeyondIntRange` | interpreter/Interpreter.java:308-315 | A line one past the largest `int` is no Integer: it falls through to `Double.parseDouble`, and is a Double if that succeeds and the String itself otherwise. |
| `Values.IntTextRoundTrip` | interpreter/Interpreter.java:308-309 | `Integer.parseInt` reads back every `int` that `Integer.toString` writes. |
| `ValuesFacts.ParseIntExamples` | interpreter/Interpreter.java:308-309 | One optional sign and leading zeros are accepted ("+7", "-0012"). |
| `ValuesFacts.ParseIntRejects` | interpreter/Interpreter.java:308-309 | Empty text, a bare sign, a letter, a fraction and two signs are rejected. |
| `Values.Trim` | interpreter/Interpreter.java:303 | `trim` removes exactly the leading and trailing characters up to U+0020 and keeps the text between them. |
| `ValuesFacts.TrimIdempotent` | interpreter/Interpreter.java:303 | Trimming twice is trimming once. |
| `ValuesFacts.TrimKeeps` | interpreter/Interpreter.java:303 | Text without blanks at either end is its own trim. |
| `Values.IsTruthy` | interpreter/Interpreter.java:384-388 | Only null and false are falsy. |
| `ValuesFacts.IsEqualIsEquality` | interpreter/Interpreter.java:390-395 | `isEqual` holds exactly for equal values of the same class: an Integer never equals a Double, and null equals only null. |
| `Values.StripPointZero` | interpreter/Interpreter.java:427-433 | A double's text loses a trailing ".0" when it has one and is otherwise unchanged. |
| `ValuesFacts.NullPrintsAsText` | interpreter/Interpreter.java:424-425 | `stringify` writes null as the text "null", the same text as the String "null". |
| `ValuesFacts.NumberTextNotWord` | interpreter/Interpreter.java:305-307 | The text of an `int` is never TRUE or FALSE in any case. |
| `ValuesFacts.IntegerReadsBack` | interpreter/Interpreter.java:300-316 | A line that `stringify` wrote for an Integer is classified by `scanInput` as that Integer. |
| `ValuesFacts.BooleanReadsBack` | interpreter/Interpreter.java:300-316 | A line that `stringify` wrote for a Boolean is classified as that Boolean. |
| `ValuesFacts.MixedCaseBoolean` | interpreter/Interpreter.java:303-307 | TRUE and FALSE are recognised in any mix of cases and with blanks around them. |
| `ValuesFacts.CharacterOrString` | interpreter/Interpreter.java:311-315 | A trimmed line that is no Boolean and no number is a Character when it is one character long, and the String itself otherwise. |
| `ValuesFacts.LetterAndWord` | interpreter/Interpreter.java:314-315 | " x " is the Character 'x' and "abc\t" is the String "abc", given the host reads neither as a double. |
| `ValuesFacts.DigitIsInteger` | interpreter/Interpreter.java:308-309 | A single digit is read as that Integer, never as a Double or Character. |
| `Interpreter.Evaluate` | interpreter/Interpreter.java:115-120 | Evaluating an expression never adds or removes a frame. |
| `InterpreterFacts.EvaluateShape` | interpreter/Interpreter.java:115-120 | Evaluating any expression binds no new name and changes no tag, in any frame. |
| `InterpreterFacts.VariableLookup` | interpreter/Interpreter.java:253-256 | A variable succeeds exactly when some frame binds its name. Otherwise it is the runtime error "Undefined variable '<name>'." at the name. |
| `InterpreterFacts.AssignmentYieldsValue` | interpreter/Interpreter.java:115-120 | An assignment yields the assigned value, which the name then reads back. An unbound name is the runtime error "Undefined variable", raised after the value was evaluated. |
| `InterpreterFacts.ShortCircuit` | interpreter/Interpreter.java:240-251 | A truthy left operand of OR, or a falsy one of AND, is the result, and the right operand is not evaluated. |
| `InterpreterFacts.RightOperandDecides` | interpreter/Interpreter.java:240-251 | When the left operand does not decide, the result is the right operand evaluated after the left one. |
| `InterpreterFacts.LogicalTruth` | interpreter/Interpreter.java:240-251 | OR and AND return one of their operands, whose truthiness is the disjunction or conjunction of the operands' truthiness. |
| `InterpreterFacts.LeftOperandFirst` | interpreter/Interpreter.java:122-125 | A binary expression evaluates its left operand first: an error there is the result, whatever the right operand is. |
| `InterpreterFacts.EqualityOperators` | interpreter/Interpreter.java:137-138 | `==` and `!=` never fail and compare values exactly. |
| `InterpreterFacts.StringOperators` | interpreter/Interpreter.java:122-140 | CONCATENATOR joins the texts of its two operands, and NEW_LINE joins them with a line break between, for operands of any class. The environment is the one the right operand left. |
| `InterpreterFacts.NotNegatesTruth` | interpreter/Interpreter.java:226-231 | `!` yields the Boolean opposite to its operand's truthiness, for an operand of any class. |
| `InterpreterFacts.UnlistedOperators` | interpreter/Interpreter.java:127-237 | An operator type a switch does not list yields null without an error: OR, AND and NOT between two operands (lines 127-143), and any type but NOT and SUBTRACTION in front of one (lines 229-237). |
| `InterpreterFacts.OperandDiscipline` | interpreter/Interpreter.java:326-377 | Arithmetic and comparison succeed exactly on two Integers, except `/` and `%` by zero, or on two Doubles. A null operand is the null-values error. Any other mix is the different-datatype error. A zero `int` divisor is a host fault. |
| `InterpreterFacts.IntegerAddition` | interpreter/Interpreter.java:332-334 | Integer addition is exact in range and wraps around at the top: the largest `int` plus one is the smallest. |
| `InterpreterFacts.NegationNeedsDouble` | interpreter/Interpreter.java:225-238 | Unary minus succeeds exactly on a Double. On anything else, an Integer included, it is "Operand must be a number.". |
| `InterpreterFacts.DeclarationChecksClass` | interpreter/Interpreter.java:146-160 | Without an initializer the name is bound to null with the tag. With one, the declaration succeeds exactly when the value has the tag's class, and then binds the value and the tag. Otherwise it is the class error and nothing is bound. |
| `InterpreterFacts.DeclarationTags` | interpreter/Interpreter.java:146-223 | The five typed declarations record the tags Integer, Float, Character, String and Boolean. |
| `InterpreterFacts.TagsAdmitTheirClass` | interpreter/Interpreter.java:146-223 | Each tag admits exactly the values of its own class. |
| `InterpreterFacts.ScanChecksClass` | interpreter/Interpreter.java:60-113 | `scan` prints the prompt and consumes one line, and with no line left it is a host fault. A name without a tag is left alone. A tagged name takes the classified line exactly when its class is the tag's, and otherwise it is the tag's input error and the name keeps its value. |
| `InterpreterFacts.ScanReadsDisplayedInteger` | interpreter/Interpreter.java:60-113 | Scanning an Integer variable from a line that `display` wrote for an Integer stores that Integer. |
| `Interpreter.ExpressionStmt` | interpreter/Interpreter.java:41-45 | An expression statement keeps the environment its evaluation left, stops exactly when the evaluation threw and then with its reason, and writes no output and reads no input. |
| `InterpreterFacts.AssignmentStatement` | interpreter/Interpreter.java:41-45 | An assignment statement completes exactly when the name is bound, and the name then reads back as the value. An unbound name stops the run with "Undefined variable". Nothing is printed or read. |
| `Interpreter.DisplayStmt` | interpreter/Interpreter.java:47-53 | `display` appends an empty line and then the value's text on a line of its own. It reads no input, and on an error it prints nothing. |
| `Interpreter.BlockStmt` | interpreter/Interpreter.java:411-422 | A block leaves the same number of frames, because the child frame is dropped on every exit, an error included. |
| `InterpreterFacts.BlockFollows` | interpreter/Interpreter.java:411-422 | A block changes no name set and no tag in any enclosing frame. Output only grows and input is only consumed. |
| `InterpreterFacts.BlockLeavesNoBindings` | interpreter/Interpreter.java:258-262 | After a block exactly the names bound before are bound, with the same tags. |
| `InterpreterFacts.ExecFollows` | interpreter/Interpreter.java:146-294 | A statement binds names and changes tags only in the current frame. Output only grows and input is only consumed from the front. |
| `Interpreter.Exec` | interpreter/Interpreter.java:407-409 | No statement changes the number of frames. |
| `InterpreterFacts.NewLineAppends` | interpreter/Interpreter.java:272-276 | `newline` appends one line break to the output, never fails, and changes neither the environment nor the input. |
| `InterpreterFacts.IfTakesThen` | interpreter/Interpreter.java:278-286 | With a truthy condition `if` runs the then branch from the state the condition left. The else branch plays no part. |
| `InterpreterFacts.IfTakesElse` | interpreter/Interpreter.java:278-286 | With a falsy condition `if` runs the else branch if there is one, and otherwise does nothing more. The then branch plays no part. |
| `Interpreter.Loop` | interpreter/Interpreter.java:288-294 | A loop never changes the number of frames. |
| `InterpreterFacts.WhileFalsySkips` | interpreter/Interpreter.java:288-294 | A `while` whose condition is falsy runs its body zero times and completes. |
| `InterpreterFacts.LoopIterates` | interpreter/Interpreter.java:288-294 | A loop whose condition holds runs the body once and then the whole loop again. |
| `InterpreterFacts.LoopStops` | interpreter/Interpreter.java:288-294 | A loop whose condition is falsy or fails ends in the state the condition left. |
| `InterpreterFuel.LoopFuel` | interpreter/Interpreter.java:288-294 | A loop that did not run out of fuel has the same result with any larger fuel. It is then the result of the unbounded Java loop. |
| `InterpreterFuel.ExecFuel` | interpreter/Interpreter.java:407-409 | The same for any statement. |
| `Interpreter.Interpret` | interpreter/Interpreter.java:397-405 | A run ends in the global frame alone. It starts from the global frame the session's single interpreter holds (interpreter/Code.java:12). |
| `InterpreterFacts.Sequencing` | interpreter/Interpreter.java:397-405 | Running two statement lists one after the other is running the first, then the second from where the first ended, unless the first stopped. |
| `InterpreterFacts.HaltsAtFirstError` | interpreter/Interpreter.java:397-405 | Once a prefix of the program stops with an error, the run of the whole program is the run of that prefix. |
| `InterpreterFacts.InputOnlyConsumed` | interpreter/Interpreter.java:300-303 | A run only consumes input lines, from the front. |
| `InterpreterFuel.InterpretFuel` | interpreter/Interpreter.java:397-405 | A run that did not run out of fuel has the same outcome with any larger fuel. |

## Left out

- `Scanner.ScanNumber`: a NUMBER token's literal is kept as its digit text, not the
  `Double.parseDouble` value of interpreter/Scanner.java:178-179. The text is
  always valid double syntax, and floating point is kept opaque everywhere.
- `Values.FloatHost`: `double` values are opaque bit patterns. Arithmetic,
  comparison, negation, `Double.toString` and `Double.parseDouble` are parameters
  of the model, so no property of IEEE arithmetic is stated.
- `Interpreter.Loop`: a `while` loop runs with a fuel bound and stops with
  `OutOfFuel` when the bound is used up, where the Java loop would keep running.
  `InterpreterFuel.LoopFuel`, `ExecFuel` and `InterpretFuel` show that every other
  outcome does not depend on the bound. A non-terminating Java program has no
  modelled outcome.
- `Interpreter.CheckNumberOperands`: the ArithmeticException from `int` `/` and
  `%` by zero escapes the interpreter's RuntimeError handler. It is modelled as
  `HostFault`, with no claim about what the JVM prints.
- `Interpreter.ScanInto`: the input is a list of lines.
  - `readLine()` returning null at the end of input makes `trim()` throw; this is
    a `HostFault`.
  - The IOException path (interpreter/Interpreter.java:109-111) is not modelled.
  - interpreter/Interpreter.java:301 builds a new BufferedReader over standard
    input for every scan, which can swallow buffered lines from piped input. The
    model reads exactly one line per scan.
- `Interpreter.OpType`: the operator vocabulary (ADDITION, SUBTRACTION,
  CONCATENATOR, NEW_LINE, …) belongs to the model. interpreter/TokenType.java does
  not declare these names, and no part of the model produces them from scanner
  tokens.
- `Interpreter.Evaluate`: its own contract states only that the frame count is kept.
  The result of each expression kind is stated by the lemmas about it:
  `InterpreterFacts.StringOperators` (CONCATENATOR, NEW_LINE),
  `NotNegatesTruth` (`!`), `NegationNeedsDouble` (`-`), `EqualityOperators`,
  `OperandDiscipline`, `UnlistedOperators`, `ShortCircuit`, `RightOperandDecides`,
  `VariableLookup` and `AssignmentYieldsValue`.
- `Interpreter.Exec`: its own contract states only that the frame count is kept.
  The effect of each statement kind is stated by the lemmas about it:
  `InterpreterFacts.NewLineAppends`, `Interpreter.DisplayStmt`, `ExpressionStmt`
  (with `InterpreterFacts.AssignmentStatement`),
  `DeclarationChecksClass`, `ScanChecksClass`, `IfTakesThen`, `IfTakesElse`,
  `LoopIterates`, `LoopStops` and `BlockFollows`.
- `Interpreter.DisplayStmt`: `println` ends a line with the platform's line
  separator; the model writes `\n`, as if on a system whose separator it is. The
  same holds for `newline` (`InterpreterFacts.NewLineAppends`).
- `Values.ParseInt`: its own ensures states only that accepted text is non-empty;
  what it accepts is stated by `ValuesFacts.ParseIntSpells`, kept apart so that
  the arithmetic lemmas about `ParseInt` stay small. Only the ASCII digits 0-9
  are accepted. Java's `Integer.parseInt` also accepts other Unicode decimal digits (Arabic-Indic `٣`
  reads as 3), so `Classify` makes such a line a Character or String where Java
  makes it an Integer.
- `Values.Classify`: strings are sequences of code points, while Java counts
  UTF-16 units. A line holding one character outside the Basic Multilingual Plane
  (an emoji) is a Character here, but a String in Java, where its `length()` is 2.
- `Scanner.ScanChar`: for a character outside the Basic Multilingual Plane the
  literal is that character, where Java's `charAt(start + 1)` stores only its high
  surrogate.
- `Scanner.ScanOther`: a stray character outside the Basic Multilingual Plane
  gives one "Unexpected character." diagnostic here and two in Java, one per
  UTF-16 unit.
- `Environment.Define`: the error message quotes the caller-supplied text of the
  whole name token, where Java concatenates `Token.toString()`. Token.java is not
  part of this model.
- `Parser.Parse`: the diagnostic is returned as a position and message.
  `Code.error` and its printing (interpreter/Code.java:69-89) are not modelled.
- Code.java's console loop, file reading, `hadError` flags and printing of tokens
  and runtime errors are not modelled. Runtime errors are returned as `Stop`
  values.
- The commented-out parser (interpreter/Parser.java:1-168) is not modelled. The
  live parser never calls `synchronize`; it is modelled on its own.
- No theorem connects the scanner, parser and interpreter end to end, for the
  reasons given above.

=== FILE: ast.dfy ===
/** The syntax trees shared by the parser and the interpreter: the expression nodes
    the interpreter visits and the thirteen statement kinds of interpreter/Stmt.java.
    Both are generic in the token type and the literal type, because the parser works
    with scanner tokens and literal payloads while the interpreter has its own
    operator vocabulary and runtime values. A Java `null` child is an absent Option. */
module Ast {
  import opened Common

  /** The expression nodes: the ones the parser builds (Binary, Unary, Literal,
      Grouping) and the ones only the interpreter visits (Assign, Logical, Variable). */
  datatype Expr<Tok, Lit> =
    | Assign(name: Tok, newValue: Expr<Tok, Lit>)
    | Binary(left: Expr<Tok, Lit>, operator: Tok, right: Expr<Tok, Lit>)
    | Grouping(expression: Expr<Tok, Lit>)
    | Literal(value: Lit)
    | Logical(left: Expr<Tok, Lit>, operator: Tok, right: Expr<Tok, Lit>)
    | Unary(operator: Tok, right: Expr<Tok, Lit>)
    | Variable(name: Tok)

  /** The statement kinds, one constructor per visitor method. The typed declarations
      keep the class names of the Java code (Int, Float, Char, String, Bool); an absent
      initializer is None, and an `If` without `else` has no else branch. */
  datatype Stmt<Tok, Lit> =
    | Block(statements: seq<Stmt<Tok, Lit>>)
    | Expression(expression: Expr<Tok, Lit>)
    | Display(expression: Expr<Tok, Lit>)
    | Scan(name: Tok, initializer: Option<Expr<Tok, Lit>>)
    | Int(name: Tok, initializer: Option<Expr<Tok, Lit>>)
    | Float(name: Tok, initializer: Option<Expr<Tok, Lit>>)
    | Char(name: Tok, initializer: Option<Expr<Tok, Lit>>)
    | String(name: Tok, initializer: Option<Expr<Tok, Lit>>)
    | Bool(name: Tok, initializer: Option<Expr<Tok, Lit>>)
    | VariableDeclaration(declarations: seq<Stmt<Tok, Lit>>)
    | NewLine
    | If(condition: Expr<Tok, Lit>, thenBranch: Stmt<Tok, Lit>, elseBranch: Option<Stmt<Tok, Lit>>)
    | While(condition: Expr<Tok, Lit>, body: Stmt<Tok, Lit>)
}

=== FILE: common.dfy ===
/** Small shared vocabulary: an optional value and a failure-carrying result. */
module Common {

  /** A value that may be absent; stands for a Java reference that may be null. */
  datatype Option<+T> = None | Some(value: T)

  /** Either a value or an error message. */
  datatype Result<+T> = Success(value: T) | Failure(message: string)

  /** The last element of a non-empty sequence. */
  function Last<T>(s: seq<T>): T
    requires |s| > 0
  {
    s[|s| - 1]
  }
}

=== FILE: environment.dfy ===
/** The scope chain of interpreter/Environment.java. The Java class is a linked list
    of frames through `enclosing`; here the chain is a sequence of frames, innermost
    first, so `env[0]` is the current frame and `env[1..]` its enclosing chain. Each
    frame holds the two maps of the class: name to value and name to type tag. The
    operations search outward exactly as the recursive Java methods do. The value type
    is a parameter, so the chain is modelled independently of the interpreter. */
module Environment {
  import opened Common

  /** One `Environment` object: its `values` map and its `token` (type tag) map. */
  datatype Frame<V> = Frame(values: map<string, V>, tags: map<string, string>)

  /** A frame with no bindings, as `new Environment(enclosing)` creates. */
  function EmptyFrame<V>(): Frame<V> {
    Frame(map[], map[])
  }

  /** The message of the error raised for a name no frame binds. */
  function UndefinedVariable(name: string): string {
    "Undefined variable '" + name + "'."
  }

  /** Frame `i` is the innermost frame whose value map binds `name`. */
  ghost predicate InnermostValue<V>(env: seq<Frame<V>>, name: string, i: int) {
    && 0 <= i < |env|
    && name in env[i].values
    && forall j :: 0 <= j < i ==> name !in env[j].values
  }

  /** Frame `i` is the innermost frame whose tag map binds `name`. */
  ghost predicate InnermostTag<V>(env: seq<Frame<V>>, name: string, i: int) {
    && 0 <= i < |env|
    && name in env[i].tags
    && forall j :: 0 <= j < i ==> name !in env[j].tags
  }

  /** Some frame of the chain binds `name` to a value. */
  ghost predicate Bound<V>(env: seq<Frame<V>>, name: string) {
    exists i :: 0 <= i < |env| && name in env[i].values
  }

  /** Looking past a current frame that does not bind `name` to a value: the chain
      binds it exactly when the enclosing chain does, one frame further out. */
  lemma {:induction false} ValueShift<V>(env: seq<Frame<V>>, name: string)
    requires |env| > 0 && name !in env[0].values
    ensures Bound(env, name) <==> Bound(env[1..], name)
    ensures forall i :: InnermostValue(env[1..], name, i) ==> InnermostValue(env, name, i + 1)
  {
    if Bound(env, name) {
      var i :| 0 <= i < |env| && name in env[i].values;
      assert env[1..][i - 1] == env[i];
    }
    if Bound(env[1..], name) {
      var i :| 0 <= i < |env[1..]| && name in env[1..][i].values;
      assert env[i + 1] == env[1..][i];
    }
  }

  /** The same shift for tags. */
  lemma {:induction false} TagShift<V>(env: seq<Frame<V>>, name: string)
    requires |env| > 0 && name !in env[0].tags
    ensures (forall i :: 0 <= i < |env| ==> name !in env[i].tags) <==>
            (forall i :: 0 <= i < |env[1..]| ==> name !in env[1..][i].tags)
    ensures forall i :: InnermostTag(env[1..], name, i) ==> InnermostTag(env, name, i + 1)
  {
    if forall i :: 0 <= i < |env[1..]| ==> name !in env[1..][i].tags {
      forall i | 1 <= i < |env| ensures name !in env[i].tags {
        assert env[i] == env[1..][i - 1];
      }
    }
  }

  /** `get`: the value in the innermost frame that binds `name`; an unbound name is
      the error "Undefined variable '<name>'.". */
  function Get<V>(env: seq<Frame<V>>, name: string): (r: Result<V>)
    ensures r.Success? <==> Bound(env, name)
    ensures r.Success? ==> exists i :: InnermostValue(env, name, i) && r.value == env[i].values[name]
    ensures r.Failure? ==> r.message == UndefinedVariable(name)
  {
    if |env| == 0 then Failure(UndefinedVariable(name))
    else if name in env[0].values then Success(env[0].values[name])
    else
      ValueShift(env, name);
      Get(env[1..], name)
  }

  /** `getTokenType`: the tag in the innermost frame that has one for `name`, or
      None (Java `null`) when no frame has. */
  function GetTokenType<V>(env: seq<Frame<V>>, name: string): (r: Option<string>)
    ensures r.None? <==> forall i :: 0 <= i < |env| ==> name !in env[i].tags
    ensures r.Some? ==> exists i :: InnermostTag(env, name, i) && r.value == env[i].tags[name]
  {
    if |env| == 0 then None
    else if name in env[0].tags then Some(env[0].tags[name])
    else
      TagShift(env, name);
      GetTokenType(env[1..], name)
  }

  /** The chain after writing `v` for `name` into frame `i`'s value map only. */
  function Overwrite<V>(env: seq<Frame<V>>, i: nat, name: string, v: V): seq<Frame<V>>
    requires i < |env|
  {
    env[i := env[i].(values := env[i].values[name := v])]
  }

  /** Overwriting a frame of the enclosing chain, seen from the whole chain. */
  lemma {:induction false} OverwriteTail<V>(env: seq<Frame<V>>, i: nat, name: string, v: V)
    requires i + 1 < |env|
    ensures [env[0]] + Overwrite(env[1..], i, name, v) == Overwrite(env, i + 1, name, v)
  {
  }

  /** `assign`: overwrite the binding in the innermost frame that binds `name`. It
      never creates a binding: an unbound name is the error "Undefined variable". No
      other frame and no tag map changes. */
  function Assign<V>(env: seq<Frame<V>>, name: string, v: V): (r: Result<seq<Frame<V>>>)
    ensures r.Success? <==> Bound(env, name)
    ensures r.Success? ==> exists i :: InnermostValue(env, name, i) && r.value == Overwrite(env, i, name, v)
    ensures r.Failure? ==> r.message == UndefinedVariable(name)
  {
    if |env| == 0 then Failure(UndefinedVariable(name))
    else if name in env[0].values then Success(Overwrite(env, 0, name, v))
    else
      ValueShift(env, name);
      match Assign(env[1..], name, v)
      case Failure(message) => Failure(message)
      case Success(rest) =>
        AssignTail(env, name, v, rest);
        Success([env[0]] + rest)
  }

  /** An assignment done in the enclosing chain is the assignment of the whole chain. */
  lemma {:induction false} AssignTail<V>(env: seq<Frame<V>>, name: string, v: V, rest: seq<Frame<V>>)
    requires |env| > 0 && name !in env[0].values
    requires exists i :: InnermostValue(env[1..], name, i) && rest == Overwrite(env[1..], i, name, v)
    ensures exists i :: InnermostValue(env, name, i) && [env[0]] + rest == Overwrite(env, i, name, v)
  {
    var i :| InnermostValue(env[1..], name, i) && rest == Overwrite(env[1..], i, name, v);
    ValueShift(env, name);
    OverwriteTail(env, i, name, v);
    assert InnermostValue(env, name, i + 1);
  }

  /** `define(name, value)`: bind `name` in the current frame, with no tag. A name the
      current frame already binds is rejected; the message quotes `shown`, the text
      of the whole name token, which is what Environment.java writes there. Outer frames
      do not matter, so shadowing is allowed. */
  function Define<V>(env: seq<Frame<V>>, name: string, shown: string, v: V): (r: Result<seq<Frame<V>>>)
    requires |env| > 0
    ensures r.Failure? <==> name in env[0].values
    ensures r.Failure? ==> r.message == UndefinedVariable(shown)
    ensures r.Success? ==> r.value == Overwrite(env, 0, name, v)
  {
    if name in env[0].values then Failure(UndefinedVariable(shown))
    else Success(Overwrite(env, 0, name, v))
  }

  /** `define(name, value, tokenType)`: bind the value and the tag in the current
      frame, overwriting whatever the frame held for `name`; never an error. */
  function DefineTyped<V>(env: seq<Frame<V>>, name: string, v: V, tag: string): (r: seq<Frame<V>>)
    requires |env| > 0
    ensures |r| == |env| && r[1..] == env[1..]
    ensures r[0].values == env[0].values[name := v] && r[0].tags == env[0].tags[name := tag]
  {
    env[0 := Frame(env[0].values[name := v], env[0].tags[name := tag])]
  }
}

=== FILE: environment_facts.dfy ===
/** Properties of the scope chain: what a definition or an assignment makes visible,
    what it leaves alone, and how a fresh child frame behaves. */
module EnvironmentFacts {
  import opened Common
  import opened Environment

  /** At most one frame is the innermost one binding a name. */
  lemma {:induction false} InnermostUnique<V>(env: seq<Frame<V>>, name: string, i: int, j: int)
    requires InnermostValue(env, name, i) && InnermostValue(env, name, j)
    ensures i == j
  {
  }

  /** Two frames hold the same value and the same tag for `name`, or both lack them. */
  ghost predicate Agree<V>(f: Frame<V>, g: Frame<V>, name: string) {
    && (name in f.values <==> name in g.values)
    && (name in f.values ==> f.values[name] == g.values[name])
    && (name in f.tags <==> name in g.tags)
    && (name in f.tags ==> f.tags[name] == g.tags[name])
  }

  /** Round trip of the typed definition: afterwards the name reads back as the value
      and its tag as the tag, whatever any frame held before. */
  lemma {:induction false} DefineTypedRoundTrip<V>(env: seq<Frame<V>>, name: string, v: V, tag: string)
    requires |env| > 0
    ensures Get(DefineTyped(env, name, v, tag), name) == Success(v)
    ensures GetTokenType(DefineTyped(env, name, v, tag), name) == Some(tag)
  {
    var r := DefineTyped(env, name, v, tag);
    var i :| InnermostValue(r, name, i) && Get(r, name).value == r[i].values[name];
    InnermostUnique(r, name, i, 0);
    assert InnermostTag(r, name, 0);
  }

  /** After a successful assignment the name reads back as the assigned value. */
  lemma {:induction false} AssignThenGet<V>(env: seq<Frame<V>>, name: string, v: V)
    requires Assign(env, name, v).Success?
    ensures Get(Assign(env, name, v).value, name) == Success(v)
  {
    var r := Assign(env, name, v).value;
    var i :| InnermostValue(env, name, i) && r == Overwrite(env, i, name, v);
    assert InnermostValue(r, name, i);
    var j :| InnermostValue(r, name, j) && Get(r, name).value == r[j].values[name];
    InnermostUnique(r, name, i, j);
  }

  /** An assignment changes no other name's value and no tag anywhere in the chain. */
  lemma {:induction false} AssignKeepsOthers<V>(env: seq<Frame<V>>, name: string, v: V, other: string)
    requires Assign(env, name, v).Success? && other != name
    ensures Get(Assign(env, name, v).value, other) == Get(env, other)
    ensures GetTokenType(Assign(env, name, v).value, other) == GetTokenType(env, other)
  {
    var r := Assign(env, name, v).value;
    var i :| InnermostValue(env, name, i) && r == Overwrite(env, i, name, v);
    forall k | 0 <= k < |r| ensures Agree(r[k], env[k], other) {
    }
    SameLookups(r, env, other);
  }

  /** Two chains whose frames agree on one name agree on every lookup of that name. */
  lemma {:induction false} SameLookups<V>(a: seq<Frame<V>>, b: seq<Frame<V>>, name: string)
    requires |a| == |b| && forall k :: 0 <= k < |a| ==> Agree(a[k], b[k], name)
    ensures Get(a, name) == Get(b, name)
    ensures GetTokenType(a, name) == GetTokenType(b, name)
    decreases |a|
  {
    if |a| > 0 {
      assert Agree(a[0], b[0], name);
      forall k | 0 <= k < |a| - 1 ensures Agree(a[1..][k], b[1..][k], name) {
        assert Agree(a[k + 1], b[k + 1], name);
      }
      SameLookups(a[1..], b[1..], name);
    }
  }

  /** Chains with the same tag maps have the same tag lookups. */
  lemma {:induction false} TagsOnly<V>(a: seq<Frame<V>>, b: seq<Frame<V>>, name: string)
    requires |a| == |b| && forall k :: 0 <= k < |a| ==> a[k].tags == b[k].tags
    ensures GetTokenType(a, name) == GetTokenType(b, name)
    decreases |a|
  {
    if |a| > 0 {
      assert a[0].tags == b[0].tags;
      TagsOnly(a[1..], b[1..], name);
    }
  }

  /** The untyped definition may shadow an outer binding: it succeeds whenever the
      current frame lacks the name, the name then reads back as the new value, and
      the tags are untouched. */
  lemma {:induction false} DefineShadows<V>(env: seq<Frame<V>>, name: string, shown: string, v: V)
    requires |env| > 0 && name !in env[0].values
    ensures Define(env, name, shown, v).Success?
    ensures Get(Define(env, name, shown, v).value, name) == Success(v)
    ensures GetTokenType(Define(env, name, shown, v).value, name) == GetTokenType(env, name)
  {
    var r := Define(env, name, shown, v).value;
    var j :| InnermostValue(r, name, j) && Get(r, name).value == r[j].values[name];
    InnermostUnique(r, name, 0, j);
    forall k | 0 <= k < |r| ensures r[k].tags == env[k].tags {
    }
    TagsOnly(r, env, name);
  }

  /** A fresh child frame, as a block pushes it, hides nothing: every lookup sees the
      enclosing chain, and an assignment reaches through it to the enclosing chain. */
  lemma {:induction false} ChildFrameTransparent<V>(env: seq<Frame<V>>, name: string, v: V)
    ensures Get([EmptyFrame()] + env, name) == Get(env, name)
    ensures GetTokenType([EmptyFrame()] + env, name) == GetTokenType(env, name)
    ensures Assign([EmptyFrame()] + env, name, v).Success? <==> Assign(env, name, v).Success?
    ensures Assign(env, name, v).Success? ==>
              Assign([EmptyFrame()] + env, name, v).value == [EmptyFrame()] + Assign(env, name, v).value
  {
    var c: seq<Frame<V>> := [EmptyFrame()] + env;
    assert c[1..] == env;
  }
}

=== FILE: interpreter.dfy ===
/** The tree-walking evaluator of interpreter/Interpreter.java. Expressions evaluate
    to runtime values and may change the environment (through assignment);
    statements also read input lines and append to the output text. A Java exception
    becomes a `Stop`: the language's RuntimeError with its token and message, a host
    failure for the Java exceptions that escape that path, or the end of the fuel
    that bounds `while` loops. */
module Interpreter {
  import opened Common
  import opened Ast
  import opened Values
  import opened Environment

  /** The token types the evaluator switches on. They are the interpreter's own
      vocabulary; any other type takes the default path of a switch (OTHER). */
  datatype OpType =
    | GREATER_THAN | GREATER_THAN_EQUAL | LESS_THAN | LESS_THAN_EQUAL
    | SUBTRACTION | ADDITION | DIVISION | MULTIPLY | MODULO
    | NOT_EQUAL | EQUAL_EQUAL | CONCATENATOR | NEW_LINE
    | NOT | OR | AND | OTHER

  /** The part of a token the evaluator reads: its type and its text. */
  datatype IToken = IToken(kind: OpType, lexeme: string, line: int)

  type IExpr = Expr<IToken, Value>
  type IStmt = Stmt<IToken, Value>
  type Env = seq<Frame<Value>>

  /** Why evaluation stopped early. */
  datatype Stop =
    | RuntimeError(token: IToken, message: string)
    | HostFault(reason: string)
    | OutOfFuel

  /** A value or the reason there is none. */
  datatype Outcome<T> = Normal(value: T) | Abrupt(stop: Stop)

  /** The result of evaluating an expression: its value or why it stopped, with the
      environment as the evaluation left it. */
  datatype Evaluated = Done(value: Value, env: Env) | Threw(stop: Stop, env: Env)

  const NullOperands: string := "Can not perform operations on null values."
  const DifferentDatatype: string := "Can not perform operation on different datatype."
  const OperandNumber: string := "Operand must be a number."
  const DivideByZero: string := "ArithmeticException: / by zero"
  const NoInputLine: string := "NullPointerException: no input line"
  const Prompt: string := "Enter: "

  /** The operator symbols `checkNumberOperands` is called with. */
  datatype Symbol = Greater | GreaterEq | Less | LessEq | Minus | Plus | Slash | Star | Percent

  /** `int` arithmetic and comparison on two Integer operands; `/` and `%` by zero
      throw ArithmeticException, which escapes the interpreter's error reporting. */
  function IntOp(sym: Symbol, a: Int32, b: Int32): Outcome<Value> {
    match sym
    case Plus => Normal(Integer(Wrap32(a + b)))
    case Minus => Normal(Integer(Wrap32(a - b)))
    case Star => Normal(Integer(Wrap32(a * b)))
    case Slash => if b == 0 then Abrupt(HostFault(DivideByZero)) else Normal(Integer(JavaDiv(a, b)))
    case Percent => if b == 0 then Abrupt(HostFault(DivideByZero)) else Normal(Integer(JavaRem(a, b)))
    case Greater => Normal(Boolean(a > b))
    case Less => Normal(Boolean(a < b))
    case GreaterEq => Normal(Boolean(a >= b))
    case LessEq => Normal(Boolean(a <= b))
  }

  /** `double` arithmetic and comparison on two Double operands, through the host. */
  function DblOp(h: FloatHost, sym: Symbol, a: DoubleBits, b: DoubleBits): Value {
    match sym
    case Plus => Dbl(h.add(a, b))
    case Minus => Dbl(h.sub(a, b))
    case Star => Dbl(h.mul(a, b))
    case Slash => Dbl(h.div(a, b))
    case Percent => Dbl(h.rem(a, b))
    case Greater => Boolean(h.less(b, a))
    case Less => Boolean(h.less(a, b))
    case GreaterEq => Boolean(h.lessEq(b, a))
    case LessEq => Boolean(h.lessEq(a, b))
  }

  /** `checkNumberOperands`: a null operand is an error; two Integers use `int`
      arithmetic; any other pair is cast to `double`, which succeeds only for two
      Doubles and otherwise fails with ClassCastException, reported as an operation
      on different datatypes. */
  function CheckNumberOperands(h: FloatHost, op: IToken, sym: Symbol, l: Value, r: Value): Outcome<Value> {
    if l == Null || r == Null then Abrupt(RuntimeError(op, NullOperands))
    else if l.Integer? && r.Integer? then IntOp(sym, l.i, r.i)
    else if l.Dbl? && r.Dbl? then Normal(DblOp(h, sym, l.bits, r.bits))
    else Abrupt(RuntimeError(op, DifferentDatatype))
  }

  /** The switch of `visitBinaryExpr` on already evaluated operands; a type it does not
      list yields null. */
  function ApplyBinary(h: FloatHost, op: IToken, l: Value, r: Value): Outcome<Value> {
    match op.kind
    case GREATER_THAN => CheckNumberOperands(h, op, Greater, l, r)
    case GREATER_THAN_EQUAL => CheckNumberOperands(h, op, GreaterEq, l, r)
    case LESS_THAN => CheckNumberOperands(h, op, Less, l, r)
    case LESS_THAN_EQUAL => CheckNumberOperands(h, op, LessEq, l, r)
    case SUBTRACTION => CheckNumberOperands(h, op, Minus, l, r)
    case ADDITION => CheckNumberOperands(h, op, Plus, l, r)
    case DIVISION => CheckNumberOperands(h, op, Slash, l, r)
    case MULTIPLY => CheckNumberOperands(h, op, Star, l, r)
    case MODULO => CheckNumberOperands(h, op, Percent, l, r)
    case NOT_EQUAL => Normal(Boolean(!IsEqual(l, r)))
    case EQUAL_EQUAL => Normal(Boolean(IsEqual(l, r)))
    case CONCATENATOR => Normal(Str(Stringify(h, l) + Stringify(h, r)))
    case NEW_LINE => Normal(Str(Stringify(h, l) + "\n" + Stringify(h, r)))
    case _ => Normal(Null)
  }

  /** The switch of `visitUnaryExpr` on the evaluated operand: `NOT` negates its
      truthiness; `SUBTRACTION` negates a Double and rejects anything else; any other
      type yields null. */
  function ApplyUnary(h: FloatHost, op: IToken, v: Value): Outcome<Value> {
    match op.kind
    case NOT => Normal(Boolean(!IsTruthy(v)))
    case SUBTRACTION => if v.Dbl? then Normal(Dbl(h.negate(v.bits))) else Abrupt(RuntimeError(op, OperandNumber))
    case _ => Normal(Null)
  }

  /** The result of an operator applied after its operands were evaluated into `env`. */
  function Finish(o: Outcome<Value>, env: Env): (r: Evaluated)
    ensures r.env == env
  {
    match o
    case Normal(v) => Done(v, env)
    case Abrupt(s) => Threw(s, env)
  }

  /** `evaluate`: the `visit*Expr` methods. Operands are evaluated left to right;
      `OR` and `AND` skip the right operand when the left one decides. Only an
      assignment changes the environment, and never its depth. */
  function Evaluate(h: FloatHost, e: IExpr, env: Env): (r: Evaluated)
    ensures |r.env| == |env|
    decreases e
  {
    match e
    case Literal(v) => Done(v, env)
    case Grouping(inner) => Evaluate(h, inner, env)
    case Variable(name) =>
      (match Get(env, name.lexeme)
       case Success(v) => Done(v, env)
       case Failure(message) => Threw(RuntimeError(name, message), env))
    case Assign(name, x) =>
      (match Evaluate(h, x, env)
       case Threw(s, env1) => Threw(s, env1)
       case Done(v, env1) =>
         AssignDepth(env1, name.lexeme, v);
         match Environment.Assign(env1, name.lexeme, v)
         case Success(env2) => Done(v, env2)
         case Failure(message) => Threw(RuntimeError(name, message), env1))
    case Unary(op, x) =>
      (match Evaluate(h, x, env)
       case Threw(s, env1) => Threw(s, env1)
       case Done(v, env1) => Finish(ApplyUnary(h, op, v), env1))
    case Logical(left, op, right) =>
      (match Evaluate(h, left, env)
       case Threw(s, env1) => Threw(s, env1)
       case Done(v, env1) =>
         if op.kind == OR then
           if IsTruthy(v) then Done(v, env1) else Evaluate(h, right, env1)
         else
           if !IsTruthy(v) then Done(v, env1) else Evaluate(h, right, env1))
    case Binary(left, op, right) =>
      match Evaluate(h, left, env)
      case Threw(s, env1) => Threw(s, env1)
      case Done(l, env1) =>
        match Evaluate(h, right, env1)
        case Threw(s, env2) => Threw(s, env2)
        case Done(r, env2) => Finish(ApplyBinary(h, op, l, r), env2)
  }

  /** An assignment keeps the number of frames. */
  lemma {:induction false} AssignDepth(env: Env, name: string, v: Value)
    ensures Environment.Assign(env, name, v).Success? ==> |Environment.Assign(env, name, v).value| == |env|
  {
    if Environment.Assign(env, name, v).Success? {
      var i :| InnermostValue(env, name, i) && Environment.Assign(env, name, v).value == Overwrite(env, i, name, v);
    }
  }

  /** What the interpreter carries between statements: the scope chain, the text
      written to standard output so far, and the input lines not yet read. */
  datatype State = State(env: Env, out: string, input: seq<string>)

  /** The result of executing statements: the state reached, and why execution
      stopped early, if it did. */
  datatype Executed = Executed(stop: Option<Stop>, st: State)

  /** The value check of a typed declaration: the runtime class it demands. */
  function Admits(tag: string, v: Value): bool {
    if tag == IntegerTag then v.Integer?
    else if tag == FloatTag then v.Dbl?
    else if tag == CharacterTag then v.Character?
    else if tag == StringTag then v.Str?
    else if tag == BooleanTag then v.Boolean?
    else false
  }

  /** The message a typed declaration reports for an initializer of another class. */
  function DeclarationMessage(tag: string): string {
    if tag == IntegerTag then "Input must be an Integer"
    else if tag == FloatTag then "Input must be an Float"
    else if tag == CharacterTag then "Input must be an Character"
    else if tag == StringTag then "Input must be an String"
    else "Input must be an Boolean"
  }

  /** The message a scan reports for an input of another class than the tag's. */
  function ScanMessage(tag: string): string {
    if tag == IntegerTag then "Input must be an Integer"
    else if tag == FloatTag then "Input must be a Float"
    else if tag == CharacterTag then "Input must be a Character"
    else if tag == StringTag then "Input must be a String"
    else if tag == BooleanTag then "Input must be a Boolean"
    else "Unknown variable type '" + tag + "'"
  }

  /** `visitIntStmt` and its four siblings: evaluate the initializer if there is one
      (null otherwise), reject a value of the wrong class without defining anything,
      else define the name with the value and the declaration's tag in the current
      frame. */
  function Declare(h: FloatHost, name: IToken, init: Option<IExpr>, tag: string, st: State): Executed
    requires |st.env| > 0
  {
    match init
    case None => Executed(None, st.(env := DefineTyped(st.env, name.lexeme, Null, tag)))
    case Some(e) =>
      match Evaluate(h, e, st.env)
      case Threw(s, env1) => Executed(Some(s), st.(env := env1))
      case Done(v, env1) =>
        if !Admits(tag, v) then Executed(Some(RuntimeError(name, DeclarationMessage(tag))), st.(env := env1))
        else Executed(None, st.(env := DefineTyped(env1, name.lexeme, v, tag)))
  }

  /** `visitScanStmt`: print the prompt, read and classify one line, then, if the
      name has a tag, assign the value when its class is the tag's and report an
      error otherwise. A name without a tag is left alone. With no line left,
      `readLine()` returns null and `trim()` fails: a host failure. */
  function ScanInto(h: FloatHost, name: IToken, st: State): Executed {
    var out := st.out + Prompt;
    if |st.input| == 0 then Executed(Some(HostFault(NoInputLine)), st.(out := out))
    else
      var v := Classify(h, st.input[0]);
      var st1 := st.(out := out, input := st.input[1..]);
      match GetTokenType(st.env, name.lexeme)
      case None => Executed(None, st1)
      case Some(tag) =>
        if !Admits(tag, v) then Executed(Some(RuntimeError(name, ScanMessage(tag))), st1)
        else
          AssignDepth(st.env, name.lexeme, v);
          match Environment.Assign(st.env, name.lexeme, v)
          case Success(env) => Executed(None, st1.(env := env))
          case Failure(message) => Executed(Some(RuntimeError(name, message)), st1)
  }

  /** `execute`: dispatch to the `visit*Stmt` method of the statement's kind.
      Statements never change the number of frames. */
  function Exec(h: FloatHost, s: IStmt, st: State, fuel: nat): (r: Executed)
    requires |st.env| > 0
    ensures |r.st.env| == |st.env|
    decreases fuel, s, 1
  {
    match s
    case Expression(e) => ExpressionStmt(h, e, st)
    case Display(e) => DisplayStmt(h, e, st)
    case Scan(name, _) => ScanInto(h, name, st)
    case Int(name, init) => Declare(h, name, init, IntegerTag, st)
    case Float(name, init) => Declare(h, name, init, FloatTag, st)
    case Char(name, init) => Declare(h, name, init, CharacterTag, st)
    case String(name, init) => Declare(h, name, init, StringTag, st)
    case Bool(name, init) => Declare(h, name, init, BooleanTag, st)
    case VariableDeclaration(declarations) => ExecAll(h, declarations, st, fuel)
    case NewLine => Executed(None, st.(out := st.out + "\n"))
    case Block(statements) => BlockStmt(h, statements, st, fuel)
    case If(condition, thenBranch, elseBranch) => IfStmt(h, condition, thenBranch, elseBranch, st, fuel)
    case While(condition, body) => Loop(h, condition, body, st, fuel)
  }

  /** `visitExpressionStmt`: evaluate for the effect, drop the value. The statement
      keeps whatever the evaluation did to the environment and stops exactly when
      the evaluation threw, with its reason. */
  function ExpressionStmt(h: FloatHost, e: IExpr, st: State): (r: Executed)
    ensures r.st.out == st.out && r.st.input == st.input
    ensures r.st.env == Evaluate(h, e, st.env).env
    ensures r.stop.None? <==> Evaluate(h, e, st.env).Done?
    ensures Evaluate(h, e, st.env).Threw? ==> r.stop == Some(Evaluate(h, e, st.env).stop)
  {
    match Evaluate(h, e, st.env)
    case Threw(x, env1) => Executed(Some(x), st.(env := env1))
    case Done(_, env1) => Executed(None, st.(env := env1))
  }

  /** `visitDisplayStmt`: evaluate, then print the value's text on a line of its own
      after an empty line. */
  function DisplayStmt(h: FloatHost, e: IExpr, st: State): (r: Executed)
    ensures r.st.input == st.input
    ensures r.stop.None? <==> Evaluate(h, e, st.env).Done?
    ensures r.stop.None? ==> r.st.out == st.out + "\n" + Stringify(h, Evaluate(h, e, st.env).value) + "\n"
    ensures r.stop.Some? ==> r.st.out == st.out
  {
    match Evaluate(h, e, st.env)
    case Threw(x, env1) => Executed(Some(x), st.(env := env1))
    case Done(v, env1) => Executed(None, st.(env := env1, out := st.out + "\n" + Stringify(h, v) + "\n"))
  }

  /** `visitBlockStmt` and `executeBlock`: run the statements in a fresh child frame,
      which is dropped again on every exit, an error included. */
  function BlockStmt(h: FloatHost, ss: seq<IStmt>, st: State, fuel: nat): (r: Executed)
    requires |st.env| > 0
    ensures |r.st.env| == |st.env|
    decreases fuel, Block(ss), 0
  {
    var inner := ExecAll(h, ss, st.(env := [EmptyFrame()] + st.env), fuel);
    Executed(inner.stop, inner.st.(env := inner.st.env[1..]))
  }

  /** `visitIfStmt`: the then branch when the condition is truthy, else the else
      branch if there is one. */
  function IfStmt(h: FloatHost, condition: IExpr, thenBranch: IStmt, elseBranch: Option<IStmt>, st: State, fuel: nat): (r: Executed)
    requires |st.env| > 0
    ensures |r.st.env| == |st.env|
    decreases fuel, If(condition, thenBranch, elseBranch), 0
  {
    match Evaluate(h, condition, st.env)
    case Threw(x, env1) => Executed(Some(x), st.(env := env1))
    case Done(v, env1) =>
      if IsTruthy(v) then Exec(h, thenBranch, st.(env := env1), fuel)
      else if elseBranch.Some? then Exec(h, elseBranch.value, st.(env := env1), fuel)
      else Executed(None, st.(env := env1))
  }

  /** `visitWhileStmt`: evaluate the condition; while it is truthy, run the body and
      evaluate it again. Each iteration spends one unit of fuel, and a loop that has
      none left stops with OutOfFuel. */
  function Loop(h: FloatHost, condition: IExpr, body: IStmt, st: State, fuel: nat): (r: Executed)
    requires |st.env| > 0
    ensures |r.st.env| == |st.env|
    decreases fuel, While(condition, body), 0
  {
    match Evaluate(h, condition, st.env)
    case Threw(x, env1) => Executed(Some(x), st.(env := env1))
    case Done(v, env1) =>
      if !IsTruthy(v) then Executed(None, st.(env := env1))
      else if fuel == 0 then Executed(Some(OutOfFuel), st.(env := env1))
      else
        Iteration(h, condition, body, st.(env := env1), fuel)
  }

  /** One pass of a loop's body after its condition held, then the rest of the loop
      unless the body stopped. */
  function Iteration(h: FloatHost, condition: IExpr, body: IStmt, st: State, fuel: nat): (r: Executed)
    requires |st.env| > 0 && fuel > 0
    ensures |r.st.env| == |st.env|
    decreases fuel, body, 2
  {
    var turn := Exec(h, body, st, fuel);
    if turn.stop.Some? then turn else Loop(h, condition, body, turn.st, fuel - 1)
  }

  /** Statements in order, stopping at the first that stops. */
  function ExecAll(h: FloatHost, ss: seq<IStmt>, st: State, fuel: nat): (r: Executed)
    requires |st.env| > 0
    ensures |r.st.env| == |st.env|
    decreases fuel, ss, 0
  {
    if |ss| == 0 then Executed(None, st)
    else
      var first := Exec(h, ss[0], st, fuel);
      if first.stop.Some? then first else ExecAll(h, ss[1..], first.st, fuel)
  }

  /** `interpret`: run the program's statements in the global scope; the first
      runtime error ends the run and is what gets reported. The interpreter is one
      instance for the whole session, so the global frame is the one the previous
      run left (empty before the first run), and the result carries the global frame
      the next run starts from. */
  function Interpret(h: FloatHost, program: seq<IStmt>, globals: Frame<Value>, input: seq<string>, fuel: nat): (r: Executed)
    ensures |r.st.env| == 1
  {
    ExecAll(h, program, State([globals], "", input), fuel)
  }
}

=== FILE: interpreter_facts.dfy ===
/** Properties of the evaluator: the order and short-circuiting of operand
    evaluation, the operand checks of the operators, the class checks of typed
    declarations and of `scan`, how conditions select branches, that a block leaves
    no binding behind, that output only grows and input is only consumed, and that
    execution halts at the first error. */
module InterpreterFacts {
  import opened Common
  import opened Ast
  import opened Values
  import opened Environment
  import opened EnvironmentFacts
  import opened ValuesFacts
  import opened Interpreter

  // ---------------------------------------------------------------- expressions

  /** `OR` does not evaluate its right operand when the left one is truthy, and `AND`
      (like any other logical operator) does not when the left one is falsy: the
      right operand cannot matter, not even an erroneous one. */
  lemma {:induction false} ShortCircuit(h: FloatHost, left: IExpr, op: IToken, r1: IExpr, r2: IExpr, env: Env)
    requires Evaluate(h, left, env).Done?
    requires IsTruthy(Evaluate(h, left, env).value) == (op.kind == OR)
    ensures Evaluate(h, Logical(left, op, r1), env) == Evaluate(h, left, env)
    ensures Evaluate(h, Logical(left, op, r2), env) == Evaluate(h, left, env)
  {
  }

  /** When the left operand does not decide, the logical expression is its right
      operand, evaluated in the environment the left one left: its value, or its
      error. */
  lemma {:induction false} RightOperandDecides(h: FloatHost, left: IExpr, op: IToken, right: IExpr, env: Env)
    requires Evaluate(h, left, env).Done?
    requires IsTruthy(Evaluate(h, left, env).value) != (op.kind == OR)
    ensures Evaluate(h, Logical(left, op, right), env) == Evaluate(h, right, Evaluate(h, left, env).env)
  {
  }

  /** With both operands evaluated, the truthiness of `OR` is the disjunction and
      that of `AND` the conjunction of the operands' truthiness; the value itself is
      one of the operands'. */
  lemma {:induction false} LogicalTruth(h: FloatHost, left: IExpr, op: IToken, right: IExpr, env: Env)
    requires Evaluate(h, left, env).Done?
    requires Evaluate(h, right, Evaluate(h, left, env).env).Done?
    ensures var a := Evaluate(h, left, env).value;
            var b := Evaluate(h, right, Evaluate(h, left, env).env).value;
            var r := Evaluate(h, Logical(left, op, right), env);
            && r.Done?
            && (r.value == a || r.value == b)
            && IsTruthy(r.value) == (if op.kind == OR then IsTruthy(a) || IsTruthy(b) else IsTruthy(a) && IsTruthy(b))
  {
  }

  /** Operands are evaluated left to right: an error in the left operand of a binary
      operator is the error of the whole expression, whatever the right operand is. */
  lemma {:induction false} LeftOperandFirst(h: FloatHost, left: IExpr, op: IToken, r1: IExpr, r2: IExpr, env: Env)
    requires Evaluate(h, left, env).Threw?
    ensures Evaluate(h, Binary(left, op, r1), env) == Evaluate(h, left, env)
    ensures Evaluate(h, Binary(left, op, r2), env) == Evaluate(h, left, env)
  {
  }

  /** `==` and `!=` never fail and compare values exactly: an Integer is never equal
      to a Double, and null equals only null. */
  lemma {:induction false} EqualityOperators(h: FloatHost, op: IToken, l: Value, r: Value)
    ensures op.kind == EQUAL_EQUAL ==> ApplyBinary(h, op, l, r) == Normal(Boolean(l == r))
    ensures op.kind == NOT_EQUAL ==> ApplyBinary(h, op, l, r) == Normal(Boolean(l != r))
  {
    IsEqualIsEquality(l, r);
  }

  /** The arithmetic and comparison operators succeed exactly on two Integers (except
      a division or remainder by zero) and on two Doubles. A null operand is reported
      as such; any other mix of classes is an operation on different datatypes. */
  lemma {:induction false} OperandDiscipline(h: FloatHost, op: IToken, sym: Symbol, l: Value, r: Value)
    ensures var o := CheckNumberOperands(h, op, sym, l, r);
            o.Normal? <==>
              || (l.Integer? && r.Integer? && !((sym == Slash || sym == Percent) && r.i == 0))
              || (l.Dbl? && r.Dbl?)
    ensures var o := CheckNumberOperands(h, op, sym, l, r);
            o.Abrupt? && o.stop.RuntimeError? ==>
              && o.stop.token == op
              && (o.stop.message == NullOperands <==> l == Null || r == Null)
              && (o.stop.message == DifferentDatatype <==> l != Null && r != Null)
    ensures var o := CheckNumberOperands(h, op, sym, l, r);
            o.Abrupt? && o.stop.HostFault? <==> l.Integer? && r.Integer? && (sym == Slash || sym == Percent) && r.i == 0
  {
  }

  /** `int` addition wraps around: the largest `int` plus one is the smallest. Inside
      the range it is ordinary addition. */
  lemma {:induction false} IntegerAddition(h: FloatHost, op: IToken, a: Int32, b: Int32)
    requires op.kind == ADDITION
    ensures -TwoTo31 <= a + b < TwoTo31 ==> ApplyBinary(h, op, Integer(a), Integer(b)) == Normal(Integer(a + b))
    ensures ApplyBinary(h, op, Integer(TwoTo31 - 1), Integer(1)) == Normal(Integer(-TwoTo31))
  {
    assert Wrap32(TwoTo31) == -TwoTo31;
  }

  /** Unary minus accepts only a Double: negating an Integer, even a literal one, is
      the error "Operand must be a number.". */
  lemma {:induction false} NegationNeedsDouble(h: FloatHost, op: IToken, v: Value)
    requires op.kind == SUBTRACTION
    ensures ApplyUnary(h, op, v).Normal? <==> v.Dbl?
    ensures !v.Dbl? ==> ApplyUnary(h, op, v) == Abrupt(RuntimeError(op, OperandNumber))
  {
  }

  /** `&` joins the texts `stringify` gives its two operands, whatever their
      classes, and the new-line operator joins them with a line break between; the
      result is a String and the environment is the one the operands left. */
  lemma {:induction false} StringOperators(h: FloatHost, left: IExpr, op: IToken, right: IExpr, env: Env)
    requires Evaluate(h, left, env).Done?
    requires Evaluate(h, right, Evaluate(h, left, env).env).Done?
    ensures var a := Evaluate(h, left, env).value;
            var second := Evaluate(h, right, Evaluate(h, left, env).env);
            var r := Evaluate(h, Binary(left, op, right), env);
            && (op.kind == CONCATENATOR ==>
                  r == Done(Str(Stringify(h, a) + Stringify(h, second.value)), second.env))
            && (op.kind == NEW_LINE ==>
                  r == Done(Str(Stringify(h, a) + "\n" + Stringify(h, second.value)), second.env))
  {
  }

  /** `!` yields the Boolean opposite to its operand's truthiness, for an operand of
      any class, in the environment the operand left. */
  lemma {:induction false} NotNegatesTruth(h: FloatHost, op: IToken, x: IExpr, env: Env)
    requires op.kind == NOT && Evaluate(h, x, env).Done?
    ensures var first := Evaluate(h, x, env);
            var r := Evaluate(h, Unary(op, x), env);
            && r == Done(Boolean(!IsTruthy(first.value)), first.env)
            && IsTruthy(r.value) != IsTruthy(first.value)
  {
    var first := Evaluate(h, x, env);
    assert Evaluate(h, Unary(op, x), env) == Finish(ApplyUnary(h, op, first.value), first.env);
  }

  /** An operator type the switch of `visitBinaryExpr` or `visitUnaryExpr` does not
      list yields null, without an error: `OR`, `AND` and `NOT` between two operands,
      and any type but `NOT` and `SUBTRACTION` in front of one. */
  lemma {:induction false} UnlistedOperators(h: FloatHost, op: IToken, l: Value, r: Value)
    ensures op.kind in {NOT, OR, AND, OTHER} ==> ApplyBinary(h, op, l, r) == Normal(Null)
    ensures op.kind !in {NOT, SUBTRACTION} ==> ApplyUnary(h, op, l) == Normal(Null)
  {
  }

  /** A variable reads the innermost binding of its name; an unbound name is the
      error "Undefined variable" at the variable's token. */
  lemma {:induction false} VariableLookup(h: FloatHost, name: IToken, env: Env)
    ensures Evaluate(h, Variable(name), env).Done? <==> Bound(env, name.lexeme)
    ensures Evaluate(h, Variable(name), env).Threw? ==>
              Evaluate(h, Variable(name), env).stop == RuntimeError(name, UndefinedVariable(name.lexeme))
  {
  }

  /** An assignment yields the assigned value, which the name then reads back; a name
      no frame binds is an error, and no binding is created. */
  lemma {:induction false} AssignmentYieldsValue(h: FloatHost, name: IToken, x: IExpr, env: Env)
    requires Evaluate(h, x, env).Done?
    ensures var (v, env1) := (Evaluate(h, x, env).value, Evaluate(h, x, env).env);
            var r := Evaluate(h, Assign(name, x), env);
            && (r.Done? <==> Bound(env1, name.lexeme))
            && (r.Done? ==> r.value == v && Get(r.env, name.lexeme) == Success(v))
            && (r.Threw? ==> r.stop == RuntimeError(name, UndefinedVariable(name.lexeme)) && r.env == env1)
  {
    var v := Evaluate(h, x, env).value;
    var env1 := Evaluate(h, x, env).env;
    if Environment.Assign(env1, name.lexeme, v).Success? {
      AssignThenGet(env1, name.lexeme, v);
    }
  }

  /** An assignment statement stores the value for good: it completes exactly when
      the name is bound, after which the name reads back as the value; an unbound
      name stops the run with "Undefined variable". Nothing is printed or read. */
  lemma {:induction false} AssignmentStatement(h: FloatHost, name: IToken, x: IExpr, st: State, fuel: nat)
    requires |st.env| > 0 && Evaluate(h, x, st.env).Done?
    ensures var (v, env1) := (Evaluate(h, x, st.env).value, Evaluate(h, x, st.env).env);
            var r := Exec(h, Expression(Assign(name, x)), st, fuel);
            && (r.stop.None? <==> Bound(env1, name.lexeme))
            && (r.stop.None? ==> Get(r.st.env, name.lexeme) == Success(v))
            && (r.stop.Some? ==> r.stop == Some(RuntimeError(name, UndefinedVariable(name.lexeme))) && r.st.env == env1)
            && r.st.out == st.out && r.st.input == st.input
  {
    AssignmentYieldsValue(h, name, x, st.env);
  }

  // ---------------------------------------------------------------- declarations and input

  /** A typed declaration checks its initializer's class: it succeeds exactly when
      the class is the tag's, and then the name reads back as the value with the tag;
      otherwise it reports the declaration's message and defines nothing. Without an
      initializer the name is bound to null with the tag. */
  lemma {:induction false} DeclarationChecksClass(h: FloatHost, name: IToken, init: Option<IExpr>, tag: string, st: State)
    requires |st.env| > 0
    requires init.Some? ==> Evaluate(h, init.value, st.env).Done?
    ensures var r := Declare(h, name, init, tag, st);
            && (init.None? ==> r.stop.None? && Get(r.st.env, name.lexeme) == Success(Null)
                                && GetTokenType(r.st.env, name.lexeme) == Some(tag))
            && (init.Some? ==>
                  var (v, env1) := (Evaluate(h, init.value, st.env).value, Evaluate(h, init.value, st.env).env);
                  && (r.stop.None? <==> Admits(tag, v))
                  && (r.stop.None? ==> Get(r.st.env, name.lexeme) == Success(v)
                                       && GetTokenType(r.st.env, name.lexeme) == Some(tag))
                  && (r.stop.Some? ==> r.stop.value == RuntimeError(name, DeclarationMessage(tag)) && r.st.env == env1))
  {
    if init.None? {
      DefineTypedRoundTrip(st.env, name.lexeme, Null, tag);
    } else {
      var e := Evaluate(h, init.value, st.env);
      DefineTypedRoundTrip(e.env, name.lexeme, e.value, tag);
    }
  }

  /** Each typed declaration statement demands its own class and records its own tag. */
  lemma {:induction false} DeclarationTags(h: FloatHost, name: IToken, init: Option<IExpr>, st: State, fuel: nat)
    requires |st.env| > 0
    ensures Exec(h, Int(name, init), st, fuel) == Declare(h, name, init, IntegerTag, st)
    ensures Exec(h, Float(name, init), st, fuel) == Declare(h, name, init, FloatTag, st)
    ensures Exec(h, Char(name, init), st, fuel) == Declare(h, name, init, CharacterTag, st)
    ensures Exec(h, String(name, init), st, fuel) == Declare(h, name, init, StringTag, st)
    ensures Exec(h, Bool(name, init), st, fuel) == Declare(h, name, init, BooleanTag, st)
  {
  }

  /** Each declaration tag admits exactly the values of its own class. */
  lemma {:induction false} TagsAdmitTheirClass()
    ensures forall v :: Admits(IntegerTag, v) <==> v.Integer?
    ensures forall v :: Admits(FloatTag, v) <==> v.Dbl?
    ensures forall v :: Admits(CharacterTag, v) <==> v.Character?
    ensures forall v :: Admits(StringTag, v) <==> v.Str?
    ensures forall v :: Admits(BooleanTag, v) <==> v.Boolean?
  {
  }

  /** `scan` prints the prompt and consumes one line. A name without a tag is left
      alone; for a tagged name the classified input is assigned exactly when its class
      is the tag's, and otherwise the scan reports the tag's message and changes no
      binding. With no line left the host fails. */
  lemma {:induction false} ScanChecksClass(h: FloatHost, name: IToken, st: State)
    ensures var r := ScanInto(h, name, st);
            && r.st.out == st.out + Prompt
            && (|st.input| == 0 ==> r.stop == Some(HostFault(NoInputLine)))
            && (|st.input| > 0 ==> r.st.input == st.input[1..])
    ensures var r := ScanInto(h, name, st);
            |st.input| > 0 && GetTokenType(st.env, name.lexeme).None? ==> r.stop.None? && r.st.env == st.env
    ensures var r := ScanInto(h, name, st);
            |st.input| > 0 && GetTokenType(st.env, name.lexeme).Some? && Bound(st.env, name.lexeme) ==>
              var (v, tag) := (Classify(h, st.input[0]), GetTokenType(st.env, name.lexeme).value);
              && (r.stop.None? <==> Admits(tag, v))
              && (r.stop.None? ==> Get(r.st.env, name.lexeme) == Success(v))
              && (r.stop.Some? ==> r.stop.value == RuntimeError(name, ScanMessage(tag)) && r.st.env == st.env)
  {
    if |st.input| > 0 && GetTokenType(st.env, name.lexeme).Some? && Bound(st.env, name.lexeme) {
      var v := Classify(h, st.input[0]);
      AssignThenGet(st.env, name.lexeme, v);
    }
  }

  /** An Integer variable scanned from a line that `display` wrote for an Integer
      holds that Integer again. */
  lemma {:induction false} ScanReadsDisplayedInteger(h: FloatHost, name: IToken, i: Int32, st: State)
    requires |st.input| > 0 && st.input[0] == Stringify(h, Integer(i))
    requires GetTokenType(st.env, name.lexeme) == Some(IntegerTag) && Bound(st.env, name.lexeme)
    ensures ScanInto(h, name, st).stop.None?
    ensures Get(ScanInto(h, name, st).st.env, name.lexeme) == Success(Integer(i))
  {
    IntegerReadsBack(h, i);
    ScanChecksClass(h, name, st);
  }

  // ---------------------------------------------------------------- control flow

  /** `if` with a truthy condition runs the then branch from the state the condition
      left; the else branch, present or not, cannot matter. */
  lemma {:induction false} IfTakesThen(h: FloatHost, c: IExpr, t: IStmt, e1: Option<IStmt>, e2: Option<IStmt>,
                                       st: State, fuel: nat)
    requires |st.env| > 0
    requires Evaluate(h, c, st.env).Done? && IsTruthy(Evaluate(h, c, st.env).value)
    ensures Exec(h, If(c, t, e1), st, fuel) == Exec(h, t, st.(env := Evaluate(h, c, st.env).env), fuel)
    ensures Exec(h, If(c, t, e1), st, fuel) == Exec(h, If(c, t, e2), st, fuel)
  {
    ExecIf(h, c, t, e1, st, fuel);
    ExecIf(h, c, t, e2, st, fuel);
  }

  /** `if` with a falsy condition runs the else branch if there is one and otherwise
      completes with the state the condition left; the then branch cannot matter. */
  lemma {:induction false} IfTakesElse(h: FloatHost, c: IExpr, t1: IStmt, t2: IStmt, e: Option<IStmt>,
                                       st: State, fuel: nat)
    requires |st.env| > 0
    requires Evaluate(h, c, st.env).Done? && !IsTruthy(Evaluate(h, c, st.env).value)
    ensures var st1 := st.(env := Evaluate(h, c, st.env).env);
            Exec(h, If(c, t1, e), st, fuel) == if e.Some? then Exec(h, e.value, st1, fuel) else Executed(None, st1)
    ensures Exec(h, If(c, t1, e), st, fuel) == Exec(h, If(c, t2, e), st, fuel)
  {
    ExecIf(h, c, t1, e, st, fuel);
    ExecIf(h, c, t2, e, st, fuel);
  }

  /** A `while` whose condition is falsy runs its body zero times and completes: the
      body cannot matter. */
  lemma {:induction false} WhileFalsySkips(h: FloatHost, c: IExpr, b1: IStmt, b2: IStmt, st: State, fuel: nat)
    requires |st.env| > 0
    requires Evaluate(h, c, st.env).Done? && !IsTruthy(Evaluate(h, c, st.env).value)
    ensures Exec(h, While(c, b1), st, fuel) == Executed(None, st.(env := Evaluate(h, c, st.env).env))
    ensures Exec(h, While(c, b1), st, fuel) == Exec(h, While(c, b2), st, fuel)
  {
    ExecWhile(h, c, b1, st, fuel);
    ExecWhile(h, c, b2, st, fuel);
  }

  /** `Exec` hands an `if` statement to `IfStmt`. */
  lemma {:induction false} ExecIf(h: FloatHost, c: IExpr, t: IStmt, e: Option<IStmt>, st: State, fuel: nat)
    requires |st.env| > 0
    ensures Exec(h, If(c, t, e), st, fuel) == IfStmt(h, c, t, e, st, fuel)
  {
  }

  /** `Exec` hands a `while` statement to `Loop`. */
  lemma {:induction false} ExecWhile(h: FloatHost, c: IExpr, body: IStmt, st: State, fuel: nat)
    requires |st.env| > 0
    ensures Exec(h, While(c, body), st, fuel) == Loop(h, c, body, st, fuel)
  {
  }

  /** `newLine` prints exactly one line break and changes nothing else. */
  lemma {:induction false} NewLineAppends(h: FloatHost, st: State, fuel: nat)
    requires |st.env| > 0
    ensures var r := Exec(h, NewLine, st, fuel);
            && r.stop.None?
            && r.st.out == st.out + "\n"
            && r.st.env == st.env && r.st.input == st.input
  {
  }

  /** Running statements one after another: the concatenation runs the first part
      and, unless it stopped, the second part from the state it left. */
  lemma {:induction false} Sequencing(h: FloatHost, a: seq<IStmt>, b: seq<IStmt>, st: State, fuel: nat)
    requires |st.env| > 0
    ensures var first := ExecAll(h, a, st, fuel);
            ExecAll(h, a + b, st, fuel) == if first.stop.Some? then first else ExecAll(h, b, first.st, fuel)
    decreases |a|
  {
    if |a| > 0 {
      assert (a + b)[0] == a[0];
      assert (a + b)[1..] == a[1..] + b;
      var r := Exec(h, a[0], st, fuel);
      if r.stop.None? {
        Sequencing(h, a[1..], b, r.st, fuel);
      }
    } else {
      assert a + b == b;
    }
  }

  /** Execution halts at the first error: once a prefix of the program stops, the
      statements after it never run and the outcome is the prefix's. */
  lemma {:induction false} HaltsAtFirstError(h: FloatHost, program: seq<IStmt>, i: nat, globals: Frame<Value>,
                                             input: seq<string>, fuel: nat)
    requires i <= |program|
    requires Interpret(h, program[..i], globals, input, fuel).stop.Some?
    ensures Interpret(h, program, globals, input, fuel) == Interpret(h, program[..i], globals, input, fuel)
  {
    assert program == program[..i] + program[i..];
    Sequencing(h, program[..i], program[i..], State([globals], "", input), fuel);
  }

  // ---------------------------------------------------------------- scopes, output and input

  /** What a frame binds, without the values: its tag map and the names it binds. */
  function Shape(f: Frame<Value>): (map<string, string>, set<string>) {
    (f.tags, f.values.Keys)
  }

  /** The shapes of a chain's frames, innermost first. */
  ghost function Shapes(env: Env): seq<(map<string, string>, set<string>)> {
    seq(|env|, k requires 0 <= k < |env| => Shape(env[k]))
  }

  /** Dropping the current frame drops its shape. */
  lemma {:induction false} ShapesTail(env: Env)
    requires |env| > 0
    ensures Shapes(env)[1..] == Shapes(env[1..])
  {
    assert forall k :: 0 <= k < |env| - 1 ==> Shapes(env)[1..][k] == Shapes(env[1..])[k];
  }

  /** From frame `from` outwards, the two chains have the same tags and bind the same
      names (the values may differ). */
  ghost predicate SameShape(a: Env, b: Env, from: nat) {
    |a| == |b| && from <= |a| && Shapes(a)[from..] == Shapes(b)[from..]
  }

  /** `b` is a later state than `a`: the same names from frame `from` outwards, the
      output extended and the input consumed from the front. */
  ghost predicate Follows(a: State, b: State, from: nat) {
    && SameShape(a.env, b.env, from)
    && |a.out| <= |b.out| && b.out[..|a.out|] == a.out
    && |b.input| <= |a.input| && b.input == a.input[|a.input| - |b.input|..]
  }

  lemma {:induction false} FollowsTrans(a: State, b: State, c: State, from: nat)
    requires Follows(a, b, from) && Follows(b, c, from)
    ensures Follows(a, c, from)
  {
    assert c.out[..|b.out|][..|a.out|] == c.out[..|a.out|];
    assert a.input[|a.input| - |b.input|..][|b.input| - |c.input|..] == a.input[|a.input| - |c.input|..];
  }

  /** A successful assignment rebinds a name that is already bound and changes no tag. */
  lemma {:induction false} AssignShape(env: Env, name: string, v: Value)
    requires Environment.Assign(env, name, v).Success?
    ensures SameShape(env, Environment.Assign(env, name, v).value, 0)
  {
    var r := Environment.Assign(env, name, v).value;
    var i :| InnermostValue(env, name, i) && r == Overwrite(env, i, name, v);
    assert r[i].values.Keys == env[i].values.Keys;
    assert forall k :: 0 <= k < |env| ==> Shapes(r)[k] == Shapes(env)[k];
    assert Shapes(r) == Shapes(env);
  }

  /** Evaluating an expression binds no new name and changes no tag. */
  lemma {:induction false} EvaluateShape(h: FloatHost, e: IExpr, env: Env)
    ensures SameShape(env, Evaluate(h, e, env).env, 0)
    decreases e
  {
    match e
    case Literal(_) =>
    case Variable(_) =>
    case Grouping(inner) => EvaluateShape(h, inner, env);
    case Assign(name, x) =>
      EvaluateShape(h, x, env);
      var r := Evaluate(h, x, env);
      if r.Done? && Environment.Assign(r.env, name.lexeme, r.value).Success? {
        AssignShape(r.env, name.lexeme, r.value);
      }
    case Unary(_, x) => EvaluateShape(h, x, env);
    case Logical(left, _, right) =>
      EvaluateShape(h, left, env);
      EvaluateShape(h, right, Evaluate(h, left, env).env);
    case Binary(left, _, right) =>
      EvaluateShape(h, left, env);
      EvaluateShape(h, right, Evaluate(h, left, env).env);
  }

  /** A statement binds new names and changes tags only in the current frame, only
      appends to the output and only consumes input. */
  lemma {:induction false} ExecFollows(h: FloatHost, s: IStmt, st: State, fuel: nat)
    requires |st.env| > 0
    ensures Follows(st, Exec(h, s, st, fuel).st, 1)
    decreases fuel, s, 3
  {
    match s
    case Expression(e) => ConditionFollows(h, e, st);
    case Display(e) => DisplayFollows(h, e, st);
    case Scan(name, _) => ScanFollows(h, name, st); Weaken(st, ScanInto(h, name, st).st);
    case Int(name, init) => DeclareFollows(h, name, init, IntegerTag, st);
    case Float(name, init) => DeclareFollows(h, name, init, FloatTag, st);
    case Char(name, init) => DeclareFollows(h, name, init, CharacterTag, st);
    case String(name, init) => DeclareFollows(h, name, init, StringTag, st);
    case Bool(name, init) => DeclareFollows(h, name, init, BooleanTag, st);
    case VariableDeclaration(declarations) => ExecAllFollows(h, declarations, st, fuel);
    case NewLine => NewLineFollows(st);
    case Block(statements) => BlockFollows(h, statements, st, fuel); Weaken(st, BlockStmt(h, statements, st, fuel).st);
    case If(condition, thenBranch, elseBranch) => IfFollows(h, condition, thenBranch, elseBranch, st, fuel);
    case While(condition, body) => WhileFollows(h, condition, body, st, fuel);
  }

  /** What holds of every frame holds of every frame but the current one. */
  lemma {:induction false} Weaken(a: State, b: State)
    requires |a.env| > 0 && Follows(a, b, 0)
    ensures Follows(a, b, 1)
  {
    assert Shapes(a.env)[1..] == Shapes(a.env)[0..][1..];
    assert Shapes(b.env)[1..] == Shapes(b.env)[0..][1..];
  }

  lemma {:induction false} NewLineFollows(st: State)
    requires |st.env| > 0
    ensures Follows(st, st.(out := st.out + "\n"), 1)
  {
    assert (st.out + "\n")[..|st.out|] == st.out;
    assert st.input[|st.input| - |st.input|..] == st.input;
  }

  lemma {:induction false} DisplayFollows(h: FloatHost, e: IExpr, st: State)
    requires |st.env| > 0
    ensures Follows(st, DisplayStmt(h, e, st).st, 1)
  {
    EvaluateShape(h, e, st.env);
    var r := DisplayStmt(h, e, st).st;
    assert r.out[..|st.out|] == st.out;
    assert st.input[|st.input| - |st.input|..] == st.input;
  }

  lemma {:induction false} ScanFollows(h: FloatHost, name: IToken, st: State)
    ensures Follows(st, ScanInto(h, name, st).st, 0)
  {
    var r := ScanInto(h, name, st);
    assert r.st.out == st.out + Prompt;
    assert (st.out + Prompt)[..|st.out|] == st.out;
    if |st.input| > 0 {
      assert r.st.input == st.input[1..];
      var v := Classify(h, st.input[0]);
      if GetTokenType(st.env, name.lexeme).Some? && Admits(GetTokenType(st.env, name.lexeme).value, v)
         && Environment.Assign(st.env, name.lexeme, v).Success? {
        AssignShape(st.env, name.lexeme, v);
        assert r.st.env == Environment.Assign(st.env, name.lexeme, v).value;
      } else {
        assert r.st.env == st.env;
      }
    } else {
      assert r.st.env == st.env && r.st.input == st.input;
    }
  }

  lemma {:induction false} BlockFollows(h: FloatHost, ss: seq<IStmt>, st: State, fuel: nat)
    requires |st.env| > 0
    ensures Follows(st, BlockStmt(h, ss, st, fuel).st, 0)
    decreases fuel, Block(ss), 0
  {
    var start := st.(env := [EmptyFrame()] + st.env);
    ExecAllFollows(h, ss, start, fuel);
    var inner := ExecAll(h, ss, start, fuel);
    var after := BlockStmt(h, ss, st, fuel).st.env;
    assert after == inner.st.env[1..];
    ShapesTail(start.env);
    assert start.env[1..] == st.env;
    ShapesTail(inner.st.env);
    assert Shapes(after) == Shapes(st.env);
    assert st.input[|st.input| - |st.input|..] == st.input;
  }

  lemma {:induction false} IfFollows(h: FloatHost, c: IExpr, t: IStmt, e: Option<IStmt>, st: State, fuel: nat)
    requires |st.env| > 0
    ensures Follows(st, IfStmt(h, c, t, e, st, fuel).st, 1)
    decreases fuel, If(c, t, e), 0
  {
    ConditionFollows(h, c, st);
    var r := Evaluate(h, c, st.env);
    var st1 := st.(env := r.env);
    if r.Done? && IsTruthy(r.value) {
      ThenFollows(h, c, t, e, st, fuel);
    } else if r.Done? && e.Some? {
      ElseFollows(h, c, t, e.value, st, fuel);
    } else {
      IfStmtSkips(h, c, t, e, st, fuel);
    }
  }

  /** `IfStmt` with a truthy condition runs the then branch, from a state that
      follows `st`. */
  lemma {:induction false} ThenFollows(h: FloatHost, c: IExpr, t: IStmt, e: Option<IStmt>, st: State, fuel: nat)
    requires |st.env| > 0 && Follows(st, st.(env := Evaluate(h, c, st.env).env), 1)
    requires Evaluate(h, c, st.env).Done? && IsTruthy(Evaluate(h, c, st.env).value)
    ensures Follows(st, IfStmt(h, c, t, e, st, fuel).st, 1)
    decreases fuel, t, 5
  {
    var st1 := st.(env := Evaluate(h, c, st.env).env);
    BranchFollows(h, t, st, st1, fuel);
  }

  /** `IfStmt` with a falsy condition and an else branch runs the else branch, from a
      state that follows `st`. */
  lemma {:induction false} ElseFollows(h: FloatHost, c: IExpr, t: IStmt, e: IStmt, st: State, fuel: nat)
    requires |st.env| > 0 && Follows(st, st.(env := Evaluate(h, c, st.env).env), 1)
    requires Evaluate(h, c, st.env).Done? && !IsTruthy(Evaluate(h, c, st.env).value)
    ensures Follows(st, IfStmt(h, c, t, Some(e), st, fuel).st, 1)
    decreases fuel, e, 5
  {
    var st1 := st.(env := Evaluate(h, c, st.env).env);
    BranchFollows(h, e, st, st1, fuel);
  }

  /** `IfStmt` with a truthy condition runs the then branch. */
  lemma {:induction false} IfStmtThen(h: FloatHost, c: IExpr, t: IStmt, e: Option<IStmt>, st: State, fuel: nat)
    requires |st.env| > 0
    requires Evaluate(h, c, st.env).Done? && IsTruthy(Evaluate(h, c, st.env).value)
    ensures IfStmt(h, c, t, e, st, fuel) == Exec(h, t, st.(env := Evaluate(h, c, st.env).env), fuel)
  {
  }

  /** `IfStmt` with a falsy condition and an else branch runs the else branch. */
  lemma {:induction false} IfStmtElse(h: FloatHost, c: IExpr, t: IStmt, e: IStmt, st: State, fuel: nat)
    requires |st.env| > 0
    requires Evaluate(h, c, st.env).Done? && !IsTruthy(Evaluate(h, c, st.env).value)
    ensures IfStmt(h, c, t, Some(e), st, fuel) == Exec(h, e, st.(env := Evaluate(h, c, st.env).env), fuel)
  {
  }

  /** `IfStmt` whose condition fails, or is falsy with no else branch, ends with the
      chain the condition left. */
  lemma {:induction false} IfStmtSkips(h: FloatHost, c: IExpr, t: IStmt, e: Option<IStmt>, st: State, fuel: nat)
    requires |st.env| > 0
    requires Evaluate(h, c, st.env).Threw? || (!IsTruthy(Evaluate(h, c, st.env).value) && e.None?)
    ensures IfStmt(h, c, t, e, st, fuel).st == st.(env := Evaluate(h, c, st.env).env)
  {
  }

  /** A statement run from a state that follows `st` ends in one that follows it too. */
  lemma {:induction false} BranchFollows(h: FloatHost, s: IStmt, st: State, st1: State, fuel: nat)
    requires |st.env| > 0 && |st1.env| > 0 && Follows(st, st1, 1)
    ensures Follows(st, Exec(h, s, st1, fuel).st, 1)
    decreases fuel, s, 4
  {
    ExecFollows(h, s, st1, fuel);
    FollowsTrans(st, st1, Exec(h, s, st1, fuel).st, 1);
  }

  lemma {:induction false} WhileFollows(h: FloatHost, c: IExpr, body: IStmt, st: State, fuel: nat)
    requires |st.env| > 0
    ensures Follows(st, Loop(h, c, body, st, fuel).st, 1)
    decreases fuel, While(c, body), 2
  {
    ConditionFollows(h, c, st);
    var r := Evaluate(h, c, st.env);
    if r.Done? && IsTruthy(r.value) && fuel > 0 {
      IteratesFollows(h, c, body, st, fuel);
    } else {
      LoopStops(h, c, body, st, fuel);
    }
  }

  /** A loop that makes an iteration from a state that follows `st`. */
  lemma {:induction false} IteratesFollows(h: FloatHost, c: IExpr, body: IStmt, st: State, fuel: nat)
    requires |st.env| > 0 && fuel > 0 && Follows(st, st.(env := Evaluate(h, c, st.env).env), 1)
    requires Evaluate(h, c, st.env).Done? && IsTruthy(Evaluate(h, c, st.env).value)
    ensures Follows(st, Loop(h, c, body, st, fuel).st, 1)
    decreases fuel, While(c, body), 1
  {
    LoopIterates(h, c, body, st, fuel);
    IterationFollows(h, c, body, st, st.(env := Evaluate(h, c, st.env).env), fuel);
  }

  /** Evaluating a condition leaves a state that follows the one it started from. */
  lemma {:induction false} ConditionFollows(h: FloatHost, c: IExpr, st: State)
    requires |st.env| > 0
    ensures Follows(st, st.(env := Evaluate(h, c, st.env).env), 1)
  {
    EvaluateShape(h, c, st.env);
    EnvOnly(st, Evaluate(h, c, st.env).env);
  }

  /** A loop whose condition holds and that has fuel left makes an iteration. */
  lemma {:induction false} LoopIterates(h: FloatHost, c: IExpr, body: IStmt, st: State, fuel: nat)
    requires |st.env| > 0 && fuel > 0
    requires Evaluate(h, c, st.env).Done? && IsTruthy(Evaluate(h, c, st.env).value)
    ensures Loop(h, c, body, st, fuel) == Iteration(h, c, body, st.(env := Evaluate(h, c, st.env).env), fuel)
  {
  }

  /** A loop whose condition fails, is falsy, or that has no fuel left ends with the
      chain the condition left. */
  lemma {:induction false} LoopStops(h: FloatHost, c: IExpr, body: IStmt, st: State, fuel: nat)
    requires |st.env| > 0
    requires !(Evaluate(h, c, st.env).Done? && IsTruthy(Evaluate(h, c, st.env).value) && fuel > 0)
    ensures Loop(h, c, body, st, fuel).st == st.(env := Evaluate(h, c, st.env).env)
  {
  }

  /** A pass of the body run from a state that follows `st`, and the rest of the loop
      after it, end in a state that follows `st`. */
  lemma {:induction false} IterationFollows(h: FloatHost, c: IExpr, body: IStmt, st: State, st1: State, fuel: nat)
    requires |st.env| > 0 && |st1.env| > 0 && fuel > 0 && Follows(st, st1, 1)
    ensures Follows(st, Iteration(h, c, body, st1, fuel).st, 1)
    decreases fuel, body, 5
  {
    BranchFollows(h, body, st, st1, fuel);
    RestFollows(h, c, body, st, Exec(h, body, st1, fuel).st, fuel - 1);
  }

  /** The rest of a loop, run from a state that follows `st`, ends in one that
      follows `st`. */
  lemma {:induction false} RestFollows(h: FloatHost, c: IExpr, body: IStmt, st: State, mid: State, fuel: nat)
    requires |st.env| > 0 && |mid.env| > 0 && Follows(st, mid, 1)
    ensures Follows(st, Loop(h, c, body, mid, fuel).st, 1)
    decreases fuel, While(c, body), 3
  {
    WhileFollows(h, c, body, mid, fuel);
    FollowsTrans(st, mid, Loop(h, c, body, mid, fuel).st, 1);
  }

  /** A state whose chain alone changed, keeping its shape, follows the original. */
  lemma {:induction false} EnvOnly(st: State, env: Env)
    requires |st.env| > 0 && SameShape(st.env, env, 0)
    ensures Follows(st, st.(env := env), 1)
  {
    assert st.input[|st.input| - |st.input|..] == st.input;
  }

  /** The same for a run of statements. */
  lemma {:induction false} ExecAllFollows(h: FloatHost, ss: seq<IStmt>, st: State, fuel: nat)
    requires |st.env| > 0
    ensures Follows(st, ExecAll(h, ss, st, fuel).st, 1)
    decreases fuel, ss, 0
  {
    if |ss| > 0 {
      ExecFollows(h, ss[0], st, fuel);
      var first := Exec(h, ss[0], st, fuel);
      if first.stop.None? {
        ExecAllFollows(h, ss[1..], first.st, fuel);
        FollowsTrans(st, first.st, ExecAll(h, ss[1..], first.st, fuel).st, 1);
      }
    }
  }

  /** A typed declaration touches the current frame only. */
  lemma {:induction false} DeclareFollows(h: FloatHost, name: IToken, init: Option<IExpr>, tag: string, st: State)
    requires |st.env| > 0
    ensures Follows(st, Declare(h, name, init, tag, st).st, 1)
  {
    var r := Declare(h, name, init, tag, st).st;
    var env1 := if init.Some? then Evaluate(h, init.value, st.env).env else st.env;
    if init.Some? {
      EvaluateShape(h, init.value, st.env);
    }
    assert Shapes(env1)[1..] == Shapes(st.env)[1..];
    assert r.env == env1 || r.env[1..] == env1[1..];
    ShapesTail(r.env);
    ShapesTail(env1);
    assert r.out == st.out && r.input == st.input;
    assert st.input[|st.input| - |st.input|..] == st.input;
  }

  /** A block leaves no binding behind: afterwards exactly the names bound before are
      bound, and every name has the tag it had, whatever the block declared, and
      whether it completed or stopped with an error. */
  lemma {:induction false} BlockLeavesNoBindings(h: FloatHost, ss: seq<IStmt>, st: State, fuel: nat, name: string)
    requires |st.env| > 0
    ensures var after := Exec(h, Block(ss), st, fuel).st.env;
            && (Bound(after, name) <==> Bound(st.env, name))
            && GetTokenType(after, name) == GetTokenType(st.env, name)
  {
    BlockFollows(h, ss, st, fuel);
    var after := Exec(h, Block(ss), st, fuel).st.env;
    assert Shapes(after) == Shapes(st.env);
    forall k | 0 <= k < |after|
      ensures after[k].tags == st.env[k].tags && after[k].values.Keys == st.env[k].values.Keys
    {
      assert Shapes(after)[k] == Shapes(st.env)[k];
    }
    TagsOnly(after, st.env, name);
    if Bound(after, name) {
      var i :| 0 <= i < |after| && name in after[i].values;
      assert name in st.env[i].values;
    }
    if Bound(st.env, name) {
      var i :| 0 <= i < |st.env| && name in st.env[i].values;
      assert name in after[i].values;
    }
  }

  /** Input is only consumed, from the front, through a whole run. */
  lemma {:induction false} InputOnlyConsumed(h: FloatHost, program: seq<IStmt>, globals: Frame<Value>,
                                             input: seq<string>, fuel: nat)
    ensures var r := Interpret(h, program, globals, input, fuel);
            && |r.st.input| <= |input| && r.st.input == input[|input| - |r.st.input|..]
  {
    ExecAllFollows(h, program, State([globals], "", input), fuel);
  }
}

=== FILE: interpreter_fuel.dfy ===
/** The fuel that bounds `while` loops is an artefact of the model, not of the
    language: a run that did not run out of fuel gives the same result with any
    larger amount. So every outcome other than OutOfFuel is the outcome of the
    unbounded loops of interpreter/Interpreter.java. */
module InterpreterFuel {
  import opened Common
  import opened Ast
  import opened Values
  import opened Environment
  import opened Interpreter
  import opened InterpreterFacts

  /** A result that did not come from running out of fuel. */
  predicate Finished(r: Executed) {
    r.stop != Some(OutOfFuel)
  }

  /** A statement that finished with some fuel finishes the same way with more. */
  lemma {:induction false} ExecFuel(h: FloatHost, s: IStmt, st: State, f: nat, g: nat)
    requires |st.env| > 0 && f <= g && Finished(Exec(h, s, st, f))
    ensures Exec(h, s, st, g) == Exec(h, s, st, f)
    decreases f, s, 3
  {
    match s
    case VariableDeclaration(declarations) => ExecAllFuel(h, declarations, st, f, g);
    case Block(statements) => BlockFuel(h, statements, st, f, g);
    case If(condition, thenBranch, elseBranch) => IfFuel(h, condition, thenBranch, elseBranch, st, f, g);
    case While(condition, body) => LoopFuel(h, condition, body, st, f, g);
    case _ =>
  }

  /** The same for a run of statements. */
  lemma {:induction false} ExecAllFuel(h: FloatHost, ss: seq<IStmt>, st: State, f: nat, g: nat)
    requires |st.env| > 0 && f <= g && Finished(ExecAll(h, ss, st, f))
    ensures ExecAll(h, ss, st, g) == ExecAll(h, ss, st, f)
    decreases f, ss, 0
  {
    if |ss| > 0 {
      var first := Exec(h, ss[0], st, f);
      ExecFuel(h, ss[0], st, f, g);
      if first.stop.None? {
        ExecAllFuel(h, ss[1..], first.st, f, g);
      }
    }
  }

  /** The same for a block. */
  lemma {:induction false} BlockFuel(h: FloatHost, ss: seq<IStmt>, st: State, f: nat, g: nat)
    requires |st.env| > 0 && f <= g && Finished(BlockStmt(h, ss, st, f))
    ensures BlockStmt(h, ss, st, g) == BlockStmt(h, ss, st, f)
    decreases f, Block(ss), 0
  {
    ExecAllFuel(h, ss, st.(env := [EmptyFrame()] + st.env), f, g);
  }

  /** The same for an `if` statement. */
  lemma {:induction false} IfFuel(h: FloatHost, c: IExpr, t: IStmt, e: Option<IStmt>, st: State, f: nat, g: nat)
    requires |st.env| > 0 && f <= g && Finished(IfStmt(h, c, t, e, st, f))
    ensures IfStmt(h, c, t, e, st, g) == IfStmt(h, c, t, e, st, f)
    decreases f, If(c, t, e), 0
  {
    var r := Evaluate(h, c, st.env);
    if r.Done? && IsTruthy(r.value) {
      ThenFuel(h, c, t, e, st, f, g);
    } else if r.Done? && e.Some? {
      ElseFuel(h, c, t, e.value, st, f, g);
    } else {
      SkipFuel(h, c, t, e, st, f, g);
    }
  }

  /** An `if` that runs no branch does not depend on the fuel at all. */
  lemma {:induction false} SkipFuel(h: FloatHost, c: IExpr, t: IStmt, e: Option<IStmt>, st: State, f: nat, g: nat)
    requires |st.env| > 0
    requires Evaluate(h, c, st.env).Threw? || (!IsTruthy(Evaluate(h, c, st.env).value) && e.None?)
    ensures IfStmt(h, c, t, e, st, g) == IfStmt(h, c, t, e, st, f)
  {
  }

  /** An `if` whose condition is truthy, through its then branch. */
  lemma {:induction false} ThenFuel(h: FloatHost, c: IExpr, t: IStmt, e: Option<IStmt>, st: State, f: nat, g: nat)
    requires |st.env| > 0 && f <= g && Finished(IfStmt(h, c, t, e, st, f))
    requires Evaluate(h, c, st.env).Done? && IsTruthy(Evaluate(h, c, st.env).value)
    ensures IfStmt(h, c, t, e, st, g) == IfStmt(h, c, t, e, st, f)
    decreases f, t, 4
  {
    IfStmtThen(h, c, t, e, st, f);
    IfStmtThen(h, c, t, e, st, g);
    ExecFuel(h, t, st.(env := Evaluate(h, c, st.env).env), f, g);
  }

  /** An `if` whose condition is falsy, through its else branch. */
  lemma {:induction false} ElseFuel(h: FloatHost, c: IExpr, t: IStmt, e: IStmt, st: State, f: nat, g: nat)
    requires |st.env| > 0 && f <= g && Finished(IfStmt(h, c, t, Some(e), st, f))
    requires Evaluate(h, c, st.env).Done? && !IsTruthy(Evaluate(h, c, st.env).value)
    ensures IfStmt(h, c, t, Some(e), st, g) == IfStmt(h, c, t, Some(e), st, f)
    decreases f, e, 4
  {
    IfStmtElse(h, c, t, e, st, f);
    IfStmtElse(h, c, t, e, st, g);
    ExecFuel(h, e, st.(env := Evaluate(h, c, st.env).env), f, g);
  }

  /** The same for a loop: one that finished never ran out of fuel on the way, so
      more fuel makes the same iterations. */
  lemma {:induction false} LoopFuel(h: FloatHost, c: IExpr, body: IStmt, st: State, f: nat, g: nat)
    requires |st.env| > 0 && f <= g && Finished(Loop(h, c, body, st, f))
    ensures Loop(h, c, body, st, g) == Loop(h, c, body, st, f)
    decreases f, While(c, body), 2
  {
    var r := Evaluate(h, c, st.env);
    if r.Done? && IsTruthy(r.value) {
      IteratesFuel(h, c, body, st, f, g);
    }
  }

  /** A loop whose condition holds: it finished, so it had fuel for an iteration. */
  lemma {:induction false} IteratesFuel(h: FloatHost, c: IExpr, body: IStmt, st: State, f: nat, g: nat)
    requires |st.env| > 0 && f <= g && Finished(Loop(h, c, body, st, f))
    requires Evaluate(h, c, st.env).Done? && IsTruthy(Evaluate(h, c, st.env).value)
    ensures Loop(h, c, body, st, g) == Loop(h, c, body, st, f)
    decreases f, While(c, body), 1
  {
    LoopIterates(h, c, body, st, f);
    LoopIterates(h, c, body, st, g);
    IterationFuel(h, c, body, st.(env := Evaluate(h, c, st.env).env), f, g);
  }

  /** The same for one pass of a loop's body and the rest of the loop. */
  lemma {:induction false} IterationFuel(h: FloatHost, c: IExpr, body: IStmt, st: State, f: nat, g: nat)
    requires |st.env| > 0 && 0 < f <= g && Finished(Iteration(h, c, body, st, f))
    ensures Iteration(h, c, body, st, g) == Iteration(h, c, body, st, f)
    decreases f, body, 5
  {
    ExecFuel(h, body, st, f, g);
    if Exec(h, body, st, f).stop.None? {
      ContinueFuel(h, c, body, st, f, g);
    }
  }

  /** A pass of the body that completed, then the rest of the loop. */
  lemma {:induction false} ContinueFuel(h: FloatHost, c: IExpr, body: IStmt, st: State, f: nat, g: nat)
    requires |st.env| > 0 && 0 < f <= g && Finished(Iteration(h, c, body, st, f))
    requires Exec(h, body, st, f).stop.None? && Exec(h, body, st, g) == Exec(h, body, st, f)
    ensures Iteration(h, c, body, st, g) == Iteration(h, c, body, st, f)
    decreases f, body, 4
  {
    LoopFuel(h, c, body, Exec(h, body, st, f).st, f - 1, g - 1);
  }

  /** A run that did not run out of fuel has the same outcome with any more fuel. */
  lemma {:induction false} InterpretFuel(h: FloatHost, program: seq<IStmt>, globals: Frame<Value>,
                                         input: seq<string>, f: nat, g: nat)
    requires f <= g && Finished(Interpret(h, program, globals, input, f))
    ensures Interpret(h, program, globals, input, g) == Interpret(h, program, globals, input, f)
  {
    ExecAllFuel(h, program, State([globals], "", input), f, g);
  }
}

=== FILE: parser.dfy ===
/** The live expression parser of interpreter/Parser.java: recursive descent over a
    token sequence with a cursor, one function per grammar rule, from equality down
    to primary. A cursor is an index into the token sequence; a parse error becomes
    an `Err` value carrying the token it was reported at, where Parser.java throws. */
module Parser {
  import opened Common
  import opened Tokens
  import opened Ast

  /** The trees the parser builds: scanner tokens as operators, payloads as literals. */
  type PExpr = Expr<Token, Payload>

  /** What a parsing function returns: a value and the cursor after it, or the
      position of the token at which the error was reported, with its message. */
  datatype Parsed<T> = Ok(value: T, next: nat) | Err(at: nat, message: string)

  const ExpectExpression: string := "Expect expression."
  const ExpectRParen: string := "Expect ')' after expression."

  /** A token sequence the parser accepts: it ends with EOF, as every scanner output
      does. A cursor into it is an index below its length. */
  type TokenStream = ts: seq<Token> | |ts| > 0 && ts[|ts| - 1].kind == EOF
    witness [Token(EOF, "", NoValue, 1)]

  predicate IsAtEnd(ts: TokenStream, c: nat)
    requires c < |ts|
  {
    ts[c].kind == EOF
  }

  /** `check`: the current token has kind `k`, and it is never true at EOF. */
  predicate Check(ts: TokenStream, c: nat, k: TokenType)
    requires c < |ts|
  {
    !IsAtEnd(ts, c) && ts[c].kind == k
  }

  /** `advance`: step past the current token unless it is EOF. */
  function Advance(ts: TokenStream, c: nat): (n: nat)
    requires c < |ts|
    ensures n < |ts|
    ensures c <= n <= c + 1
    ensures n == c <==> IsAtEnd(ts, c)
  {
    if !IsAtEnd(ts, c) then c + 1 else c
  }

  /** The loop of `match` from the `i`-th listed kind on. */
  function MatchFrom(ts: TokenStream, c: nat, kinds: seq<TokenType>, i: nat): (n: nat)
    requires c < |ts| && i <= |kinds|
    ensures n == c || n == c + 1
    ensures n == c + 1 <==> !IsAtEnd(ts, c) && ts[c].kind in kinds[i..]
    decreases |kinds| - i
  {
    if i == |kinds| then c
    else if Check(ts, c, kinds[i]) then Advance(ts, c)
    else MatchFrom(ts, c, kinds, i + 1)
  }

  /** `match`: consumes exactly the current token when its kind is one of `kinds`
      and it is not EOF, and otherwise leaves the cursor where it was. */
  function Match(ts: TokenStream, c: nat, kinds: seq<TokenType>): (n: nat)
    requires c < |ts|
    ensures n < |ts|
    ensures n == c || n == c + 1
  {
    if !IsAtEnd(ts, c) && ts[c].kind in kinds then c + 1 else c
  }

  /** The loop over the listed kinds, tried in order, ends where `match` says. */
  lemma {:induction false} MatchLoop(ts: TokenStream, c: nat, kinds: seq<TokenType>)
    requires c < |ts|
    ensures MatchFrom(ts, c, kinds, 0) == Match(ts, c, kinds)
  {
    assert kinds[0..] == kinds;
  }

  /** `consume`: the current token when it has kind `k`, else the error `message`
      reported at the current token. */
  function Consume(ts: TokenStream, c: nat, k: TokenType, message: string): (r: Parsed<Token>)
    requires c < |ts|
    ensures r.Ok? <==> Check(ts, c, k)
    ensures r.Ok? ==> r.value == ts[c] && r.next == c + 1 && r.value.kind == k
    ensures r.Err? ==> r.at == c && r.message == message
  {
    if Check(ts, c, k) then
      var n := Advance(ts, c);
      Ok(ts[n - 1], n)
    else
      Err(c, message)
  }

  /** The four left-associative binary rules, loosest first. */
  datatype Level = EqualityLevel | ComparisonLevel | TermLevel | FactorLevel

  /** The operator kinds each binary rule matches. */
  function Operators(l: Level): seq<TokenType> {
    match l
    case EqualityLevel => [NOT_EQUAL, EQUAL_EQUAL]
    case ComparisonLevel => [GREATER, GREATER_EQUAL, LESS, LESS_EQUAL]
    case TermLevel => [MINUS, PLUS]
    case FactorLevel => [SLASH, MULTIPLY]
  }

  /** How tightly a rule binds: 1 for equality up to 4 for factor. */
  function Rank(l: Level): nat {
    match l
    case EqualityLevel => 1
    case ComparisonLevel => 2
    case TermLevel => 3
    case FactorLevel => 4
  }

  /** The binding strength of a binary operator kind, 0 for any other kind. */
  function OpLevel(k: TokenType): (n: nat)
    ensures n <= 4
  {
    match k
    case NOT_EQUAL | EQUAL_EQUAL => 1
    case GREATER | GREATER_EQUAL | LESS | LESS_EQUAL => 2
    case MINUS | PLUS => 3
    case SLASH | MULTIPLY => 4
    case _ => 0
  }

  /** How tightly the root of a tree binds: its operator's level for a binary node,
      5 for a prefix operator, 6 for a literal or a parenthesised expression. */
  function Tightness(e: PExpr): nat {
    match e
    case Binary(_, op, _) => OpLevel(op.kind)
    case Unary(_, _) => 5
    case _ => 6
  }

  /** The shape precedence climbing guarantees: every binary node's left operand
      binds at least as tightly as the node and its right operand strictly more
      tightly (the rules fold to the left); a prefix operator applies to a prefix
      operator or an atom; only the node kinds the parser builds occur. */
  ghost predicate Layered(e: PExpr) {
    match e
    case Binary(left, op, right) =>
      && 1 <= OpLevel(op.kind)
      && Tightness(left) >= OpLevel(op.kind) && Tightness(right) > OpLevel(op.kind)
      && Layered(left) && Layered(right)
    case Unary(op, right) =>
      (op.kind == NOT || op.kind == MINUS) && Tightness(right) >= 5 && Layered(right)
    case Grouping(inner) => Layered(inner)
    case Literal(_) => true
    case _ => false
  }

  /** One entry of the flattened text of an expression: an operator token, a
      literal payload, or a parenthesis. */
  datatype Item = Op(token: Token) | Lit(payload: Payload) | Open | Close

  /** The literal `primary` makes of a token that is one by itself: the keywords
      `false`, `true` and `null`, and the payload of a NUMBER or STRING token. */
  function LiteralOf(t: Token): (r: Option<Payload>)
    ensures r.Some? <==> t.kind in {FALSE, TRUE, NULL, NUMBER, STRING}
  {
    match t.kind
    case FALSE => Some(BoolLit(false))
    case TRUE => Some(BoolLit(true))
    case NULL => Some(NoValue)
    case NUMBER => Some(t.literal)
    case STRING => Some(t.literal)
    case _ => None
  }

  /** How a token shows in that text: a literal as its payload, the parentheses as
      themselves, and any other token as an operator. */
  function Project(t: Token): Item {
    match LiteralOf(t)
    case Some(value) => Lit(value)
    case None => if t.kind == L_PAREN then Open else if t.kind == R_PAREN then Close else Op(t)
  }

  /** The text of the tokens from index `i` up to, not including, index `j`. */
  function Span(ts: seq<Token>, i: nat, j: nat): (items: seq<Item>)
    requires i <= j <= |ts|
    decreases j - i
  {
    if i == j then [] else [Project(ts[i])] + Span(ts, i + 1, j)
  }

  /** The text of a tree read back in order: operands around binary operators,
      a prefix operator before its operand, parentheses around a grouping. */
  function Yield(e: PExpr): seq<Item> {
    match e
    case Binary(left, op, right) => Yield(left) + [Op(op)] + Yield(right)
    case Unary(op, right) => [Op(op)] + Yield(right)
    case Grouping(inner) => [Open] + (Yield(inner) + [Close])
    case Literal(value) => [Lit(value)]
    case _ => []
  }

  /** The text of adjacent runs is the concatenation of their texts. */
  lemma {:induction false} SpanSplit(ts: seq<Token>, i: nat, j: nat, k: nat)
    requires i <= j <= k <= |ts|
    ensures Span(ts, i, k) == Span(ts, i, j) + Span(ts, j, k)
    decreases j - i
  {
    if i < j {
      SpanSplit(ts, i + 1, j, k);
      assert [Project(ts[i])] + (Span(ts, i + 1, j) + Span(ts, j, k))
          == ([Project(ts[i])] + Span(ts, i + 1, j)) + Span(ts, j, k);
    }
  }

  /** A run of one token has that token's item as its text. */
  lemma {:induction false} SpanOne(ts: seq<Token>, c: nat)
    requires c < |ts|
    ensures Span(ts, c, c + 1) == [Project(ts[c])]
  {
    assert Span(ts, c + 1, c + 1) == [];
  }

  /** A non-empty run's text starts with its first token's item. */
  lemma {:induction false} SpanCons(ts: seq<Token>, i: nat, j: nat)
    requires i < j <= |ts|
    ensures Span(ts, i, j) == [Project(ts[i])] + Span(ts, i + 1, j)
  {
  }

  /** A binary node followed by the rest of the run reads back as its left operand
      followed by the operator token and everything after it. */
  lemma {:induction false} FoldText(ts: seq<Token>, left: PExpr, right: PExpr, e: PExpr, c: nat, m: nat, k: nat)
    requires c < m <= k <= |ts| && Project(ts[c]) == Op(ts[c])
    requires Yield(right) == Span(ts, c + 1, m)
    requires Yield(e) == Yield(Binary(left, ts[c], right)) + Span(ts, m, k)
    ensures Yield(e) == Yield(left) + Span(ts, c, k)
  {
    SpanSplit(ts, c + 1, m, k);
    var l, op, a, b := Yield(left), [Op(ts[c])], Span(ts, c + 1, m), Span(ts, m, k);
    calc {
      Yield(e);
      l + op + a + b;
      { Associative(l, op, a, b); }
      l + (op + (a + b));
      l + Span(ts, c, k);
    }
  }

  /** Concatenation regrouped to the right. */
  lemma {:induction false} Associative<T>(w: seq<T>, x: seq<T>, y: seq<T>, z: seq<T>)
    ensures w + x + y + z == w + (x + (y + z))
  {
  }

  /** A prefix operator token followed by its operand's run reads back as the
      unary node. */
  lemma {:induction false} PrefixText(ts: seq<Token>, right: PExpr, c: nat, m: nat)
    requires c < m <= |ts| && Project(ts[c]) == Op(ts[c])
    requires Yield(right) == Span(ts, c + 1, m)
    ensures Yield(Unary(ts[c], right)) == Span(ts, c, m)
  {
  }

  /** Parentheses around an inner run read back as a parenthesised text. */
  lemma {:induction false} GroupText(ts: seq<Token>, text: seq<Item>, c: nat, n: nat)
    requires c < n < |ts| && Project(ts[c]) == Open && Project(ts[n]) == Close
    requires text == Span(ts, c + 1, n)
    ensures [Open] + (text + [Close]) == Span(ts, c, n + 1)
  {
    calc {
      Span(ts, c, n + 1);
      { SpanCons(ts, c, n + 1); }
      [Project(ts[c])] + Span(ts, c + 1, n + 1);
      { SpanSplit(ts, c + 1, n, n + 1); }
      [Open] + (Span(ts, c + 1, n) + Span(ts, n, n + 1));
      { SpanOne(ts, n); }
      [Open] + (text + [Close]);
    }
  }

  /** What every parsing function promises from cursor `c`: a success consumed at
      least one token, stopped inside the sequence, and produced a layered tree
      binding at least `tight` whose text, read back, is exactly the tokens it
      consumed; an error carries one of the parser's two messages and the position
      of a token at or after `c`. */
  ghost predicate Sound(ts: TokenStream, c: nat, r: Parsed<PExpr>, tight: nat)
    requires c < |ts|
  {
    && (r.Ok? ==>
          && c < r.next < |ts| && Layered(r.value) && Tightness(r.value) >= tight
          && Yield(r.value) == Span(ts, c, r.next))
    && (r.Err? ==> (r.message == ExpectExpression || r.message == ExpectRParen) && c <= r.at < |ts|)
  }

  /** `expression`: an equality. */
  function ParseExpression(ts: TokenStream, c: nat): (r: Parsed<PExpr>)
    requires c < |ts|
    ensures Sound(ts, c, r, 1)
    ensures r.Ok? ==> OpLevel(ts[r.next].kind) == 0
    decreases |ts| - c, 11
  {
    ParseBinary(EqualityLevel, ts, c)
  }

  /** `equality`, `comparison`, `term`, `factor`: an operand of the next tighter
      rule, then the loop that folds further operators of this rule to the left.
      A success stops only before a token that is no operator of this rule or a
      tighter one: every such operator is consumed. */
  function ParseBinary(l: Level, ts: TokenStream, c: nat): (r: Parsed<PExpr>)
    requires c < |ts|
    ensures Sound(ts, c, r, Rank(l))
    ensures r.Ok? ==> OpLevel(ts[r.next].kind) < Rank(l)
    decreases |ts| - c, 11 - 2 * Rank(l)
  {
    match ParseOperand(l, ts, c)
    case Err(at, message) => Err(at, message)
    case Ok(left, n) =>
      var r := ParseBinaryRest(l, ts, left, n);
      if r.Ok? then (SpanSplit(ts, c, n, r.next); r) else r
  }

  /** The rule an operand of a binary rule is parsed with, for all but factor. */
  function Tighter(l: Level): (t: Level)
    requires l != FactorLevel
    ensures Rank(t) == Rank(l) + 1
  {
    match l
    case EqualityLevel => ComparisonLevel
    case ComparisonLevel => TermLevel
    case TermLevel => FactorLevel
  }

  /** The operand of a binary rule: the next tighter rule, and `unary` below factor. */
  function ParseOperand(l: Level, ts: TokenStream, c: nat): (r: Parsed<PExpr>)
    requires c < |ts|
    ensures Sound(ts, c, r, Rank(l) + 1)
    ensures r.Ok? ==> OpLevel(ts[r.next].kind) <= Rank(l)
    decreases |ts| - c, 10 - 2 * Rank(l)
  {
    if l == FactorLevel then ParseUnary(ts, c) else ParseBinary(Tighter(l), ts, c)
  }

  /** The `while (match(...))` loop of a binary rule, with the tree built so far.
      It exits only at a token that is not one of the rule's operators, and after
      at least one turn only where an operand stopped. */
  function ParseBinaryRest(l: Level, ts: TokenStream, left: PExpr, c: nat): (r: Parsed<PExpr>)
    requires c < |ts| && Layered(left) && Tightness(left) >= Rank(l)
    ensures r.Ok? ==> c <= r.next < |ts| && Layered(r.value) && Tightness(r.value) >= Rank(l)
    ensures r.Ok? ==> Yield(r.value) == Yield(left) + Span(ts, c, r.next)
    ensures r.Err? ==> (r.message == ExpectExpression || r.message == ExpectRParen) && c <= r.at < |ts|
    ensures r.Ok? ==> OpLevel(ts[r.next].kind) != Rank(l)
    ensures r.Ok? && r.next != c ==> OpLevel(ts[r.next].kind) <= Rank(l)
    decreases |ts| - c, 11 - 2 * Rank(l)
  {
    var n := Match(ts, c, Operators(l));
    if n == c then
      assert OpLevel(ts[c].kind) != Rank(l) by {
        if OpLevel(ts[c].kind) == Rank(l) { LevelOperator(l, ts[c].kind); }
      }
      assert Yield(left) + Span(ts, c, c) == Yield(left);
      Ok(left, c)
    else
      OperatorLevel(l, ts[c].kind);
      OperatorText(ts[c]);
      match ParseOperand(l, ts, n)
      case Err(at, message) =>
        Err(at, message)
      case Ok(right, m) =>
        var r := ParseBinaryRest(l, ts, Binary(left, ts[c], right), m);
        if r.Ok? then
          (FoldText(ts, left, right, r.value, c, m, r.next); r)
        else r
  }

  /** A kind a rule matches has that rule's level. */
  lemma {:induction false} OperatorLevel(l: Level, k: TokenType)
    requires k in Operators(l)
    ensures OpLevel(k) == Rank(l)
  {
    match l
    case EqualityLevel => assert k == NOT_EQUAL || k == EQUAL_EQUAL;
    case ComparisonLevel => assert k == GREATER || k == GREATER_EQUAL || k == LESS || k == LESS_EQUAL;
    case TermLevel => assert k == MINUS || k == PLUS;
    case FactorLevel => assert k == SLASH || k == MULTIPLY;
  }

  /** A kind with a rule's level is one of the kinds that rule matches. */
  lemma {:induction false} LevelOperator(l: Level, k: TokenType)
    requires OpLevel(k) == Rank(l)
    ensures k in Operators(l)
  {
    match l
    case EqualityLevel => assert k == NOT_EQUAL || k == EQUAL_EQUAL;
    case ComparisonLevel => assert k == GREATER || k == GREATER_EQUAL || k == LESS || k == LESS_EQUAL;
    case TermLevel => assert k == MINUS || k == PLUS;
    case FactorLevel => assert k == SLASH || k == MULTIPLY;
  }

  /** A binary or prefix operator token reads back as an operator. */
  lemma {:induction false} OperatorText(t: Token)
    requires OpLevel(t.kind) >= 1 || t.kind == NOT
    ensures Project(t) == Op(t)
  {
  }

  /** `unary`: a run of `!` and `-` prefixes, nested right-recursively, or a primary. */
  function ParseUnary(ts: TokenStream, c: nat): (r: Parsed<PExpr>)
    requires c < |ts|
    ensures Sound(ts, c, r, 5)
    decreases |ts| - c, 1
  {
    var n := Match(ts, c, [NOT, MINUS]);
    if n == c + 1 then
      match ParseUnary(ts, n)
      case Err(at, message) =>
        Err(at, message)
      case Ok(right, m) =>
        PrefixSound(ts, c, right, m);
        Ok(Unary(ts[c], right), m)
    else
      ParsePrimary(ts, c)
  }

  /** A prefix operator in front of a sound operand parse is a sound parse. */
  lemma {:induction false} PrefixSound(ts: TokenStream, c: nat, right: PExpr, m: nat)
    requires c + 1 < |ts| && (ts[c].kind == NOT || ts[c].kind == MINUS)
    requires Sound(ts, c + 1, Ok(right, m), 5)
    ensures Sound(ts, c, Ok(Unary(ts[c], right), m), 5)
  {
    OperatorText(ts[c]);
    PrefixText(ts, right, c, m);
  }

  /** `primary`: the literals false, true and null, a number or string literal, or a
      parenthesised expression that must be closed; anything else is the error
      "Expect expression." at the current token. */
  function ParsePrimary(ts: TokenStream, c: nat): (r: Parsed<PExpr>)
    requires c < |ts|
    ensures Sound(ts, c, r, 6)
    ensures LiteralOf(ts[c]).Some? ==> r == Ok(Literal(LiteralOf(ts[c]).value), c + 1)
    ensures ts[c].kind !in {FALSE, TRUE, NULL, NUMBER, STRING, L_PAREN} ==> r == Err(c, ExpectExpression)
    decreases |ts| - c, 0
  {
    match LiteralOf(ts[c])
    case Some(value) =>
      SpanOne(ts, c);
      Ok(Literal(value), c + 1)
    case None =>
      if Check(ts, c, L_PAREN) then
        match ParseExpression(ts, c + 1)
        case Err(at, message) => Err(at, message)
        case Ok(inner, n) => CloseGroup(ts, c, inner, n)
      else
        Err(c, ExpectExpression)
  }

  /** The end of a parenthesised expression opened at `c`: `)` must follow the
      inner expression. */
  function CloseGroup(ts: TokenStream, c: nat, inner: PExpr, n: nat): (r: Parsed<PExpr>)
    requires c < n < |ts| && Layered(inner) && ts[c].kind == L_PAREN
    requires Yield(inner) == Span(ts, c + 1, n)
    ensures r.Ok? ==> r == Ok(Grouping(inner), n + 1) && n + 1 < |ts|
    ensures r.Ok? ==> Yield(r.value) == Span(ts, c, r.next)
    ensures r.Err? ==> r == Err(n, ExpectRParen)
    ensures r.Ok? <==> ts[n].kind == R_PAREN
  {
    match Consume(ts, n, R_PAREN, ExpectRParen)
    case Err(at, message) => Err(at, message)
    case Ok(_, m) =>
      GroupText(ts, Yield(inner), c, n);
      Ok(Grouping(inner), m)
  }

  /** `parse`: the expression at the start of the tokens, or, after a parse error,
      the token it was reported at and its message, which Parser.java hands to
      `Code.error` before returning null. Tokens after the expression are not
      examined. */
  function Parse(ts: TokenStream): (r: Parsed<PExpr>)
    ensures r.Ok? ==> Layered(r.value) && r.next < |ts|
    ensures r.Ok? ==> Yield(r.value) == Span(ts, 0, r.next)
    ensures r.Err? ==> r.at < |ts| && (r.message == ExpectExpression || r.message == ExpectRParen)
    ensures r.Ok? ==> OpLevel(ts[r.next].kind) == 0
  {
    ParseExpression(ts, 0)
  }

  /** The token kinds before which `synchronize` stops: statement starters. */
  const StatementStarts: set<TokenType> := {CLASS, WHILE, PRINT, BEGIN, END, BEGIN_IF, END_IF, SCAN, DISPLAY}

  /** A cursor position where error recovery may resume: at EOF, just after a
      semicolon, or just before a statement starter. */
  predicate SyncPoint(ts: TokenStream, p: nat)
    requires 0 < p < |ts|
  {
    IsAtEnd(ts, p) || ts[p - 1].kind == SEMICOLON || ts[p].kind in StatementStarts
  }

  /** The loop of `synchronize`, from a position after at least one token. */
  function SyncLoop(ts: TokenStream, p: nat): (r: nat)
    requires p < |ts| && 0 < p
    ensures p <= r < |ts| && SyncPoint(ts, r)
    ensures forall j :: p <= j < r ==> !SyncPoint(ts, j)
    decreases |ts| - p
  {
    if IsAtEnd(ts, p) then p
    else if ts[p - 1].kind == SEMICOLON then p
    else if ts[p].kind in StatementStarts then p
    else SyncLoop(ts, p + 1)
  }

  /** `synchronize`: skip at least the current token, then stop at the first point
      where a statement may start. At EOF nothing is skipped; at the very first
      position that EOF makes `previous()` read before the first token, which fails
      in the Java code (None here). */
  function Synchronize(ts: TokenStream, c: nat): (r: Option<nat>)
    requires c < |ts|
    ensures r.None? <==> c == 0 && IsAtEnd(ts, 0)
    ensures r.Some? && IsAtEnd(ts, c) ==> r.value == c
    ensures r.Some? && !IsAtEnd(ts, c) ==>
              c < r.value < |ts| && SyncPoint(ts, r.value)
              && forall j :: c < j < r.value ==> !SyncPoint(ts, j)
  {
    if IsAtEnd(ts, c) then
      if c == 0 then None else Some(c)
    else
      Some(SyncLoop(ts, c + 1))
  }
}

=== FILE: parser_facts.dfy ===
/** Properties of the expression parser: the operator table agrees with the binding
    levels, operators fold to the left, prefix operators nest, and the error cases. */
module ParserFacts {
  import opened Common
  import opened Tokens
  import opened Ast
  import opened Parser

  /** The binding level of a kind is a rule's rank exactly when that rule matches
      the kind: the operator table and the level function describe the same grammar. */
  lemma {:induction false} OperatorTable(l: Level, k: TokenType)
    ensures OpLevel(k) == Rank(l) <==> k in Operators(l)
  {
    if k in Operators(l) {
      OperatorLevel(l, k);
    }
    if OpLevel(k) == Rank(l) {
      LevelOperator(l, k);
    }
  }

  /** A literal token is a complete operand of any rule when no operator that binds
      more tightly than the rule follows it. */
  lemma {:induction false} LiteralOperand(l: Level, ts: TokenStream, c: nat)
    requires (c + 1) < |ts| && (ts[c].kind == NUMBER || ts[c].kind == STRING)
    requires OpLevel(ts[c + 1].kind) <= Rank(l)
    ensures ParseOperand(l, ts, c) == Ok(Literal(ts[c].literal), c + 1)
    decreases 4 - Rank(l)
  {
    if l == FactorLevel {
      assert ParseUnary(ts, c) == ParsePrimary(ts, c);
    } else {
      LiteralOperand(Tighter(l), ts, c);
      LiteralBinary(Tighter(l), ts, c);
    }
  }

  /** A rule whose operand is a lone literal and whose loop stops yields the literal. */
  lemma {:induction false} LiteralBinary(l: Level, ts: TokenStream, c: nat)
    requires (c + 1) < |ts| && (ts[c].kind == NUMBER || ts[c].kind == STRING)
    requires OpLevel(ts[c + 1].kind) < Rank(l)
    requires ParseOperand(l, ts, c) == Ok(Literal(ts[c].literal), c + 1)
    ensures ParseBinary(l, ts, c) == Ok(Literal(ts[c].literal), c + 1)
  {
    BinaryUnfold(l, ts, c, Literal(ts[c].literal), c + 1);
    LiteralRestStops(l, ts, c);
  }

  /** The loop of a rule stops before a token its rule does not match. */
  lemma {:induction false} LiteralRestStops(l: Level, ts: TokenStream, c: nat)
    requires (c + 1) < |ts| && (ts[c].kind == NUMBER || ts[c].kind == STRING)
    requires OpLevel(ts[c + 1].kind) < Rank(l)
    ensures ParseBinaryRest(l, ts, Literal(ts[c].literal), c + 1) == Ok(Literal(ts[c].literal), c + 1)
  {
    OperatorTable(l, ts[c + 1].kind);
  }

  /** A rule's loop returns the tree built so far, without consuming anything, when the
      current token is not one of its operators. */
  lemma {:induction false} RestStops(l: Level, ts: TokenStream, e: PExpr, c: nat)
    requires c < |ts| && Layered(e) && Tightness(e) >= Rank(l)
    requires OpLevel(ts[c].kind) != Rank(l)
    ensures ParseBinaryRest(l, ts, e, c) == Ok(e, c)
  {
    if ts[c].kind in Operators(l) {
      OperatorLevel(l, ts[c].kind);
    }
  }

  /** One turn of a rule's loop: an operator of the rule is consumed, the operand
      after it is parsed with the next tighter rule, and the loop goes on with a new
      node whose left child is the tree built so far. */
  lemma {:induction false} RestTurn(l: Level, ts: TokenStream, left: PExpr, c: nat, right: PExpr, m: nat)
    requires c + 1 < |ts| && Layered(left) && Tightness(left) >= Rank(l)
    requires OpLevel(ts[c].kind) == Rank(l) && ParseOperand(l, ts, c + 1) == Ok(right, m)
    ensures ParseBinaryRest(l, ts, left, c) == ParseBinaryRest(l, ts, Binary(left, ts[c], right), m)
  {
    assert Sound(ts, c + 1, ParseOperand(l, ts, c + 1), Rank(l) + 1);
    LayeredNode(left, ts[c], right);
    LevelOperator(l, ts[c].kind);
    assert Match(ts, c, Operators(l)) == c + 1;
  }

  /** An error in the operand after an operator is the error of the whole loop. */
  lemma {:induction false} RestTurnError(l: Level, ts: TokenStream, left: PExpr, c: nat)
    requires c + 1 < |ts| && Layered(left) && Tightness(left) >= Rank(l)
    requires OpLevel(ts[c].kind) == Rank(l) && ParseOperand(l, ts, c + 1).Err?
    ensures ParseBinaryRest(l, ts, left, c) == ParseOperand(l, ts, c + 1)
  {
    LevelOperator(l, ts[c].kind);
    assert Match(ts, c, Operators(l)) == c + 1;
  }

  /** One turn of a rule's loop over an operator and a literal operand: the literal
      becomes the right child of a new node whose left child is the tree so far. */
  lemma {:induction false} FoldStep(l: Level, ts: TokenStream, left: PExpr, c: nat)
    requires (c + 2) < |ts| && OpLevel(ts[c].kind) == Rank(l)
    requires ts[c + 1].kind == NUMBER || ts[c + 1].kind == STRING
    requires OpLevel(ts[c + 2].kind) <= Rank(l)
    requires Layered(left) && Tightness(left) >= Rank(l)
    ensures ParseBinaryRest(l, ts, left, c) ==
              ParseBinaryRest(l, ts, Binary(left, ts[c], Literal(ts[c + 1].literal)), c + 2)
  {
    LiteralOperand(l, ts, c + 1);
    RestTurn(l, ts, left, c, Literal(ts[c + 1].literal), c + 2);
  }

  /** A rule whose loop stops right after its operand yields the operand. */
  lemma {:induction false} OperandOnly(l: Level, ts: TokenStream, c: nat, e: PExpr, n: nat)
    requires c < |ts| && ParseOperand(l, ts, c) == Ok(e, n)
    requires OpLevel(ts[n].kind) != Rank(l)
    ensures ParseBinary(l, ts, c) == Ok(e, n)
  {
    RestStops(l, ts, e, n);
  }

  /** The rules above `term` pass a term through when no operator of theirs follows. */
  lemma {:induction false} TermIsExpression(ts: TokenStream, c: nat, e: PExpr, n: nat)
    requires c < |ts| && ParseBinary(TermLevel, ts, c) == Ok(e, n)
    requires OpLevel(ts[n].kind) == 0 || OpLevel(ts[n].kind) > 2
    ensures ParseExpression(ts, c) == Ok(e, n)
  {
    assert ParseOperand(ComparisonLevel, ts, c) == Ok(e, n);
    OperandOnly(ComparisonLevel, ts, c, e, n);
    assert ParseOperand(EqualityLevel, ts, c) == Ok(e, n);
    OperandOnly(EqualityLevel, ts, c, e, n);
  }

  /** `a - b - c` groups as `(a - b) - c`: the loop of a rule folds to the left. Shown
      for three literal operands joined by `-` or `+` and followed by a token that is
      no binary operator. */
  lemma {:induction false} LeftAssociative(ts: TokenStream, c: nat)
    requires (c + 5) < |ts|
    requires forall i | i in {c, c + 2, c + 4} :: ts[i].kind == NUMBER || ts[i].kind == STRING
    requires OpLevel(ts[c + 1].kind) == 3 && OpLevel(ts[c + 3].kind) == 3
    requires OpLevel(ts[c + 5].kind) == 0
    ensures ParseExpression(ts, c) ==
              Ok(Binary(Binary(Literal(ts[c].literal), ts[c + 1], Literal(ts[c + 2].literal)),
                        ts[c + 3], Literal(ts[c + 4].literal)), c + 5)
  {
    assert ts[c].kind == NUMBER || ts[c].kind == STRING;
    assert ts[c + 2].kind == NUMBER || ts[c + 2].kind == STRING;
    assert ts[c + 4].kind == NUMBER || ts[c + 4].kind == STRING;
    TermFold(ts, c);
    TermIsExpression(ts, c, Binary(Binary(Literal(ts[c].literal), ts[c + 1], Literal(ts[c + 2].literal)),
                                   ts[c + 3], Literal(ts[c + 4].literal)), c + 5);
  }

  /** The `term` rule over three literal operands folds them to the left. */
  lemma {:induction false} TermFold(ts: TokenStream, c: nat)
    requires (c + 5) < |ts|
    requires ts[c].kind == NUMBER || ts[c].kind == STRING
    requires ts[c + 2].kind == NUMBER || ts[c + 2].kind == STRING
    requires ts[c + 4].kind == NUMBER || ts[c + 4].kind == STRING
    requires OpLevel(ts[c + 1].kind) == 3 && OpLevel(ts[c + 3].kind) == 3
    requires OpLevel(ts[c + 5].kind) == 0
    ensures ParseBinary(TermLevel, ts, c) ==
              Ok(Binary(Binary(Literal(ts[c].literal), ts[c + 1], Literal(ts[c + 2].literal)),
                        ts[c + 3], Literal(ts[c + 4].literal)), c + 5)
  {
    var a := Literal(ts[c].literal);
    var ab := Binary(a, ts[c + 1], Literal(ts[c + 2].literal));
    LiteralOperand(TermLevel, ts, c);
    BinaryUnfold(TermLevel, ts, c, a, c + 1);
    FoldStep(TermLevel, ts, a, c + 1);
    TermTail(ts, c + 3, ab);
  }

  /** The last turn of the `term` loop over a literal operand, and its exit. */
  lemma {:induction false} TermTail(ts: TokenStream, c: nat, left: PExpr)
    requires (c + 2) < |ts| && OpLevel(ts[c].kind) == 3
    requires ts[c + 1].kind == NUMBER || ts[c + 1].kind == STRING
    requires OpLevel(ts[c + 2].kind) == 0
    requires Layered(left) && Tightness(left) >= 3
    ensures ParseBinaryRest(TermLevel, ts, left, c) == Ok(Binary(left, ts[c], Literal(ts[c + 1].literal)), c + 2)
  {
    var e := Binary(left, ts[c], Literal(ts[c + 1].literal));
    FoldStep(TermLevel, ts, left, c);
    LayeredNode(left, ts[c], Literal(ts[c + 1].literal));
    RestStops(TermLevel, ts, e, c + 2);
  }

  /** A binary node whose operands bind as the rules demand is layered, and binds as
      tightly as its operator. */
  lemma {:induction false} LayeredNode(left: PExpr, op: Token, right: PExpr)
    requires Layered(left) && Layered(right) && 1 <= OpLevel(op.kind) <= Tightness(left)
    requires Tightness(right) > OpLevel(op.kind)
    ensures Layered(Binary(left, op, right)) && Tightness(Binary(left, op, right)) == OpLevel(op.kind)
  {
  }

  /** A rule whose operand parses goes on with its loop from there. */
  lemma {:induction false} BinaryUnfold(l: Level, ts: TokenStream, c: nat, e: PExpr, n: nat)
    requires c < |ts| && ParseOperand(l, ts, c) == Ok(e, n)
    ensures ParseBinary(l, ts, c) == ParseBinaryRest(l, ts, e, n)
  {
  }

  /** The prefix operators at positions `c` up to `p` applied to a tree, outermost
      first. */
  function Prefixed(ts: seq<Token>, c: nat, p: nat, e: PExpr): PExpr
    requires p <= |ts|
    decreases p - c
  {
    if c < p then Unary(ts[c], Prefixed(ts, c + 1, p, e)) else e
  }

  /** What one prefix operator `t` makes of the result of parsing its operand: the
      operand wrapped in a Unary node, or the operand's error unchanged. */
  function Wrap(t: Token, r: Parsed<PExpr>): Parsed<PExpr> {
    if r.Ok? then Ok(Unary(t, r.value), r.next) else r
  }

  /** Any results `f` that wrap each other from `c` up to `p` nest: the outermost one
      is the innermost one's tree under every operator in between, or its error. */
  lemma {:induction false} WrapChain(ts: TokenStream, c: nat, p: nat, f: (TokenStream, nat) -> Parsed<PExpr>)
    requires c <= p <= |ts|
    requires forall i :: c <= i < p ==> f(ts, i) == Wrap(ts[i], f(ts, i + 1))
    ensures f(ts, p).Ok? ==> f(ts, c) == Ok(Prefixed(ts, c, p, f(ts, p).value), f(ts, p).next)
    ensures f(ts, p).Err? ==> f(ts, c) == f(ts, p)
    decreases p - c
  {
    if c < p {
      WrapChain(ts, c + 1, p, f);
    }
  }

  /** `unary` at any position, with an error past the end of the tokens. */
  function UnaryAt(ts: TokenStream, i: nat): Parsed<PExpr> {
    if i < |ts| then ParseUnary(ts, i) else Err(i, ExpectExpression)
  }

  /** One prefix operator wraps what `unary` makes of the tokens after it. */
  lemma {:induction false} UnaryStep(ts: TokenStream, c: nat)
    requires c + 1 < |ts| && (ts[c].kind == NOT || ts[c].kind == MINUS)
    ensures ParseUnary(ts, c) == Wrap(ts[c], ParseUnary(ts, c + 1))
  {
  }

  /** Every prefix operator of a run wraps the `unary` after it. */
  lemma {:induction false} UnarySteps(ts: TokenStream, c: nat, p: nat)
    requires c <= p < |ts|
    requires forall i :: c <= i < p ==> ts[i].kind == NOT || ts[i].kind == MINUS
    ensures forall i :: c <= i < p ==> UnaryAt(ts, i) == Wrap(ts[i], UnaryAt(ts, i + 1))
  {
    forall i | c <= i < p
      ensures UnaryAt(ts, i) == Wrap(ts[i], UnaryAt(ts, i + 1))
    {
      UnaryStep(ts, i);
    }
  }

  /** `unary` is right-recursive: the prefix operators from `c` up to `p` nest around
      what `unary` parses at `p`, the first one outermost, and an error there is the
      error of the whole run. */
  lemma {:induction false} UnaryNests(ts: TokenStream, c: nat, p: nat)
    requires c <= p < |ts|
    requires forall i :: c <= i < p ==> ts[i].kind == NOT || ts[i].kind == MINUS
    ensures ParseUnary(ts, p).Ok? ==>
              ParseUnary(ts, c) == Ok(Prefixed(ts, c, p, ParseUnary(ts, p).value), ParseUnary(ts, p).next)
    ensures ParseUnary(ts, p).Err? ==> ParseUnary(ts, c) == ParseUnary(ts, p)
  {
    UnarySteps(ts, c, p);
    WrapChain(ts, c, p, UnaryAt);
  }

  /** A maximal run of prefix operators ends at a primary: the run nests around the
      primary's tree, or fails with the primary's error. */
  lemma {:induction false} PrefixRunThenPrimary(ts: TokenStream, c: nat, p: nat)
    requires c <= p < |ts|
    requires forall i :: c <= i < p ==> ts[i].kind == NOT || ts[i].kind == MINUS
    requires ts[p].kind != NOT && ts[p].kind != MINUS
    ensures ParseUnary(ts, c) == Nest(ts, c, p, ParsePrimary(ts, p))
  {
    UnaryAtPrimary(ts, p);
    UnaryNests(ts, c, p);
  }

  /** The result of a run of prefix operators from `c` to `p` over the result `r`
      parsed at `p`. */
  function Nest(ts: seq<Token>, c: nat, p: nat, r: Parsed<PExpr>): Parsed<PExpr>
    requires p <= |ts|
  {
    if r.Ok? then Ok(Prefixed(ts, c, p, r.value), r.next) else r
  }

  /** Without a prefix operator `unary` is `primary`. */
  lemma {:induction false} UnaryAtPrimary(ts: TokenStream, c: nat)
    requires c < |ts| && ts[c].kind != NOT && ts[c].kind != MINUS
    ensures ParseUnary(ts, c) == ParsePrimary(ts, c)
  {
    assert Match(ts, c, [NOT, MINUS]) == c;
  }

  /** A parenthesised expression becomes a Grouping when `)` follows it; otherwise the
      error "Expect ')' after expression." is reported at the token found there. */
  lemma {:induction false} Grouped(ts: TokenStream, c: nat, inner: PExpr, n: nat)
    requires c < |ts| && ts[c].kind == L_PAREN
    requires c + 1 < |ts| && ParseExpression(ts, c + 1) == Ok(inner, n)
    ensures ParsePrimary(ts, c) ==
              if ts[n].kind == R_PAREN then Ok(Grouping(inner), n + 1) else Err(n, ExpectRParen)
  {
    assert LiteralOf(ts[c]).None? && Check(ts, c, L_PAREN);
    assert ParsePrimary(ts, c) == CloseGroup(ts, c, inner, n);
  }

  /** `primary` reads the keyword `false` as the literal false, `true` as true and
      `null` as the absent value, and a number or string token as its own payload,
      consuming exactly that token. */
  lemma {:induction false} KeywordLiterals(ts: TokenStream, c: nat)
    requires c < |ts|
    ensures ts[c].kind == FALSE ==> ParsePrimary(ts, c) == Ok(Literal(BoolLit(false)), c + 1)
    ensures ts[c].kind == TRUE ==> ParsePrimary(ts, c) == Ok(Literal(BoolLit(true)), c + 1)
    ensures ts[c].kind == NULL ==> ParsePrimary(ts, c) == Ok(Literal(NoValue), c + 1)
    ensures ts[c].kind in {NUMBER, STRING} ==> ParsePrimary(ts, c) == Ok(Literal(ts[c].literal), c + 1)
  {
  }

  /** A token that can start no operand (for instance an identifier or a character
      literal, which `primary` does not accept) makes every rule fail with
      "Expect expression." at that token. */
  lemma {:induction false} NoOperand(l: Level, ts: TokenStream, c: nat)
    requires c < |ts|
    requires ts[c].kind !in {NOT, MINUS, FALSE, TRUE, NULL, NUMBER, STRING, L_PAREN}
    ensures ParseOperand(l, ts, c) == Err(c, ExpectExpression)
    decreases 4 - Rank(l)
  {
    if l == FactorLevel {
      assert ParseUnary(ts, c) == ParsePrimary(ts, c);
    } else {
      NoOperand(Tighter(l), ts, c);
    }
  }

  /** An expression cannot start at a token that starts no operand. */
  lemma {:induction false} NoExpression(ts: TokenStream, c: nat)
    requires c < |ts|
    requires ts[c].kind !in {NOT, MINUS, FALSE, TRUE, NULL, NUMBER, STRING, L_PAREN}
    ensures ParseExpression(ts, c) == Err(c, ExpectExpression)
  {
    NoOperand(EqualityLevel, ts, c);
  }

  /** A literal followed by any token that is no binary operator parses as that
      literal alone, whatever tokens come after it. */
  lemma {:induction false} TrailingTokensIgnored(ts: TokenStream)
    requires |ts| >= 2
    requires (ts[0].kind == NUMBER || ts[0].kind == STRING) && OpLevel(ts[1].kind) == 0
    ensures Parse(ts) == Ok(Literal(ts[0].literal), 1)
  {
    var a := Literal(ts[0].literal);
    LiteralOperand(EqualityLevel, ts, 0);
    RestStops(EqualityLevel, ts, a, 1);
    assert ParseBinary(EqualityLevel, ts, 0) == Ok(a, 1);
    assert ParseExpression(ts, 0) == Ok(a, 1);
  }
}

=== FILE: scanner.dfy ===
/** The lexer of interpreter/Scanner.java: one left-to-right pass over the source
    text that produces tokens and accumulates diagnostics without stopping.

    The Java class keeps `start`, `current` and `line` in mutable fields; here one
    lexeme is scanned by `ScanToken`, a pure function from the position where the
    lexeme starts to a `Step` that says where the next lexeme starts, the updated
    line, and the (at most one) token and diagnostic the lexeme produced. The
    functions for the individual lexeme kinds share one contract, `ValidStep`; what
    each of them produces exactly is stated by the lemmas of ScannerFacts. */
module Scanner {
  import opened Common
  import opened Tokens

  /** A lexical diagnostic, as passed to the error reporter: line and message. */
  datatype Diag = Diag(line: int, message: string)

  const UnexpectedCharacter: string := "Unexpected character."
  /** Reported for both an unterminated string and an unterminated character literal. */
  const UnterminatedString: string := "Unterminated string."

  /** The effect of scanning one lexeme. */
  datatype Step = Step(next: nat, line: int, tokens: seq<Token>, diags: seq<Diag>)

  /** The result of scanning a whole text. */
  datatype Scanned = Scanned(tokens: seq<Token>, diags: seq<Diag>)

  /** The number of line breaks in a text. */
  function NewlineCount(s: string): nat {
    if s == [] then 0 else (if s[0] == '\n' then 1 else 0) + NewlineCount(s[1..])
  }

  lemma {:induction false} NewlineCountAppend(a: string, b: string)
    ensures NewlineCount(a + b) == NewlineCount(a) + NewlineCount(b)
  {
    if a == [] {
      assert a + b == b;
    } else {
      assert (a + b)[0] == a[0];
      assert (a + b)[1..] == a[1..] + b;
      NewlineCountAppend(a[1..], b);
    }
  }

  lemma {:induction false} NewlineCountSplit(s: string, i: nat, j: nat, k: nat)
    requires i <= j <= k <= |s|
    ensures NewlineCount(s[i..k]) == NewlineCount(s[i..j]) + NewlineCount(s[j..k])
  {
    assert s[i..k] == s[i..j] + s[j..k];
    NewlineCountAppend(s[i..j], s[j..k]);
  }

  lemma {:induction false} NoNewlineCount(s: string)
    requires forall k :: 0 <= k < |s| ==> s[k] != '\n'
    ensures NewlineCount(s) == 0
  {
    if s != [] {
      NoNewlineCount(s[1..]);
    }
  }

  /** A text of one character has a line break exactly when that character is one. */
  lemma {:induction false} NewlineCountOne(s: string, i: nat)
    requires i < |s|
    ensures NewlineCount(s[i..i + 1]) == if s[i] == '\n' then 1 else 0
  {
    assert s[i..i + 1][1..] == [];
  }

  /** The end of the longest run of characters satisfying `p` that starts at `i`:
      the scanner's `while (p(peek())) advance();` loops. */
  function RunEnd(src: string, i: nat, p: char -> bool): (j: nat)
    requires i <= |src|
    ensures i <= j <= |src|
    ensures forall k :: i <= k < j ==> p(src[k])
    ensures j == |src| || !p(src[j])
    decreases |src| - i
  {
    if i < |src| && p(src[i]) then RunEnd(src, i + 1, p) else i
  }

  /** A run that stops at `j` ends at `j`. */
  lemma {:induction false} RunEndAt(src: string, i: nat, j: nat, p: char -> bool)
    requires i <= j <= |src|
    requires forall k :: i <= k < j ==> p(src[k])
    requires j == |src| || !p(src[j])
    ensures RunEnd(src, i, p) == j
    decreases j - i
  {
    if i < j {
      RunEndAt(src, i + 1, j, p);
    }
  }

  predicate NotNewline(c: char) { c != '\n' }
  predicate NotDoubleQuote(c: char) { c != '"' }
  predicate NotSingleQuote(c: char) { c != '\'' }

  /** The scanner's `match(expected)` test at position `current`: true only when a
      character is left and it is the expected one. */
  predicate Matches(src: string, current: nat, expected: char) {
    current < |src| && src[current] == expected
  }

  /** What every step promises: it consumes at least one character, counts every line
      break it consumed, and emits at most one non-EOF token, whose text is exactly the
      consumed characters, and at most one diagnostic. */
  ghost predicate ValidStep(src: string, start: nat, line: int, st: Step) {
    && start < st.next <= |src|
    && st.line == line + NewlineCount(src[start..st.next])
    && |st.tokens| <= 1
    && |st.diags| <= 1
    && (|st.tokens| == 1 ==>
          st.tokens[0].lexeme == src[start..st.next] && st.tokens[0].line == st.line && st.tokens[0].kind != EOF)
    && (|st.diags| == 1 ==>
          st.diags[0].line == st.line && st.diags[0].message in {UnexpectedCharacter, UnterminatedString})
  }

  /** Maximal munch: a number token is never followed by a digit (nor, when it has no
      fractional part, by a `.` and a digit), and an identifier or keyword token is
      never followed by a letter, digit or underscore. */
  ghost predicate Maximal(src: string, st: Step)
    requires st.next <= |src|
  {
    |st.tokens| == 1 ==>
      var t := st.tokens[0];
      && (t.kind == NUMBER && t.literal != NoValue ==>
            st.next == |src|
            || (!IsDigit(src[st.next])
                && ('.' !in t.lexeme ==> !(src[st.next] == '.' && st.next + 1 < |src| && IsDigit(src[st.next + 1])))))
      && (t.literal == NoValue && |t.lexeme| > 0 && IsAlpha(t.lexeme[0]) && t.lexeme != "or" ==>
            st.next == |src| || !IsAlphaNumeric(src[st.next]))
  }

  /** The characters that start some lexeme; every other character is reported. */
  predicate IsLexemeStart(c: char) {
    || c in {'(', ')', '{', '}', ',', '.', '-', '+', ';', '*', '"', '\'', '!', '=', '<', '>', '/'}
    || c in {' ', '\r', '\t', '\n', 'o'}
    || IsDigit(c)
    || IsAlpha(c)
  }

  /** `addToken(kind)` for an operator or punctuation lexeme `src[start..next]`. */
  function Emit(src: string, start: nat, next: nat, line: int, kind: TokenType): (st: Step)
    requires start < next <= |src|
    requires OperatorKind(src[start..next]) == Some(kind)
    requires forall k :: start <= k < next ==> src[k] != '\n'
    requires !IsAlpha(src[start]) || src[start..next] == "or"
    ensures ValidStep(src, start, line, st)
  {
    NoNewlineCount(src[start..next]);
    Step(next, line, [Token(kind, src[start..next], NoValue, line)], [])
  }

  /** A one-character operator or punctuation token. */
  function Single(src: string, start: nat, line: int, kind: TokenType): (st: Step)
    requires start < |src|
    requires OperatorKind([src[start]]) == Some(kind) && !IsAlpha(src[start]) && src[start] != '\n'
    ensures ValidStep(src, start, line, st)
  {
    assert src[start..start + 1] == [src[start]];
    Emit(src, start, start + 1, line, kind)
  }

  /** One-character lookahead for `!=`, `==`, `<=` and `>=`: the `=` is consumed only
      when it is there. */
  function ScanPair(src: string, start: nat, line: int, paired: TokenType, single: TokenType): (st: Step)
    requires start < |src|
    requires OperatorKind([src[start]]) == Some(single) && OperatorKind([src[start], '=']) == Some(paired)
    requires !IsAlpha(src[start]) && src[start] != '\n'
    ensures ValidStep(src, start, line, st)
  {
    if Matches(src, start + 1, '=') then
      assert src[start..start + 2] == [src[start], '='];
      Emit(src, start, start + 2, line, paired)
    else
      Single(src, start, line, single)
  }

  /** `/`: either a comment running up to (not including) the next line break, which
      emits nothing, or the SLASH token. */
  function ScanSlash(src: string, start: nat, line: int): (st: Step)
    requires start < |src| && src[start] == '/'
    ensures ValidStep(src, start, line, st)
  {
    if Matches(src, start + 1, '/') then
      var end := RunEnd(src, start + 2, NotNewline);
      assert forall k :: start <= k < end ==> src[k] != '\n' by {
        forall k | start + 2 <= k < end ensures src[k] != '\n' {
          assert NotNewline(src[k]);
        }
      }
      NoNewlineCount(src[start..end]);
      Step(end, line, [], [])
    else
      Single(src, start, line, SLASH)
  }

  /** The line count across a literal opened at `start` and closed at `close`, or
      running to the end of the text, is the line count of its body. */
  lemma {:induction false} QuotedLines(src: string, start: nat, close: nat)
    requires start < close <= |src| && src[start] != '\n'
    requires close < |src| ==> src[close] != '\n'
    ensures NewlineCount(src[start..close]) == NewlineCount(src[start + 1..close])
    ensures close < |src| ==> NewlineCount(src[start..close + 1]) == NewlineCount(src[start + 1..close])
  {
    NewlineCountSplit(src, start, start + 1, close);
    NewlineCountOne(src, start);
    if close < |src| {
      NewlineCountSplit(src, start, close, close + 1);
      NewlineCountOne(src, close);
    }
  }

  /** Quote, quote-free body, quote: string-literal text. */
  lemma {:induction false} StringText(src: string, start: nat, close: nat)
    requires start < close < |src| && src[start] == '"' && src[close] == '"'
    requires forall k :: start < k < close ==> NotDoubleQuote(src[k])
    ensures src[start..close + 1] == ['"'] + src[start + 1..close] + ['"']
    ensures '"' !in src[start + 1..close]
  {
    var body := src[start + 1..close];
    assert src[start..close + 1] == ['"'] + body + ['"'];
    forall k | 0 <= k < |body| ensures body[k] != '"' {
      assert body[k] == src[start + 1 + k];
    }
  }

  /** `string()`: the text up to the next `"`; the line counter advances over every
      line break inside it. When the input ends first, "Unterminated string." is
      reported on the line reached and no token is added. The literal is the text
      strictly between the quotes. */
  function ScanString(src: string, start: nat, line: int): (st: Step)
    requires start < |src| && src[start] == '"'
    ensures ValidStep(src, start, line, st)
  {
    StringClosedAt(src, start, RunEnd(src, start + 1, NotDoubleQuote), line)
  }

  /** The string literal opened at `start` whose closing quote is at `close`, or which
      is unterminated when `close` is the end of the text. */
  function StringClosedAt(src: string, start: nat, close: nat, line: int): (st: Step)
    requires start < close <= |src| && src[start] == '"'
    requires forall k :: start + 1 <= k < close ==> NotDoubleQuote(src[k])
    requires close == |src| || src[close] == '"'
    ensures ValidStep(src, start, line, st)
  {
    var line' := line + NewlineCount(src[start + 1..close]);
    QuotedLines(src, start, close);
    if close == |src| then
      Step(close, line', [], [Diag(line', UnterminatedString)])
    else
      var body := src[start + 1..close];
      StringText(src, start, close);
      Step(close + 1, line', [Token(STRING, src[start..close + 1], StringLit(body), line')], [])
  }

  /** Quote, quote-free run, quote: character-literal text. */
  lemma {:induction false} CharText(src: string, start: nat, close: nat)
    requires start < close < |src| && src[start] == '\'' && src[close] == '\''
    requires forall k :: start < k < close ==> NotSingleQuote(src[k])
    ensures IsCharLiteralText(src[start..close + 1])
    ensures src[start..close + 1][1] == src[start + 1]
  {
    var text := src[start..close + 1];
    forall k | 0 <= k < |text| ensures text[k] == src[start + k] {
    }
  }

  /** `charLiteral()`: scanned like a string but up to the next `'`; the value is the
      first character after the opening quote (the closing quote itself for `''`). */
  function ScanChar(src: string, start: nat, line: int): (st: Step)
    requires start < |src| && src[start] == '\''
    ensures ValidStep(src, start, line, st)
  {
    CharClosedAt(src, start, RunEnd(src, start + 1, NotSingleQuote), line)
  }

  /** The character literal opened at `start` and closed at `close`. */
  function CharClosedAt(src: string, start: nat, close: nat, line: int): (st: Step)
    requires start < close <= |src| && src[start] == '\''
    requires forall k :: start + 1 <= k < close ==> NotSingleQuote(src[k])
    requires close == |src| || src[close] == '\''
    ensures ValidStep(src, start, line, st)
  {
    var line' := line + NewlineCount(src[start + 1..close]);
    QuotedLines(src, start, close);
    if close == |src| then
      Step(close, line', [], [Diag(line', UnterminatedString)])
    else
      var text := src[start..close + 1];
      CharText(src, start, close);
      Step(close + 1, line', [Token(CHAR, text, CharLit(src[start + 1]), line')], [])
  }

  /** A digit run, optionally followed by `.` and a second digit run, is number text
      without line breaks. */
  lemma {:induction false} NumberRuns(src: string, start: nat, intEnd: nat, end: nat)
    requires start < intEnd <= end <= |src|
    requires forall k :: start <= k < intEnd ==> IsDigit(src[k])
    requires end == intEnd || (src[intEnd] == '.' && intEnd + 1 < end && forall k :: intEnd < k < end ==> IsDigit(src[k]))
    ensures IsNumberText(src[start..end]) && NewlineCount(src[start..end]) == 0
    ensures end > intEnd ==> src[start..end][intEnd - start] == '.'
  {
    var text := src[start..end];
    forall k | 0 <= k < |text|
      ensures text[k] == src[start + k]
      ensures text[k] == '.' ==> start + k == intEnd
      ensures text[k] != '\n'
    {
    }
    NoNewlineCount(text);
  }

  /** Where the number starting at `start` ends: after its digit run, or after the
      digit run that follows a `.` when a digit comes right after the `.`. */
  function NumberEnd(src: string, start: nat): (end: nat)
    requires start < |src|
    ensures start < end <= |src|
  {
    var intEnd := RunEnd(src, start + 1, IsDigit);
    if intEnd + 1 < |src| && src[intEnd] == '.' && IsDigit(src[intEnd + 1])
    then RunEnd(src, intEnd + 1, IsDigit)
    else intEnd
  }

  lemma {:induction false} NumberEndText(src: string, start: nat)
    requires start < |src| && IsDigit(src[start])
    ensures IsNumberText(src[start..NumberEnd(src, start)]) && NewlineCount(src[start..NumberEnd(src, start)]) == 0
  {
    NumberRuns(src, start, RunEnd(src, start + 1, IsDigit), NumberEnd(src, start));
  }

  /** `number()`: a maximal digit run; a fractional part is taken only when the `.` is
      immediately followed by a digit. The payload is the digit text. */
  function ScanNumber(src: string, start: nat, line: int): (st: Step)
    requires start < |src| && IsDigit(src[start])
    ensures ValidStep(src, start, line, st)
  {
    var end := NumberEnd(src, start);
    NumberEndText(src, start);
    Step(end, line, [Token(NUMBER, src[start..end], NumberLit(src[start..end]), line)], [])
  }

  /** A letter other than `o` followed by a run of letters, digits and underscores
      is identifier text without line breaks. */
  lemma {:induction false} WordRun(src: string, start: nat, end: nat)
    requires start < end <= |src| && IsAlpha(src[start]) && src[start] != 'o'
    requires forall k :: start < k < end ==> IsAlphaNumeric(src[k])
    ensures IsIdentifierText(src[start..end]) && NewlineCount(src[start..end]) == 0
  {
    var text := src[start..end];
    forall k | 0 <= k < |text| ensures IsAlphaNumeric(text[k]) && text[k] != '\n' {
      assert text[k] == src[start + k];
    }
    NoNewlineCount(text);
  }

  /** `identifier()`: a maximal run of letters, digits and underscores, looked up in the
      keyword table. */
  function ScanIdentifier(src: string, start: nat, line: int): (st: Step)
    requires start < |src| && IsAlpha(src[start]) && src[start] != 'o'
    ensures ValidStep(src, start, line, st)
  {
    var end := RunEnd(src, start + 1, IsAlphaNumeric);
    WordRun(src, start, end);
    Step(end, line, [Token(WordKind(src[start..end]), src[start..end], NoValue, line)], [])
  }

  /** A character consumed without a token or diagnostic; only a line break moves the
      line counter. */
  function Skip(src: string, start: nat, line: int): (st: Step)
    requires start < |src|
    ensures ValidStep(src, start, line, st)
  {
    NewlineCountOne(src, start);
    Step(start + 1, if src[start] == '\n' then line + 1 else line, [], [])
  }

  /** The lower-case `o` case: "or" is the OR token, and an `o` not followed by `r`
      is consumed without any token. */
  function ScanLowerO(src: string, start: nat, line: int): (st: Step)
    requires start < |src| && src[start] == 'o'
    ensures ValidStep(src, start, line, st)
  {
    if Matches(src, start + 1, 'r') then
      assert src[start..start + 2] == "or";
      Emit(src, start, start + 2, line, OR)
    else
      Skip(src, start, line)
  }

  /** The `default:` case: a number, an identifier, or an unexpected character, which
      is reported and skipped. */
  function ScanOther(src: string, start: nat, line: int): (st: Step)
    requires start < |src| && src[start] != 'o' && src[start] != '\n'
    ensures ValidStep(src, start, line, st)
  {
    if IsDigit(src[start]) then ScanNumber(src, start, line)
    else if IsAlpha(src[start]) then ScanIdentifier(src, start, line)
    else
      NewlineCountOne(src, start);
      Step(start + 1, line, [], [Diag(line, UnexpectedCharacter)])
  }

  /** `scanToken()`: scans the lexeme that starts at `start`, one case per case of
      the Java switch. No case of the switch is a letter or digit except `o`, so
      letters and digits go straight to the default case. */
  function ScanToken(src: string, start: nat, line: int): (st: Step)
    requires start < |src|
    ensures ValidStep(src, start, line, st)
  {
    if IsDigit(src[start]) || (IsAlpha(src[start]) && src[start] != 'o') then ScanOther(src, start, line)
    else match src[start]
    case '(' => Single(src, start, line, L_PAREN)
    case ')' => Single(src, start, line, R_PAREN)
    case '{' => Single(src, start, line, L_BRACE)
    case '}' => Single(src, start, line, R_BRACE)
    case ',' => Single(src, start, line, COMMA)
    case '.' => Single(src, start, line, DOT)
    case '-' => Single(src, start, line, MINUS)
    case '+' => Single(src, start, line, PLUS)
    case ';' => Single(src, start, line, SEMICOLON)
    case '*' => Single(src, start, line, MULTIPLY)
    case '"' => ScanString(src, start, line)
    case '\'' => ScanChar(src, start, line)
    case '!' => ScanPair(src, start, line, NOT_EQUAL, NOT)
    case '=' => ScanPair(src, start, line, EQUAL_EQUAL, EQUAL)
    case '<' => ScanPair(src, start, line, LESS_EQUAL, LESS)
    case '>' => ScanPair(src, start, line, GREATER_EQUAL, GREATER)
    case '/' => ScanSlash(src, start, line)
    case ' ' => Skip(src, start, line)
    case '\r' => Skip(src, start, line)
    case '\t' => Skip(src, start, line)
    case '\n' => Skip(src, start, line)
    case 'o' => ScanLowerO(src, start, line)
    case _ => ScanOther(src, start, line)
  }

  /** The operator tokens of a step are well formed. */
  lemma {:induction false} OperatorWellFormed(src: string, start: nat, next: nat, kind: TokenType, line: int)
    requires start < next <= |src| && OperatorKind(src[start..next]) == Some(kind)
    ensures WellFormed(Token(kind, src[start..next], NoValue, line))
  {
    OperatorTokenIntro(src[start..next], kind, line);
  }

  lemma {:induction false} PairWellFormed(src: string, start: nat, line: int, paired: TokenType, single: TokenType)
    requires start < |src|
    requires OperatorKind([src[start]]) == Some(single) && OperatorKind([src[start], '=']) == Some(paired)
    requires !IsAlpha(src[start]) && src[start] != '\n'
    ensures |ScanPair(src, start, line, paired, single).tokens| == 1 ==> WellFormed(ScanPair(src, start, line, paired, single).tokens[0])
  {
    if Matches(src, start + 1, '=') {
      assert src[start..start + 2] == [src[start], '='];
      OperatorWellFormed(src, start, start + 2, paired, line);
    } else {
      assert src[start..start + 1] == [src[start]];
      OperatorWellFormed(src, start, start + 1, single, line);
    }
  }

  lemma {:induction false} StringWellFormed(src: string, start: nat, line: int)
    requires start < |src| && src[start] == '"'
    ensures |ScanString(src, start, line).tokens| == 1 ==> WellFormed(ScanString(src, start, line).tokens[0])
  {
    StringClosedWellFormed(src, start, RunEnd(src, start + 1, NotDoubleQuote), line);
  }

  lemma {:induction false} StringClosedWellFormed(src: string, start: nat, close: nat, line: int)
    requires start < close <= |src| && src[start] == '"'
    requires forall k :: start + 1 <= k < close ==> NotDoubleQuote(src[k])
    requires close == |src| || src[close] == '"'
    ensures var st := StringClosedAt(src, start, close, line);
            |st.tokens| == 1 ==> WellFormed(st.tokens[0])
  {
    if close < |src| {
      StringText(src, start, close);
      StringTokenIntro(src[start + 1..close], line + NewlineCount(src[start + 1..close]));
    }
  }

  lemma {:induction false} CharWellFormed(src: string, start: nat, line: int)
    requires start < |src| && src[start] == '\''
    ensures |ScanChar(src, start, line).tokens| == 1 ==> WellFormed(ScanChar(src, start, line).tokens[0])
  {
    CharClosedWellFormed(src, start, RunEnd(src, start + 1, NotSingleQuote), line);
  }

  lemma {:induction false} CharClosedWellFormed(src: string, start: nat, close: nat, line: int)
    requires start < close <= |src| && src[start] == '\''
    requires forall k :: start + 1 <= k < close ==> NotSingleQuote(src[k])
    requires close == |src| || src[close] == '\''
    ensures var st := CharClosedAt(src, start, close, line);
            |st.tokens| == 1 ==> WellFormed(st.tokens[0])
  {
    if close < |src| {
      CharText(src, start, close);
      CharTokenIntro(src[start..close + 1], line + NewlineCount(src[start + 1..close]));
    }
  }

  lemma {:induction false} NumberWellFormed(src: string, start: nat, line: int)
    requires start < |src| && IsDigit(src[start])
    ensures |ScanNumber(src, start, line).tokens| == 1 ==> WellFormed(ScanNumber(src, start, line).tokens[0])
  {
    var end := NumberEnd(src, start);
    var tok := Token(NUMBER, src[start..end], NumberLit(src[start..end]), line);
    assert WellFormed(tok) by {
      NumberEndText(src, start);
      NumberTokenIntro(src[start..end], line);
    }
    assert ScanNumber(src, start, line).tokens == [tok];
  }

  lemma {:induction false} WordWellFormed(src: string, start: nat, line: int)
    requires start < |src| && IsAlpha(src[start]) && src[start] != 'o'
    ensures |ScanIdentifier(src, start, line).tokens| == 1 ==> WellFormed(ScanIdentifier(src, start, line).tokens[0])
  {
    var end := RunEnd(src, start + 1, IsAlphaNumeric);
    WordRun(src, start, end);
    WordTokenIntro(src[start..end], line);
  }

  lemma {:induction false} SingleWellFormed(src: string, start: nat, line: int, kind: TokenType)
    requires start < |src|
    requires OperatorKind([src[start]]) == Some(kind) && !IsAlpha(src[start]) && src[start] != '\n'
    ensures WellFormed(Single(src, start, line, kind).tokens[0])
  {
    assert src[start..start + 1] == [src[start]];
    OperatorWellFormed(src, start, start + 1, kind, line);
  }

  /** Every token a step emits is well formed: its kind, text and literal agree. */
  lemma {:induction false} StepWellFormed(src: string, start: nat, line: int)
    requires start < |src|
    ensures |ScanToken(src, start, line).tokens| == 1 ==> WellFormed(ScanToken(src, start, line).tokens[0])
  {
    if IsDigit(src[start]) {
      NumberWellFormed(src, start, line);
    } else if IsAlpha(src[start]) && src[start] != 'o' {
      WordWellFormed(src, start, line);
    } else {
      match src[start]
      case '(' => SingleWellFormed(src, start, line, L_PAREN);
      case ')' => SingleWellFormed(src, start, line, R_PAREN);
      case '{' => SingleWellFormed(src, start, line, L_BRACE);
      case '}' => SingleWellFormed(src, start, line, R_BRACE);
      case ',' => SingleWellFormed(src, start, line, COMMA);
      case '.' => SingleWellFormed(src, start, line, DOT);
      case '-' => SingleWellFormed(src, start, line, MINUS);
      case '+' => SingleWellFormed(src, start, line, PLUS);
      case ';' => SingleWellFormed(src, start, line, SEMICOLON);
      case '*' => SingleWellFormed(src, start, line, MULTIPLY);
      case '"' => StringWellFormed(src, start, line);
      case '\'' => CharWellFormed(src, start, line);
      case '!' => PairWellFormed(src, start, line, NOT_EQUAL, NOT);
      case '=' => PairWellFormed(src, start, line, EQUAL_EQUAL, EQUAL);
      case '<' => PairWellFormed(src, start, line, LESS_EQUAL, LESS);
      case '>' => PairWellFormed(src, start, line, GREATER_EQUAL, GREATER);
      case '/' =>
        if !Matches(src, start + 1, '/') {
          SingleWellFormed(src, start, line, SLASH);
        }
      case 'o' =>
        if Matches(src, start + 1, 'r') {
          assert src[start..start + 2] == "or";
          OperatorWellFormed(src, start, start + 2, OR, line);
        }
      case _ =>
    }
  }

  /** A number stops before any digit, and before a `.` and a digit unless it
      already has a fractional part. */
  lemma {:induction false} NumberEndMaximal(src: string, start: nat)
    requires start < |src| && IsDigit(src[start])
    ensures var end := NumberEnd(src, start);
            end == |src|
            || (!IsDigit(src[end])
                && ('.' !in src[start..end] ==> !(src[end] == '.' && end + 1 < |src| && IsDigit(src[end + 1]))))
  {
    var intEnd := RunEnd(src, start + 1, IsDigit);
    var end := NumberEnd(src, start);
    if end > intEnd {
      NumberRuns(src, start, intEnd, end);
      assert src[start..end][intEnd - start] == '.';
    }
  }

  /** Maximal munch holds for every step. */
  lemma {:induction false} MaximalMunch(src: string, start: nat, line: int)
    requires start < |src|
    ensures Maximal(src, ScanToken(src, start, line))
  {
    var c := src[start];
    if IsDigit(c) {
      NumberEndMaximal(src, start);
    } else if c == 'o' && Matches(src, start + 1, 'r') {
      assert src[start..start + 2] == "or";
    }
  }

  /** The `scanTokens()` loop from position `current` with line counter `line`: the
      tokens of the rest of the text, closed by an EOF token that carries the final
      line count. */
  function ScanFrom(src: string, current: nat, line: int): (r: Scanned)
    requires current <= |src|
    ensures |r.tokens| > 0
    ensures Last(r.tokens) == Token(EOF, "", NoValue, line + NewlineCount(src[current..]))
    decreases |src| - current
  {
    if current >= |src| then
      Scanned([Token(EOF, "", NoValue, line)], [])
    else
      var st := ScanToken(src, current, line);
      var rest := ScanFrom(src, st.next, st.line);
      assert st.line + NewlineCount(src[st.next..]) == line + NewlineCount(src[current..]) by {
        NewlineCountSplit(src, current, st.next, |src|);
        assert src[current..] == src[current..|src|];
        assert src[st.next..] == src[st.next..|src|];
      }
      assert Last(st.tokens + rest.tokens) == Last(rest.tokens);
      Scanned(st.tokens + rest.tokens, st.diags + rest.diags)
  }

  /** Only the final token is EOF. */
  lemma {:induction false} ScanFromSingleEof(src: string, current: nat, line: int)
    requires current <= |src|
    ensures forall i :: 0 <= i < |ScanFrom(src, current, line).tokens| - 1 ==>
              ScanFrom(src, current, line).tokens[i].kind != EOF
    decreases |src| - current
  {
    if current < |src| {
      var st := ScanToken(src, current, line);
      var ts := ScanFrom(src, current, line).tokens;
      var rest := ScanFrom(src, st.next, st.line).tokens;
      ScanFromSingleEof(src, st.next, st.line);
      assert ts == st.tokens + rest;
      forall i | 0 <= i < |ts| - 1
        ensures ts[i].kind != EOF
      {
        if i < |st.tokens| {
          assert ts[i] == st.tokens[0];
        } else {
          assert ts[i] == rest[i - |st.tokens|];
        }
      }
    }
  }

  /** Every token other than EOF is well formed. */
  lemma {:induction false} ScanFromWellFormed(src: string, current: nat, line: int)
    requires current <= |src|
    ensures forall t <- ScanFrom(src, current, line).tokens :: t.kind != EOF ==> WellFormed(t)
    decreases |src| - current
  {
    if current < |src| {
      var st := ScanToken(src, current, line);
      var ts := ScanFrom(src, current, line).tokens;
      var rest := ScanFrom(src, st.next, st.line).tokens;
      ScanFromWellFormed(src, st.next, st.line);
      assert ts == st.tokens + rest;
      StepWellFormed(src, current, line);
      assert forall t <- st.tokens :: WellFormed(t) by {
        if |st.tokens| == 1 {
          assert st.tokens == [st.tokens[0]];
        }
      }
    }
  }

  /** `scanTokens()`: scans the whole text, starting on line 1. */
  function ScanTokens(src: string): (r: Scanned)
    ensures |r.tokens| > 0
    ensures Last(r.tokens) == Token(EOF, "", NoValue, 1 + NewlineCount(src))
  {
    assert src[0..] == src;
    ScanFrom(src, 0, 1)
  }
}

=== FILE: scanner_facts.dfy ===
/** Properties of the lexer: what each kind of lexeme start produces, the shape of
    the whole token stream, and worked examples of the lexer's quirks. */
module ScannerFacts {
  import opened Common
  import opened Tokens
  import opened Scanner

  /** The output always ends with an EOF token carrying the final line count, and no
      other token is EOF. */
  lemma {:induction false} SingleEof(src: string)
    ensures var ts := ScanTokens(src).tokens;
            && |ts| > 0
            && ts[|ts| - 1] == Token(EOF, "", NoValue, 1 + NewlineCount(src))
            && forall i :: 0 <= i < |ts| ==> (ts[i].kind == EOF <==> i == |ts| - 1)
  {
    assert ScanTokens(src) == ScanFrom(src, 0, 1);
    ScanFromSingleEof(src, 0, 1);
  }

  /** Every token other than the final EOF is well formed: its kind, text and literal
      agree. */
  lemma {:induction false} TokensWellFormed(src: string)
    ensures forall t <- ScanTokens(src).tokens :: t.kind != EOF ==> WellFormed(t)
  {
    assert ScanTokens(src) == ScanFrom(src, 0, 1);
    ScanFromWellFormed(src, 0, 1);
  }

  /** A lower-case `o` never starts an identifier: the scanner consumes it first, so an
      identifier written with a leading `o` loses that letter. */
  lemma {:induction false} NoIdentifierStartsWithLowerO(src: string)
    ensures forall t <- ScanTokens(src).tokens :: t.kind == IDENTIFIER ==> |t.lexeme| > 0 && t.lexeme[0] != 'o'
  {
    TokensWellFormed(src);
  }

  /** `!=`, `==`, `<=`, `>=` are recognised by one character of lookahead; without the
      `=` the one-character operator is emitted and the next character is left for
      the next lexeme. The kinds are the ones the token vocabulary gives the two
      spellings. */
  lemma {:induction false} LookaheadOperators(src: string, start: nat, line: int)
    requires start < |src| && WithEqualsKind(src[start]).Some?
    ensures OneCharKind(src[start]).Some?
    ensures ScanToken(src, start, line) ==
              if Matches(src, start + 1, '=')
              then Step(start + 2, line, [Token(WithEqualsKind(src[start]).value, src[start..start + 2], NoValue, line)], [])
              else Step(start + 1, line, [Token(OneCharKind(src[start]).value, src[start..start + 1], NoValue, line)], [])
  {
  }

  /** `//` starts a comment that runs up to, not including, the next line break and
      emits nothing; a lone `/` is the SLASH token. */
  lemma {:induction false} CommentOrSlash(src: string, start: nat, line: int)
    requires start < |src| && src[start] == '/'
    ensures var st := ScanToken(src, start, line);
            && st.diags == []
            && st.line == line
            && if Matches(src, start + 1, '/')
               then st.tokens == [] && (st.next == |src| || src[st.next] == '\n')
               else st.next == start + 1 && |st.tokens| == 1 && st.tokens[0].kind == SLASH
  {
  }

  /** Blanks emit nothing; a line break also advances the line counter. */
  lemma {:induction false} WhitespaceSkipped(src: string, start: nat, line: int)
    requires start < |src| && src[start] in {' ', '\r', '\t', '\n'}
    ensures var st := ScanToken(src, start, line);
            && st.tokens == [] && st.diags == [] && st.next == start + 1
            && st.line == if src[start] == '\n' then line + 1 else line
  {
  }

  /** The lower-case `o` case: "or" is OR; any other `o` is dropped silently. */
  lemma {:induction false} LowerOIntercepted(src: string, start: nat, line: int)
    requires start < |src| && src[start] == 'o'
    ensures ScanToken(src, start, line) ==
              if Matches(src, start + 1, 'r')
              then Step(start + 2, line, [Token(OR, "or", NoValue, line)], [])
              else Step(start + 1, line, [], [])
  {
    if Matches(src, start + 1, 'r') {
      assert src[start..start + 2] == "or";
    }
  }

  /** Any character that starts no lexeme is reported as "Unexpected character." and
      scanning continues with the next character. */
  lemma {:induction false} UnexpectedCharacterReported(src: string, start: nat, line: int)
    requires start < |src| && !IsLexemeStart(src[start])
    ensures var st := ScanToken(src, start, line);
            st.tokens == [] && st.diags == [Diag(line, UnexpectedCharacter)] && st.next == start + 1
  {
  }

  /** A double quote starts a string literal and a single quote a character literal. */
  lemma {:induction false} QuoteDispatch(src: string, start: nat, line: int)
    requires start < |src|
    ensures src[start] == '"' ==> ScanToken(src, start, line) == ScanString(src, start, line)
    ensures src[start] == '\'' ==> ScanToken(src, start, line) == ScanChar(src, start, line)
  {
  }

  /** A string literal whose first closing quote is at `close` (or which runs to the
      end of the text when `close == |src|`): the token's literal is the text between
      the quotes, lines inside it are counted, and an unterminated one is reported
      instead of producing a token. */
  lemma {:induction false} StringLiteral(src: string, start: nat, close: nat, line: int)
    requires start < close <= |src| && src[start] == '"'
    requires forall k :: start < k < close ==> src[k] != '"'
    requires close == |src| || src[close] == '"'
    ensures close < |src| ==>
              var line' := line + NewlineCount(src[start + 1..close]);
              ScanString(src, start, line) == Step(close + 1, line', [Token(STRING, src[start..close + 1], StringLit(src[start + 1..close]), line')], [])
    ensures close == |src| ==>
              var line' := line + NewlineCount(src[start + 1..close]);
              ScanString(src, start, line) == Step(close, line', [], [Diag(line', UnterminatedString)])
  {
    assert forall k :: start + 1 <= k < close ==> NotDoubleQuote(src[k]);
    RunEndAt(src, start + 1, close, NotDoubleQuote);
    assert ScanString(src, start, line) == StringClosedAt(src, start, close, line);
  }

  /** A character literal closed at `close`: its value is the character right after
      the opening quote, whatever the length of the text between the quotes. */
  lemma {:induction false} CharLiteral(src: string, start: nat, close: nat, line: int)
    requires start < close <= |src| && src[start] == '\''
    requires forall k :: start < k < close ==> src[k] != '\''
    requires close == |src| || src[close] == '\''
    ensures close < |src| ==>
              var line' := line + NewlineCount(src[start + 1..close]);
              ScanChar(src, start, line) == Step(close + 1, line', [Token(CHAR, src[start..close + 1], CharLit(src[start + 1]), line')], [])
    ensures close == |src| ==>
              var line' := line + NewlineCount(src[start + 1..close]);
              ScanChar(src, start, line) == Step(close, line', [], [Diag(line', UnterminatedString)])
  {
    assert forall k :: start + 1 <= k < close ==> NotSingleQuote(src[k]);
    RunEndAt(src, start + 1, close, NotSingleQuote);
    assert ScanChar(src, start, line) == CharClosedAt(src, start, close, line);
  }

  /** A digit run followed by a `.` that no digit follows is a number without a
      fractional part; the `.` is left for the next lexeme. */
  lemma {:induction false} NumberStopsAtBareDot(src: string, start: nat, end: nat, line: int)
    requires start < end < |src|
    requires forall k :: start <= k < end ==> IsDigit(src[k])
    requires src[end] == '.' && (end + 1 == |src| || !IsDigit(src[end + 1]))
    ensures ScanToken(src, start, line) ==
              Step(end, line, [Token(NUMBER, src[start..end], NumberLit(src[start..end]), line)], [])
  {
    RunEndAt(src, start + 1, end, IsDigit);
  }

  /** The step that scans the identifier or keyword occupying `src[start..end]`: the
      whole run is one token, whose kind the keyword table decides. */
  lemma {:induction false} WordStep(src: string, start: nat, end: nat, line: int)
    requires start < end <= |src| && src[start] != 'o' && IsAlpha(src[start])
    requires forall k :: start < k < end ==> IsAlphaNumeric(src[k])
    requires end == |src| || !IsAlphaNumeric(src[end])
    ensures ScanToken(src, start, line) ==
              Step(end, line, [Token(WordKind(src[start..end]), src[start..end], NoValue, line)], [])
  {
    RunEndAt(src, start + 1, end, IsAlphaNumeric);
  }

  /** Scanning from `current` is the current step's tokens followed by the rest's. */
  lemma {:induction false} ScanFromStep(src: string, current: nat, line: int, st: Step)
    requires current < |src| && ScanToken(src, current, line) == st
    ensures st.next <= |src|
    ensures ScanFrom(src, current, line).tokens == st.tokens + ScanFrom(src, st.next, st.line).tokens
  {
  }

  /** A text that ends with an identifier: the identifier token, then EOF. */
  lemma {:induction false} TrailingIdentifier(src: string, start: nat, line: int)
    requires start < |src| && IsAlpha(src[start]) && src[start] != 'o'
    requires forall k :: start < k < |src| ==> IsAlphaNumeric(src[k])
    requires KeywordKind(src[start..]) == None
    ensures ScanFrom(src, start, line).tokens ==
              [Token(IDENTIFIER, src[start..], NoValue, line), Token(EOF, "", NoValue, line)]
  {
    WordStep(src, start, |src|, line);
    assert src[start..|src|] == src[start..];
    ScanFromStep(src, start, line, Step(|src|, line, [Token(IDENTIFIER, src[start..], NoValue, line)], []));
  }

  /** "orb" scans as OR followed by the identifier "b": the word is split after "or". */
  lemma {:induction false} OrbIsOrThenB(src: string)
    requires src == "orb"
    ensures ScanTokens(src).tokens ==
              [Token(OR, "or", NoValue, 1), Token(IDENTIFIER, "b", NoValue, 1), Token(EOF, "", NoValue, 1)]
  {
    assert src[2..] == "b";
    TrailingIdentifier(src, 2, 1);
    OrbHead(src);
  }

  lemma {:induction false} OrbHead(src: string)
    requires src == "orb"
    ensures ScanFrom(src, 0, 1).tokens == [Token(OR, "or", NoValue, 1)] + ScanFrom(src, 2, 1).tokens
  {
    LowerOIntercepted(src, 0, 1);
    ScanFromStep(src, 0, 1, Step(2, 1, [Token(OR, "or", NoValue, 1)], []));
  }

  /** "ok" loses its `o`: the scanner drops it and then scans the identifier "k". */
  lemma {:induction false} OkLosesItsO(src: string)
    requires src == "ok"
    ensures ScanTokens(src).tokens == [Token(IDENTIFIER, "k", NoValue, 1), Token(EOF, "", NoValue, 1)]
  {
    assert src[1..] == "k";
    TrailingIdentifier(src, 1, 1);
    LowerOIntercepted(src, 0, 1);
    ScanFromStep(src, 0, 1, Step(1, 1, [], []));
  }

  /** "5." scans as the number 5 followed by DOT: a fractional part needs a digit
      after the point. */
  lemma {:induction false} FiveDot(src: string)
    requires src == "5."
    ensures ScanTokens(src).tokens ==
              [Token(NUMBER, "5", NumberLit("5"), 1), Token(DOT, ".", NoValue, 1), Token(EOF, "", NoValue, 1)]
  {
    FiveDotTail(src);
    NumberStopsAtBareDot(src, 0, 1, 1);
    assert src[0..1] == "5";
    ScanFromStep(src, 0, 1, Step(1, 1, [Token(NUMBER, "5", NumberLit("5"), 1)], []));
  }

  lemma {:induction false} FiveDotTail(src: string)
    requires src == "5."
    ensures ScanFrom(src, 1, 1).tokens == [Token(DOT, ".", NoValue, 1), Token(EOF, "", NoValue, 1)]
  {
    var dot := Token(DOT, ".", NoValue, 1);
    assert src[1..2] == ".";
    ScanFromStep(src, 1, 1, Step(2, 1, [dot], []));
  }
}

=== FILE: tokens.dfy ===
/** The token vocabulary of the front end: the kinds of interpreter/TokenType.java,
    the literal payload a token may carry, the token record, the keyword table and
    the character classes the scanner uses. */
module Tokens {
  import opened Common

  /** The token kinds, in the order the enum declares them. */
  datatype TokenType =
    | CLASS | IF | ELSE | NULL | THIS | DISPLAY
    | TRUE | FALSE | WHILE | BEGIN | END | PRINT
    | SCAN | BEGIN_IF | END_IF | CODE
    | INT | FLOAT | BOOL | DOUBLE | CHAR | STRING
    | IDENTIFIER | NUMBER | VARIABLE
    | COMMENT_SYMBOL | RESERVED
    | NOT | NOT_EQUAL
    | EQUAL | EQUAL_EQUAL
    | GREATER | GREATER_EQUAL
    | LESS | LESS_EQUAL
    | AND | OR | BIT_AND | BIT_OR
    | L_PAREN | R_PAREN | L_BRACE | R_BRACE
    | L_BRACKET | R_BRACKET | MULTIPLY | SLASH
    | MODULO | PLUS | MINUS | UNARY_MINUS
    | UNARY_PLUS | COMMA | SEMICOLON | DOT
    | CONCATENATOR | COMMENT | COLON
    | EOF

  /** The literal object a token carries (Java `Object literal`, `null` when absent).
      A number literal is kept as its digit text instead of a host double;
      BoolLit only arises from the parser's `Literal(false)` / `Literal(true)`. */
  datatype Payload =
    | NoValue
    | NumberLit(text: string)
    | StringLit(text: string)
    | CharLit(c: char)
    | BoolLit(b: bool)

  /** An immutable token: kind, the source text it was scanned from, its literal and its line. */
  datatype Token = Token(kind: TokenType, lexeme: string, literal: Payload, line: int)

  /** The number of reserved words. */
  const KeywordCount: nat := 14

  /** The reserved words, in the order the scanner's static initialiser adds them to
      its keyword map. */
  function KeywordEntry(i: nat): (e: (string, TokenType))
    requires i < KeywordCount
    ensures |e.0| >= 2 && 'A' <= e.0[0] <= 'Z'
    ensures e.1 != IDENTIFIER && e.1 != EOF
  {
    match i
    case 0 => ("INT", INT)
    case 1 => ("CHAR", CHAR)
    case 2 => ("BOOL", BOOL)
    case 3 => ("FLOAT", FLOAT)
    case 4 => ("STRING", STRING)
    case 5 => ("AND", AND)
    case 6 => ("OR", OR)
    case 7 => ("NOT", NOT)
    case 8 => ("DISPLAY", DISPLAY)
    case 9 => ("SCAN", SCAN)
    case 10 => ("NULL", NULL)
    case 11 => ("CODE", CODE)
    case 12 => ("BEGIN", BEGIN)
    case _ => ("END", END)
  }

  /** The kind of the first reserved word from entry `i` on that is spelled `s`. */
  function KeywordFrom(s: string, i: nat): (k: Option<TokenType>)
    requires i <= KeywordCount
    ensures k.Some? ==> |s| >= 2 && 'A' <= s[0] <= 'Z' && k.value != IDENTIFIER && k.value != EOF
    decreases KeywordCount - i
  {
    if i == KeywordCount then None
    else if KeywordEntry(i).0 == s then Some(KeywordEntry(i).1)
    else KeywordFrom(s, i + 1)
  }

  /** `keywords.get(text)`: `None` where the Java map yields null. The lookup is
      case-sensitive, so only the upper-case spellings are reserved. */
  function KeywordKind(s: string): Option<TokenType> {
    KeywordFrom(s, 0)
  }

  /** The kind `identifier()` gives a word: its keyword kind, or IDENTIFIER. */
  function WordKind(s: string): TokenType {
    match KeywordKind(s)
    case Some(k) => k
    case None => IDENTIFIER
  }

  predicate IsDigit(c: char) {
    '0' <= c <= '9'
  }

  predicate IsAlpha(c: char) {
    ('a' <= c <= 'z') || ('A' <= c <= 'Z') || c == '_'
  }

  predicate IsAlphaNumeric(c: char) {
    IsAlpha(c) || IsDigit(c)
  }

  /** The kind of the operator or punctuation token spelled by one character. */
  function OneCharKind(c: char): Option<TokenType> {
    match c
    case '(' => Some(L_PAREN)
    case ')' => Some(R_PAREN)
    case '{' => Some(L_BRACE)
    case '}' => Some(R_BRACE)
    case ',' => Some(COMMA)
    case '.' => Some(DOT)
    case '-' => Some(MINUS)
    case '+' => Some(PLUS)
    case ';' => Some(SEMICOLON)
    case '*' => Some(MULTIPLY)
    case '/' => Some(SLASH)
    case '!' => Some(NOT)
    case '=' => Some(EQUAL)
    case '<' => Some(LESS)
    case '>' => Some(GREATER)
    case _ => None
  }

  /** The kind of the two-character operator made of `c` and `=`. */
  function WithEqualsKind(c: char): Option<TokenType> {
    match c
    case '!' => Some(NOT_EQUAL)
    case '=' => Some(EQUAL_EQUAL)
    case '<' => Some(LESS_EQUAL)
    case '>' => Some(GREATER_EQUAL)
    case _ => None
  }

  /** The kind of the operator or punctuation token a text spells, if any. The scanner
      intercepts a lower-case "or" and emits it as OR. */
  function OperatorKind(s: string): (k: Option<TokenType>)
    ensures k.Some? ==> 1 <= |s| <= 2 && k.value != EOF && k.value != IDENTIFIER && k.value != NUMBER
  {
    if |s| == 1 then OneCharKind(s[0])
    else if |s| == 2 && s[1] == '=' then WithEqualsKind(s[0])
    else if s == "or" then Some(OR)
    else None
  }

  /** An identifier: a letter or underscore followed by letters, digits and
      underscores. A lower-case `o` never starts one, because the scanner
      consumes it first. */
  predicate IsIdentifierText(s: string) {
    && |s| > 0
    && IsAlpha(s[0])
    && s[0] != 'o'
    && forall i :: 0 <= i < |s| ==> IsAlphaNumeric(s[i])
  }

  /** A number: a digit run, optionally followed by `.` and a second digit run. */
  predicate IsNumberText(s: string) {
    && |s| > 0
    && IsDigit(s[0])
    && IsDigit(s[|s| - 1])
    && (forall i :: 0 <= i < |s| ==> IsDigit(s[i]) || s[i] == '.')
    && (forall i, j :: 0 <= i < j < |s| && s[i] == '.' ==> s[j] != '.')
  }

  /** A character literal: a quote, any text without a quote, a closing quote. */
  predicate IsCharLiteralText(s: string) {
    && |s| >= 2
    && s[0] == '\''
    && s[|s| - 1] == '\''
    && forall i :: 1 <= i < |s| - 1 ==> s[i] != '\''
  }

  /** An operator or punctuation token: no literal, and the text spells the kind. */
  predicate OperatorToken(t: Token) {
    t.literal == NoValue && OperatorKind(t.lexeme) == Some(t.kind)
  }

  /** A keyword or identifier token: no literal, identifier-shaped text, and the kind
      the keyword table gives the text. */
  predicate WordToken(t: Token) {
    t.literal == NoValue && IsIdentifierText(t.lexeme) && t.kind == WordKind(t.lexeme)
  }

  /** A number token: its literal is its own text, which is number text. */
  predicate NumberToken(t: Token) {
    t.kind == NUMBER && t.literal == NumberLit(t.lexeme) && IsNumberText(t.lexeme)
  }

  /** A string token: its text is its literal between double quotes, and the literal
      holds no double quote. */
  predicate StringToken(t: Token) {
    t.kind == STRING && t.literal.StringLit?
    && t.lexeme == ['"'] + t.literal.text + ['"'] && '"' !in t.literal.text
  }

  /** A character token: character-literal text whose value is its second character. */
  predicate CharToken(t: Token) {
    t.kind == CHAR && IsCharLiteralText(t.lexeme) && t.literal == CharLit(t.lexeme[1])
  }

  /** What every token the scanner emits looks like: its kind, its text and its
      literal agree. */
  predicate WellFormed(t: Token) {
    OperatorToken(t) || WordToken(t) || NumberToken(t) || StringToken(t) || CharToken(t)
  }

  lemma {:induction false} OperatorTokenIntro(s: string, kind: TokenType, line: int)
    requires OperatorKind(s) == Some(kind)
    ensures WellFormed(Token(kind, s, NoValue, line))
  {
    assert OperatorToken(Token(kind, s, NoValue, line));
  }

  lemma {:induction false} WordTokenIntro(s: string, line: int)
    requires IsIdentifierText(s)
    ensures WellFormed(Token(WordKind(s), s, NoValue, line))
  {
    assert WordToken(Token(WordKind(s), s, NoValue, line));
  }

  lemma {:induction false} NumberTokenIntro(s: string, line: int)
    requires IsNumberText(s)
    ensures WellFormed(Token(NUMBER, s, NumberLit(s), line))
  {
    assert NumberToken(Token(NUMBER, s, NumberLit(s), line));
  }

  lemma {:induction false} StringTokenIntro(body: string, line: int)
    requires '"' !in body
    ensures WellFormed(Token(STRING, ['"'] + body + ['"'], StringLit(body), line))
  {
    assert StringToken(Token(STRING, ['"'] + body + ['"'], StringLit(body), line));
  }

  lemma {:induction false} CharTokenIntro(text: string, line: int)
    requires IsCharLiteralText(text)
    ensures WellFormed(Token(CHAR, text, CharLit(text[1]), line))
  {
    assert CharToken(Token(CHAR, text, CharLit(text[1]), line));
  }
}

=== FILE: values.dfy ===
/** The runtime values of interpreter/Interpreter.java and the Java library behaviour
    the evaluator relies on: 32-bit `int` arithmetic, `Integer.toString`,
    `Integer.parseInt`, `String.trim`, `equalsIgnoreCase` against the words TRUE and
    FALSE, and the interpreter's own `isTruthy`, `isEqual` and `stringify`.
    A `double` is kept opaque: it is represented by its `Double.doubleToLongBits`
    pattern, and every floating-point operation is a function of a `FloatHost`. */
module Values {
  import opened Common

  const TwoTo31: int := 0x8000_0000
  const TwoTo32: int := 0x1_0000_0000

  /** A Java `int`. */
  type Int32 = x: int | -0x8000_0000 <= x < 0x8000_0000

  /** The `Double.doubleToLongBits` pattern of a Java `double`, read as unsigned. Two
      doubles are `equals` exactly when these patterns are equal. */
  type DoubleBits = x: int | 0 <= x < 0x1_0000_0000_0000_0000

  /** A runtime value: Java `null` or an object of one of the five classes the
      evaluator produces. */
  datatype Value =
    | Null
    | Integer(i: Int32)
    | Dbl(bits: DoubleBits)
    | Boolean(b: bool)
    | Character(c: char)
    | Str(s: string)

  /** The floating-point operations of the host, left uninterpreted: the arithmetic
      operators, `<` and `<=` (Java's `a > b` is `b < a` and `a >= b` is `b <= a`, also
      for NaN), unary minus, `Double.toString`, and `Double.parseDouble`, which is None
      where Java throws NumberFormatException. */
  datatype FloatHost = FloatHost(
    add: (DoubleBits, DoubleBits) -> DoubleBits,
    sub: (DoubleBits, DoubleBits) -> DoubleBits,
    mul: (DoubleBits, DoubleBits) -> DoubleBits,
    div: (DoubleBits, DoubleBits) -> DoubleBits,
    rem: (DoubleBits, DoubleBits) -> DoubleBits,
    less: (DoubleBits, DoubleBits) -> bool,
    lessEq: (DoubleBits, DoubleBits) -> bool,
    negate: DoubleBits -> DoubleBits,
    toText: DoubleBits -> string,
    parse: string -> Option<DoubleBits>)

  // ---------------------------------------------------------------- int arithmetic

  /** Java's narrowing of a mathematical integer to `int`: the one `int` congruent to
      `x` modulo 2^32. */
  function Wrap32(x: int): (r: Int32)
    ensures (r - x) % TwoTo32 == 0
    ensures -TwoTo31 <= x < TwoTo31 ==> r == x
  {
    (x + TwoTo31) % TwoTo32 - TwoTo31
  }

  function Abs(x: int): nat {
    if x < 0 then -x else x
  }

  /** Integer division rounding toward zero, as Java's `/` on `int` before overflow. */
  function TruncDiv(a: int, b: int): int
    requires b != 0
  {
    var q := Abs(a) / Abs(b);
    if (a < 0) == (b < 0) then q else -q
  }

  /** The remainder that goes with TruncDiv, as Java's `%` on `int`. */
  function TruncRem(a: int, b: int): int
    requires b != 0
  {
    a - b * TruncDiv(a, b)
  }

  /** Java's `a / b` on `int`: the truncated quotient, wrapped (only
      -2147483648 / -1 overflows, giving -2147483648). */
  function JavaDiv(a: Int32, b: Int32): (r: Int32)
    requires b != 0
    ensures a == -TwoTo31 && b == -1 ==> r == -TwoTo31
  {
    Wrap32(TruncDiv(a, b))
  }

  /** Java's `a % b` on `int`, which never overflows. */
  function JavaRem(a: Int32, b: Int32): (r: Int32)
    requires b != 0
  {
    TruncRemBounds(a, b);
    TruncRem(a, b)
  }

  /** The quotient and remainder of a truncating division: the remainder is smaller
      than the divisor in magnitude, takes the sign of the dividend, and together
      with the quotient restores the dividend. */
  lemma {:induction false} TruncRemBounds(a: int, b: int)
    requires b != 0
    ensures a == b * TruncDiv(a, b) + TruncRem(a, b)
    ensures Abs(TruncRem(a, b)) < Abs(b)
    ensures TruncRem(a, b) == 0 || (TruncRem(a, b) < 0 <==> a < 0)
    ensures Abs(TruncRem(a, b)) <= Abs(a)
  {
    var m: int := Abs(a) % Abs(b);
    assert 0 <= m < Abs(b) && m <= Abs(a);
    RemMagnitude(a, b);
  }

  /** The truncated remainder is the remainder of the magnitudes, with the sign of
      the dividend. */
  lemma {:induction false} RemMagnitude(a: int, b: int)
    requires b != 0
    ensures var m := Abs(a) % Abs(b); TruncRem(a, b) == if a < 0 then -m else m
  {
    var q: int := Abs(a) / Abs(b);
    var m: int := Abs(a) % Abs(b);
    var p := Abs(b) * q;
    assert Abs(a) == p + m;
    ProductSign(b, q, p);
    var t := TruncDiv(a, b);
    assert b * t == (if a < 0 then -p else p);
  }

  /** The product of the divisor and the truncated quotient, by signs. */
  lemma {:induction false} ProductSign(b: int, q: int, p: int)
    requires b != 0 && p == Abs(b) * q
    ensures b * q == (if b < 0 then -p else p)
    ensures b * -q == (if b < 0 then p else -p)
  {
    var magnitude: int := Abs(b);
    if b < 0 {
      assert b == -magnitude;
    }
  }

  // ---------------------------------------------------------------- decimal text

  predicate IsDigit(c: char) {
    '0' <= c <= '9'
  }

  function DigitChar(d: nat): (c: char)
    requires d < 10
    ensures IsDigit(c)
  {
    ('0' as int + d) as char
  }

  function DigitValue(c: char): (d: nat)
    requires IsDigit(c)
    ensures d < 10
  {
    c as int - '0' as int
  }

  /** Every character of `s` is a decimal digit. */
  predicate AllDigits(s: string) {
    forall i :: 0 <= i < |s| ==> IsDigit(s[i])
  }

  /** The decimal digits of `n`, most significant first, without leading zeros. */
  function Digits(n: nat): (s: string)
    ensures |s| > 0 && AllDigits(s)
    decreases n
  {
    if n < 10 then [DigitChar(n)] else Digits(n / 10) + [DigitChar(n % 10)]
  }

  /** The number a run of decimal digits denotes. */
  function DigitsValue(s: string): nat
    requires AllDigits(s)
  {
    if |s| == 0 then 0 else 10 * DigitsValue(s[..|s| - 1]) + DigitValue(s[|s| - 1])
  }

  /** A run of `k` zeros. */
  function Zeros(k: nat): (s: string)
    ensures |s| == k && AllDigits(s)
  {
    seq(k, _ => '0')
  }

  /** The text after one optional leading sign. */
  function Unsigned(s: string): (u: string)
    ensures |u| >= |s| - 1
  {
    if |s| > 0 && (s[0] == '-' || s[0] == '+') then s[1..] else s
  }

  /** `s` spells `v` in the form `Integer.parseInt` reads: an optional sign, any
      number of leading zeros, then the digits of the magnitude of `v`. A negative
      value has a `-`, and a `-` only goes with a value that is not positive ("-0"
      spells zero). */
  predicate Spells(s: string, v: int) {
    var body := Unsigned(s);
    var digits := Digits(Abs(v));
    && |digits| <= |body|
    && body == Zeros(|body| - |digits|) + digits
    && (v < 0 ==> |s| > 0 && s[0] == '-')
    && (|s| > 0 && s[0] == '-' ==> v <= 0)
  }

  /** A run of digits is some leading zeros followed by the digits of the number it
      denotes. */
  lemma {:induction false} DigitsCanonical(d: string)
    requires |d| > 0 && AllDigits(d)
    ensures |Digits(DigitsValue(d))| <= |d|
    ensures d == Zeros(|d| - |Digits(DigitsValue(d))|) + Digits(DigitsValue(d))
    decreases |d|
  {
    var init, x := d[..|d| - 1], d[|d| - 1];
    assert d == init + [x];
    assert DigitChar(DigitValue(x)) == x;
    var n := DigitsValue(d);
    if |init| == 0 {
      assert Digits(n) == [x];
      assert d == Zeros(0) + [x];
    } else {
      DigitsCanonical(init);
      var m := DigitsValue(init);
      assert n == 10 * m + DigitValue(x);
      var k := |init| - |Digits(m)|;
      if m == 0 {
        assert Digits(n) == [x];
        assert init == Zeros(k) + "0";
        assert d == Zeros(|d| - 1) + [x];
      } else {
        assert n / 10 == m && n % 10 == DigitValue(x);
        assert Digits(n) == Digits(m) + [x];
        assert d == Zeros(k) + Digits(m) + [x];
      }
    }
  }

  /** `Integer.toString`: an optional minus sign and the digits of the magnitude. */
  function IntToString(i: int): string {
    if i < 0 then "-" + Digits(-i) else Digits(i)
  }

  /** `Integer.parseInt(s)` in base 10: an optional `-` or `+`, then at least one
      decimal digit, denoting a number in the `int` range; None where Java throws
      NumberFormatException. Leading zeros are accepted. */
  function ParseInt(s: string): (r: Option<Int32>)
    ensures r.Some? ==> |s| > 0
  {
    if |s| == 0 then None
    else
      var negative := s[0] == '-';
      var digits := Unsigned(s);
      if |digits| == 0 || !AllDigits(digits) then None
      else
        var n: int := DigitsValue(digits);
        var v := if negative then -n else n;
        if -TwoTo31 <= v < TwoTo31 then Some(v) else None
  }

  /** The digits of a number denote that number. */
  lemma {:induction false} DigitsRoundTrip(n: nat)
    ensures DigitsValue(Digits(n)) == n
    decreases n
  {
    if n >= 10 {
      var s := Digits(n);
      DigitsRoundTrip(n / 10);
      assert s[..|s| - 1] == Digits(n / 10);
    }
  }

  /** `Integer.parseInt` reads back what `Integer.toString` writes. */
  lemma {:induction false} IntTextRoundTrip(i: Int32)
    ensures ParseInt(IntToString(i)) == Some(i)
  {
    var s := IntToString(i);
    var n: nat := Abs(i);
    var digits := Digits(n);
    DigitsRoundTrip(n);
    if i < 0 {
      assert s[0] == '-' && s[1..] == digits;
    } else {
      assert s == digits && IsDigit(s[0]);
    }
    assert AllDigits(digits);
  }

  // ---------------------------------------------------------------- input text

  /** `String.trim`: the characters up to U+0020 are blanks. */
  predicate IsBlank(c: char) {
    c <= ' '
  }

  /** The end of the leading blanks of `s` from `i` on. */
  function TrimStart(s: string, i: nat): (a: nat)
    requires i <= |s|
    ensures i <= a <= |s|
    ensures forall k :: i <= k < a ==> IsBlank(s[k])
    ensures a == |s| || !IsBlank(s[a])
    decreases |s| - i
  {
    if i < |s| && IsBlank(s[i]) then TrimStart(s, i + 1) else i
  }

  /** The start of the trailing blanks of `s[..j]`, not below `a`. */
  function TrimEnd(s: string, a: nat, j: nat): (b: nat)
    requires a <= j <= |s|
    ensures a <= b <= j
    ensures forall k :: b <= k < j ==> IsBlank(s[k])
    ensures b == a || !IsBlank(s[b - 1])
    decreases j
  {
    if a < j && IsBlank(s[j - 1]) then TrimEnd(s, a, j - 1) else j
  }

  /** `String.trim`: the text without its leading and trailing blanks. The result is
      a slice of the input that neither starts nor ends with a blank, and everything
      cut off is blank. */
  function Trim(s: string): (r: string)
    ensures exists a, b :: 0 <= a <= b <= |s| && r == s[a..b]
              && (forall k :: 0 <= k < a ==> IsBlank(s[k]))
              && (forall k :: b <= k < |s| ==> IsBlank(s[k]))
    ensures |r| > 0 ==> !IsBlank(r[0]) && !IsBlank(r[|r| - 1])
  {
    var a := TrimStart(s, 0);
    var b := TrimEnd(s, a, |s|);
    s[a..b]
  }

  /** `equalsIgnoreCase` with a word of upper-case ASCII letters: a character matches
      a letter when it is that letter, its lower-case form, or (for S) the long s
      U+017F, whose upper-case form is S. */
  predicate FoldsTo(c: char, k: char)
    requires 'A' <= k <= 'Z'
  {
    c == k || c as int == k as int + 32 || (k == 'S' && c == 'ſ')
  }

  predicate EqualsIgnoreCase(s: string, word: string)
    requires forall i :: 0 <= i < |word| ==> 'A' <= word[i] <= 'Z'
  {
    |s| == |word| && forall i :: 0 <= i < |s| ==> FoldsTo(s[i], word[i])
  }

  // ---------------------------------------------------------------- the evaluator's helpers

  /** `isTruthy`: null and false are falsy, every other value is truthy. */
  function IsTruthy(v: Value): (r: bool)
    ensures !r <==> v == Null || v == Boolean(false)
  {
    match v
    case Null => false
    case Boolean(b) => b
    case _ => true
  }

  /** `Object.equals` of the five classes: same class and same value. A double is
      compared through its bit pattern, as `Double.equals` does. */
  function ObjectEquals(a: Value, b: Value): bool
    requires a != Null
  {
    match a
    case Integer(x) => b.Integer? && b.i == x
    case Dbl(x) => b.Dbl? && b.bits == x
    case Boolean(x) => b.Boolean? && b.b == x
    case Character(x) => b.Character? && b.c == x
    case Str(x) => b.Str? && b.s == x
  }

  /** `isEqual`: two nulls are equal, null equals nothing else, and otherwise the
      left operand's `equals` decides. */
  function IsEqual(a: Value, b: Value): bool {
    if a == Null && b == Null then true
    else if a == Null then false
    else ObjectEquals(a, b)
  }

  /** A double's text without a trailing ".0". */
  function StripPointZero(text: string): (r: string)
    ensures r == text || r + ".0" == text
    ensures |text| >= 2 && text[|text| - 2..] == ".0" ==> r + ".0" == text
  {
    if |text| >= 2 && text[|text| - 2..] == ".0" then text[..|text| - 2] else text
  }

  /** `stringify`: "null" for null, a double's `toString` without a trailing ".0",
      and every other value's own `toString`. */
  function Stringify(h: FloatHost, v: Value): string {
    match v
    case Null => "null"
    case Dbl(bits) => StripPointZero(h.toText(bits))
    case Integer(i) => IntToString(i)
    case Boolean(b) => if b then "true" else "false"
    case Character(c) => [c]
    case Str(s) => s
  }

  /** The tags the typed declarations record, one per class. */
  const BooleanTag: string := "Boolean"
  const IntegerTag: string := "Integer"
  const FloatTag: string := "Float"
  const CharacterTag: string := "Character"
  const StringTag: string := "String"

  /** `scanInput` after reading the line: the trimmed text is a Boolean if it is
      TRUE or FALSE in any case, else an Integer if `Integer.parseInt` accepts it,
      else a Double if `Double.parseDouble` does, else a Character if it is one
      character long, else the String itself. */
  function Classify(h: FloatHost, line: string): Value {
    var s := Trim(line);
    if EqualsIgnoreCase(s, "TRUE") || EqualsIgnoreCase(s, "FALSE") then Boolean(EqualsIgnoreCase(s, "TRUE"))
    else if ParseInt(s).Some? then Integer(ParseInt(s).value)
    else if h.parse(s).Some? then Dbl(h.parse(s).value)
    else if |s| == 1 then Character(s[0])
    else Str(s)
  }
}

=== FILE: values_facts.dfy ===
/** Properties of the runtime values: `isEqual` is equality of values, the `int`
    operators satisfy Java's division identity, and text the interpreter writes for
    an Integer or a Boolean is read back by the input classification as the same
    value. */
module ValuesFacts {
  import opened Common
  import opened Values

  /** `isEqual` is exactly equality of values: same class and same contents, so an
      Integer never equals a Double and null equals only null. */
  lemma {:induction false} IsEqualIsEquality(a: Value, b: Value)
    ensures IsEqual(a, b) <==> a == b
  {
    if a != Null {
      match a
      case Integer(_) =>
      case Dbl(_) =>
      case Boolean(_) =>
      case Character(_) =>
      case Str(_) =>
    }
  }

  /** `Wrap32` is the only `int` congruent to its argument modulo 2^32. */
  lemma {:induction false} Wrap32Unique(x: int, r: Int32)
    requires (r - x) % TwoTo32 == 0
    ensures r == Wrap32(x)
  {
    var w := Wrap32(x);
    var k1 := (r - x) / TwoTo32;
    var k2 := (w - x) / TwoTo32;
    assert r - x == TwoTo32 * k1;
    assert w - x == TwoTo32 * k2;
    assert r - w == TwoTo32 * (k1 - k2);
    assert -TwoTo32 < r - w < TwoTo32;
  }

  /** Multiplying by a natural number is monotone. */
  lemma {:induction false} MulMono(y1: int, y2: int, q: nat)
    requires y1 <= y2
    ensures y1 * q <= y2 * q
  {
    var d := y2 - y1;
    assert y2 * q == y1 * q + d * q;
    assert d * q >= 0;
  }

  /** A quotient by a positive divisor is at most the dividend, and equal to it only
      for the divisor 1 or the dividend 0. */
  lemma {:induction false} QuotientAtMost(x: nat, y: nat)
    requires y >= 1
    ensures x / y <= x
    ensures x / y == x ==> y == 1 || x == 0
  {
    var q := x / y;
    var r := x % y;
    assert x == y * q + r && r >= 0;
    MulMono(1, y, q);
    if q == x && x > 0 && y >= 2 {
      MulMono(2, y, q);
    }
  }

  /** The truncated quotient fits in an `int` except for -2147483648 / -1. */
  lemma {:induction false} TruncDivRange(a: Int32, b: Int32)
    requires b != 0 && !(a == -TwoTo31 && b == -1)
    ensures -TwoTo31 <= TruncDiv(a, b) < TwoTo31
  {
    var x: nat := Abs(a);
    var y: nat := Abs(b);
    QuotientAtMost(x, y);
    var q := x / y;
    assert q <= TwoTo31;
    if q == TwoTo31 {
      assert y == 1 && a == -TwoTo31 && b == 1;
    }
  }

  /** Outside the one overflow, Java's `/` on `int` is the truncated quotient. */
  lemma {:induction false} NoOverflowQuotient(a: Int32, b: Int32)
    requires b != 0 && !(a == -TwoTo31 && b == -1)
    ensures JavaDiv(a, b) == TruncDiv(a, b)
  {
    TruncDivRange(a, b);
  }

  /** Java's identity `(a / b) * b + a % b == a` holds in `int` arithmetic for every
      nonzero divisor, the overflowing -2147483648 / -1 included. */
  lemma {:induction false} DivisionIdentity(a: Int32, b: Int32)
    requires b != 0
    ensures Wrap32(Wrap32(JavaDiv(a, b) * b) + JavaRem(a, b)) == a
  {
    if a == -TwoTo31 && b == -1 {
      OverflowIdentity();
    } else {
      TruncRemBounds(a, b);
      NoOverflowQuotient(a, b);
      var q := TruncDiv(a, b);
      var m := TruncRem(a, b);
      assert JavaRem(a, b) == m;
      assert q * b == a - m;
      assert Wrap32(q * b) == a - m;
    }
  }

  /** The identity for the one overflowing division. */
  lemma {:induction false} OverflowIdentity()
    ensures Wrap32(Wrap32(JavaDiv(-TwoTo31, -1) * -1) + JavaRem(-TwoTo31, -1)) == -TwoTo31
  {
    assert TruncDiv(-TwoTo31, -1) == TwoTo31;
    assert TruncRem(-TwoTo31, -1) == 0;
    assert JavaDiv(-TwoTo31, -1) == -TwoTo31;
  }

  /** Java's `%` on `int`: the remainder is smaller than the divisor in magnitude and
      is zero or has the sign of the dividend. */
  lemma {:induction false} RemainderSign(a: Int32, b: Int32)
    requires b != 0
    ensures Abs(JavaRem(a, b)) < Abs(b)
    ensures JavaRem(a, b) == 0 || (JavaRem(a, b) < 0 <==> a < 0)
  {
    TruncRemBounds(a, b);
  }

  /** Text that starts and ends with a non-blank character is its own trim. */
  lemma {:induction false} TrimKeeps(s: string)
    requires |s| == 0 || (!IsBlank(s[0]) && !IsBlank(s[|s| - 1]))
    ensures Trim(s) == s
  {
    if |s| > 0 {
      assert TrimStart(s, 0) == 0;
      assert TrimEnd(s, 0, |s|) == |s|;
      assert s[0..|s|] == s;
    }
  }

  /** Trimming twice is trimming once. */
  lemma {:induction false} TrimIdempotent(s: string)
    ensures Trim(Trim(s)) == Trim(s)
  {
    TrimKeeps(Trim(s));
  }

  /** The text of an `int` is not a Boolean word: it starts with a digit or a minus. */
  lemma {:induction false} NumberTextNotWord(i: Int32)
    ensures !EqualsIgnoreCase(IntToString(i), "TRUE") && !EqualsIgnoreCase(IntToString(i), "FALSE")
  {
    var s := IntToString(i);
    var n: nat := Abs(i);
    if i < 0 {
      assert s[0] == '-';
    } else {
      assert s == Digits(n) && IsDigit(s[0]);
    }
  }

  /** An Integer written by `stringify` and read back by `scanInput` is the same
      Integer. */
  lemma {:induction false} IntegerReadsBack(h: FloatHost, i: Int32)
    ensures Classify(h, Stringify(h, Integer(i))) == Integer(i)
  {
    var s := IntToString(i);
    var n: nat := Abs(i);
    var digits := Digits(n);
    if i < 0 {
      assert s[0] == '-' && s[1..] == digits;
      assert s[|s| - 1] == digits[|digits| - 1];
    } else {
      assert s == digits;
    }
    TrimKeeps(s);
    NumberTextNotWord(i);
    IntTextRoundTrip(i);
  }

  /** A Boolean written by `stringify` and read back by `scanInput` is the same
      Boolean. */
  lemma {:induction false} BooleanReadsBack(h: FloatHost, b: bool)
    ensures Classify(h, Stringify(h, Boolean(b))) == Boolean(b)
  {
    var s := Stringify(h, Boolean(b));
    TrimKeeps(s);
    if b {
      assert EqualsIgnoreCase(s, "TRUE");
    } else {
      assert !EqualsIgnoreCase(s, "TRUE") by { assert |s| != 4; }
      assert EqualsIgnoreCase(s, "FALSE");
    }
  }

  /** The Boolean words are recognised in any mix of cases and with blanks around. */
  lemma {:induction false} MixedCaseBoolean(h: FloatHost)
    ensures Classify(h, "  tRuE ") == Boolean(true)
    ensures Classify(h, "False\t") == Boolean(false)
  {
    var s := "  tRuE ";
    assert TrimStart(s, 0) == 2;
    assert TrimEnd(s, 2, 7) == 6;
    assert Trim(s) == "tRuE";
    assert EqualsIgnoreCase("tRuE", "TRUE");
    var t := "False\t";
    assert TrimStart(t, 0) == 0;
    assert TrimEnd(t, 0, 6) == 5;
    assert Trim(t) == "False";
    assert !EqualsIgnoreCase("False", "TRUE");
    assert EqualsIgnoreCase("False", "FALSE");
  }

  /** A single non-blank character that is no number is read as a Character; a
      longer text that is no Boolean word and no number is read as a String. */
  lemma {:induction false} CharacterOrString(h: FloatHost, line: string)
    requires var s := Trim(line); ParseInt(s).None? && h.parse(s).None?
    requires !EqualsIgnoreCase(Trim(line), "TRUE") && !EqualsIgnoreCase(Trim(line), "FALSE")
    ensures |Trim(line)| == 1 ==> Classify(h, line) == Character(Trim(line)[0])
    ensures |Trim(line)| != 1 ==> Classify(h, line) == Str(Trim(line))
  {
  }

  /** `Integer.parseInt` takes one optional sign and leading zeros. */
  lemma {:induction false} ParseIntExamples()
    ensures ParseInt("+7") == Some(7)
    ensures ParseInt("-0012") == Some(-12)
  {
    assert DigitsValue("7") == 7 by { assert "7"[..0] == []; }
    assert DigitsValue("0012") == 12 by {
      assert "0012"[..3] == "001" && "001"[..2] == "00" && "00"[..1] == "0" && "0"[..0] == [];
    }
  }

  /** Leading zeros add nothing to the number a run of digits denotes. */
  lemma {:induction false} ZerosValue(k: nat, ds: string)
    requires AllDigits(ds)
    ensures AllDigits(Zeros(k) + ds) && DigitsValue(Zeros(k) + ds) == DigitsValue(ds)
    decreases |ds|, k
  {
    var s := Zeros(k) + ds;
    assert AllDigits(s) by {
      forall i | 0 <= i < |s| ensures IsDigit(s[i]) {
        if i >= k {
          assert s[i] == ds[i - k];
        }
      }
    }
    if |ds| > 0 {
      var init := ds[..|ds| - 1];
      assert s[..|s| - 1] == Zeros(k) + init;
      assert s[|s| - 1] == ds[|ds| - 1];
      ZerosValue(k, init);
    } else if k > 0 {
      assert s == Zeros(k);
      assert s[..k - 1] == Zeros(k - 1) + [];
      ZerosValue(k - 1, []);
    }
  }

  /** `Integer.parseInt` accepts exactly the spellings of a value in the `int`
      range: an optional sign, leading zeros and the digits of the magnitude, with
      a `-` for a negative value. */
  lemma {:induction false} ParseIntSpells(s: string, v: Int32)
    ensures ParseInt(s) == Some(v) <==> Spells(s, v)
  {
    if ParseInt(s) == Some(v) {
      DigitsCanonical(Unsigned(s));
    }
    if Spells(s, v) {
      SpelledDigits(s, v);
      var m: int := Abs(v);
      var w := if s[0] == '-' then -m else m;
      assert w == v;
      assert ParseInt(s) == Some(w);
    }
  }

  /** The digits of a spelling denote the magnitude it spells. */
  lemma {:induction false} SpelledDigits(s: string, v: int)
    requires Spells(s, v)
    ensures |s| > 0 && |Unsigned(s)| > 0
    ensures AllDigits(Unsigned(s)) && DigitsValue(Unsigned(s)) == Abs(v)
  {
    var digits := Digits(Abs(v));
    ZerosValue(|Unsigned(s)| - |digits|, digits);
    DigitsRoundTrip(Abs(v));
  }

  /** A run of digits is read as the number it denotes when that fits an `int`;
      with a `-` in front, the range reaches one further. */
  lemma {:induction false} ParseIntRange(n: nat)
    ensures ParseInt(Digits(n)) == if n < TwoTo31 then Some(n) else None
    ensures ParseInt("-" + Digits(n)) == if n <= TwoTo31 then Some(-(n as int)) else None
  {
    var d := Digits(n);
    DigitsRoundTrip(n);
    UnsignedText(d, n);
    SignedText(d, n);
  }

  /** The unsigned half of ParseIntRange. */
  lemma {:induction false} UnsignedText(d: string, n: nat)
    requires |d| > 0 && AllDigits(d) && DigitsValue(d) == n
    ensures ParseInt(d) == if n < TwoTo31 then Some(n) else None
  {
    assert IsDigit(d[0]);
  }

  /** The negative half of ParseIntRange. */
  lemma {:induction false} SignedText(d: string, n: nat)
    requires |d| > 0 && AllDigits(d) && DigitsValue(d) == n
    ensures ParseInt("-" + d) == if n <= TwoTo31 then Some(-(n as int)) else None
  {
    assert ("-" + d)[1..] == d;
  }

  /** The first nine digits of both edges of the `int` range. */
  lemma {:induction false} EdgeDigits()
    ensures DigitsValue("214748364") == 214748364
  {
    var p := "214748364";
    assert p[..8] == "21474836" && "21474836"[..7] == "2147483" && "2147483"[..6] == "214748";
    assert "214748"[..5] == "21474" && "21474"[..4] == "2147" && "2147"[..3] == "214";
    assert "214"[..2] == "21" && "21"[..1] == "2" && "2"[..0] == [];
  }

  /** The upper edge of the `int` range: 2147483647 is read, 2147483648 is not an
      Integer. */
  lemma {:induction false} ParseIntUpperEdge()
    ensures ParseInt("2147483647") == Some(2147483647)
    ensures ParseInt("2147483648") == None
  {
    EdgeDigits();
    assert "2147483647"[..9] == "214748364" && "2147483648"[..9] == "214748364";
    UnsignedText("2147483647", 2147483647);
    UnsignedText("2147483648", 2147483648);
  }

  /** The lower edge of the `int` range: -2147483648 is read, -2147483649 is not an
      Integer. */
  lemma {:induction false} ParseIntLowerEdge()
    ensures ParseInt("-2147483648") == Some(-2147483648)
    ensures ParseInt("-2147483649") == None
  {
    EdgeDigits();
    assert "2147483648"[..9] == "214748364" && "2147483649"[..9] == "214748364";
    SignedText("2147483648", 2147483648);
    SignedText("2147483649", 2147483649);
    assert "-" + "2147483648" == "-2147483648" && "-" + "2147483649" == "-2147483649";
  }

  /** A number one past the `int` range is no Integer for `scanInput`: the line
      falls through to `Double.parseDouble`, and becomes a String when that fails
      too. */
  lemma {:induction false} BeyondIntRange(h: FloatHost)
    ensures var s := "2147483648";
            Classify(h, s) == if h.parse(s).Some? then Dbl(h.parse(s).value) else Str(s)
  {
    var s := "2147483648";
    TrimKeeps(s);
    ParseIntUpperEdge();
  }

  /** `stringify` writes null as the word "null", so displayed, null and the
      String "null" cannot be told apart. */
  lemma {:induction false} NullPrintsAsText(h: FloatHost)
    ensures Stringify(h, Null) == "null" == Stringify(h, Str("null"))
  {
  }

  /** `Integer.parseInt` rejects a lone sign, the empty text and anything that is
      not a digit. */
  lemma {:induction false} ParseIntRejects()
    ensures ParseInt("") == None && ParseInt("-") == None && ParseInt("a") == None
    ensures ParseInt("1.5") == None && ParseInt("+-1") == None
  {
    assert !AllDigits("a") by { assert !IsDigit("a"[0]); }
    assert !AllDigits("1.5") by { assert !IsDigit("1.5"[1]); }
    assert !AllDigits("-1") by { assert !IsDigit("-1"[0]); }
  }

  /** A blank-padded letter that the host does not read as a number is a Character;
      a word is a String. */
  lemma {:induction false} LetterAndWord(h: FloatHost)
    requires h.parse("x").None? && h.parse("abc").None?
    ensures Classify(h, " x ") == Character('x')
    ensures Classify(h, "abc\t") == Str("abc")
  {
    assert TrimStart(" x ", 0) == 1 && TrimEnd(" x ", 1, 3) == 2;
    assert Trim(" x ") == "x";
    assert !AllDigits("x") by { assert !IsDigit("x"[0]); }
    assert !EqualsIgnoreCase("x", "TRUE") && !EqualsIgnoreCase("x", "FALSE");
    CharacterOrString(h, " x ");
    assert TrimStart("abc\t", 0) == 0 && TrimEnd("abc\t", 0, 4) == 3;
    assert Trim("abc\t") == "abc";
    assert !AllDigits("abc") by { assert !IsDigit("abc"[0]); }
    assert !EqualsIgnoreCase("abc", "TRUE") && !EqualsIgnoreCase("abc", "FALSE");
    CharacterOrString(h, "abc\t");
  }

  /** A text `Integer.parseInt` accepts is read as that Integer, never as a Double,
      Character or String, even when it is one digit long. */
  lemma {:induction false} DigitIsInteger(h: FloatHost, c: char)
    requires IsDigit(c)
    ensures Classify(h, [c]) == Integer(DigitValue(c))
  {
    var s := [c];
    TrimKeeps(s);
    assert DigitsValue(s) == DigitValue(c) by {
      assert s[..0] == [];
    }
  }
}
